=== FILE: README.md ===
# blomp-api folder tree, files, paths and transfer monitors in Dafny

This project models the core of blomp-api, a Python client for the Blomp cloud-storage
dashboard. It models both revisions of the library: the current one under `blomp_api/` and the
older one under `src/`. The model covers:

- `Path`: parsing on `/` and `\`, `p / q`, `parent` and `as_dir`.
- The remote `File`: its metadata, its full path, renaming, sharing and the share switches.
- The remote `Folder`:
  - the listing (`reload`, or the older constructor loop);
  - the rule that a file of at least 100 MiB hides a same-named subfolder;
  - lazily materialized subfolder slots, indexing, iteration and lookup by name;
  - path propagation to materialized subfolders and files;
  - `create_folder`, `delete`, `paste`, `rename`, `safe_rename`, and the argument checks and
    form of `upload`.
- The progress `Monitor`.

Every operation is a pure function. It returns three things:

- the requests it sends to the dashboard, one `Protocol.Request` per endpoint with the query or
  form fields the library fills in;
- the local state it leaves behind, also when it raises, because the source never rolls back
  (constructors are the exception: a raising constructor leaves no object);
- what it returns, or the Python exception it raises (`Results.Result`).

Server replies are parameters. Folder listings come from a `Lister` function from prefix
strings to listing entries. The two revisions share one `Folder` datatype. A `Revision`
parameter selects where they differ: the large-file rule at reload, and the root test
(`bool(path)` against `bool(str(path))`, which `Paths.TruthyIffNonEmptyString` shows to agree).

Module layout:

- `Paths`: `path.py`.
- `Files`: `file.py`.
- `Folders`: the folder datatype, listing, indexing, lookup and path propagation.
- `Placement`: the placement invariant that path propagation establishes.
- `FolderOps`: the operations that change the cloud.
- `LegacyFolders`: where `src/fso/folder.py` differs.
- `Uploads`: `upload`.
- `Monitors`: the three monitor classes.
- `Text`: `str(int)` and its inverse.
- `Protocol`: listing records, requests and constants.
- `Results`: `Option` and `Result`.

Some behaviours of the source are modelled as written and stated as properties:

- The large-file rule removes entries from the list it is iterating over, so it skips the
  entry after each removal (`Folders.CollisionPassSkipsNeighbour`).
- `File.rename` does not recompute `file_path` (`Files.RenameLeavesPathStale`).
- The share switches set the local status whatever the server replied
  (`Files.SwitchTwiceFails`).
- `safe_rename` looks the new folder up in the parent's stale cache and ignores the paste
  replies (`FolderOps.SafeRename`, `FolderOps.SafeRenameIgnoresPasteReplies`). A name that
  was not listed when the parent's cache was filled is never found, so renaming a non-empty
  folder to a fresh name raises before the first paste. An empty folder is deleted on the
  server first, and the rename then raises `AttributeError`.

## Model

| member | source | states |
|---|---|---|
| Paths.Parse | blomp_api/utils/path.py:15-18 | the stored components are non-empty and contain no `/` or `\` |
| Paths.FromString | src/utils/path.py:5-8 | `Path(s, c)` keeps exactly the parsed components and the separator; with `/` or `\` as separator the path is well formed |
| Paths.RDivStr | src/utils/path.py:22-26 | `s / p` has the components of `s` followed by those of `p`, rendered with `/` |
| Paths.StringRoundTrip | blomp_api/utils/path.py:15-27 | re-parsing `str(p)` with its separator gives back `p` |
| Paths.TruthyIffNonEmptyString | blomp_api/utils/path.py:20-27 | `bool(p)` holds exactly when `str(p)` is not empty, so both revisions' root tests agree |
| Paths.DivRootIdentity | blomp_api/utils/path.py:29-33 | the root path is a left and right identity of `/` |
| Paths.ParentOfChild | blomp_api/utils/path.py:47-51 | `(p / n).parent == p` for one component `n` |
| Paths.ParentOfRoot | blomp_api/utils/path.py:48-51 | the root's parent is the root |
| Paths.AsDirRoundTrip | blomp_api/utils/path.py:53-76 | the leading and trailing separators of `as_dir` add no components: parsing it gives the path's components |
| Paths.ParseTrailingSep | blomp_api/utils/path.py:17 | a trailing `/` adds no component |
| Paths.ParseAfterDir | blomp_api/utils/path.py:73-76 | text appended to `as_dir()` parses as further components after the path's own |
| Paths.AsDirOfRoot | blomp_api/utils/path.py:73-76 | the root renders as `/` with an end separator and as the empty string without |
| Files.New | blomp_api/fso/file.py:18-33 | with the timestamp taken as given (see "## Left out"), the file is built exactly when the listed name has a component (otherwise `IndexError`); it takes the last component as name, copies the metadata, has no share state, and its `file_path` is `str(owner / name)` |
| Files.FullPathParts | blomp_api/fso/file.py:33 | the full path parses to the owner's components followed by the name |
| Files.NewFullPath | src/fso/file.py:16-31 | a freshly built file's full path names its owner, then its own name |
| Files.ParentPathChanged | blomp_api/fso/file.py:55-57 | a new owner and a recomputed full path; name and metadata untouched |
| Files.ParentPathChangedOverrides | blomp_api/fso/file.py:55-57 | re-parenting twice is re-parenting once to the second owner |
| Files.FetchShareInfo | blomp_api/fso/file.py:59-65 | one share-link request for the current full path and size; caches the id, `bool(status)`, and a link made of the share base followed by the returned slug; nothing else changes |
| Files.EnsureShareInfo | blomp_api/fso/file.py:197-198 | fetches only when no share state is cached, and leaves one cached afterwards |
| Files.RenameDirectoryShape | blomp_api/fso/file.py:161 | the directory argument names the owner's components in both revisions; the current one adds a trailing `/` for a non-root owner and sends `""` for the root |
| Files.Rename | blomp_api/fso/file.py:147-170 | one rename request; the result is whether the reply is `"success"`; on success the name changes, the share record is the one freshly fetched for the old `file_path`, and every other field (owner, `file_path`, size, hash, type, time) is kept; otherwise nothing changes |
| Files.RenameLeavesPathStale | blomp_api/fso/file.py:165-168 | after a successful rename to another name, `file_path` no longer names the file |
| Files.RemoveSpaces | blomp_api/fso/file.py:193 | the result has no space and keeps every other character as often as the input has it; input without spaces comes back unchanged |
| Files.RemoveSpacesConcat | blomp_api/fso/file.py:193 | removing spaces from a concatenation concatenates the results, so the kept characters stay in order |
| Files.Share | blomp_api/fso/file.py:172-205 | `TypeError` with no request exactly when some email is not a string. Otherwise: the share record is fetched exactly as `__share_info` would, the file is left as that fetch leaves it and nothing else changes, then one send request carrying the cached link; permission is 1 exactly when anyone may view; the email field is `str(emails)` without spaces when emails are given, and empty exactly when there are none or that string is; the link is returned |
| Files.ShareFetchesOnce | blomp_api/fso/file.py:197-198 | a second `share` sends no share-link request |
| Files.Switch | blomp_api/fso/file.py:207-247 | raises exactly when the (possibly freshly fetched) status already equals the target, keeping the fetch; otherwise one switch request with the cached id, the local status becomes the target whatever the reply, and nothing else in the file changes |
| Files.SwitchTwiceFails | blomp_api/fso/file.py:219-245 | switching to the same state twice raises the second time without any request, whatever the first reply was |
| Files.Delete | src/fso/file.py:75-78 | one delete request for the full path; the reply's truth value is returned |
| Folders.EntryName | blomp_api/fso/folder.py:292 | a subfolder entry has a name exactly when its `subdir` has a component, and the name is a single component |
| Folders.SubdirsOf | blomp_api/fso/folder.py:281-284 | exactly the `subdir` entries of the listing |
| Folders.FileDataOf | blomp_api/fso/folder.py:281-287 | exactly the file entries that are not directory markers |
| Folders.SubdirsOfConcat | blomp_api/fso/folder.py:281-284 | the `subdir` entries of two listings in a row are those of the first followed by those of the second, so listing order and repeats are kept |
| Folders.FileDataOfConcat | blomp_api/fso/folder.py:281-287 | the same for the file entries that are not directory markers |
| Folders.BuildFiles | blomp_api/fso/folder.py:286-287 | `IndexError` exactly when some entry's name has no component; otherwise one file per entry, each built from its entry |
| Folders.FirstIndex | blomp_api/fso/folder.py:294 | the position `list.remove` looks for: it holds `x`, and no earlier position does |
| Folders.RemoveFirst | blomp_api/fso/folder.py:294 | `list.remove` drops the first occurrence of `x` and nothing else: the result is the list without that one position |
| Folders.CollisionPass | blomp_api/fso/folder.py:291-294 | the pass only raises `IndexError`, and never does when every remaining entry has a name |
| Folders.CollisionPassMembers | blomp_api/fso/folder.py:289-294 | the pass only removes entries, and only entries with the file's name |
| Folders.CollisionPassFilters | blomp_api/fso/folder.py:289-294 | when no two neighbouring entries carry the name, the pass equals the intended filter that drops every entry with the name |
| Folders.CollisionPassSkipsNeighbour | blomp_api/fso/folder.py:291-294 | on `["a/x", "b/x"]` and a large file `x`, the pass keeps `b/x`, where the filter keeps nothing |
| Folders.ApplyCollisions | blomp_api/fso/folder.py:289-294 | the rule keeps only listed entries, keeps every entry that no large file shadows, and only fails on an unnamed entry |
| Folders.Reload | blomp_api/fso/folder.py:273-297 | one listing request for the directory string; apart from the unparsed timestamp (see "## Left out"), `IndexError` is the only failure, and a listing whose entries all have names never fails; path, directory string and name are kept. On `IndexError` the slots are as before and the files are those the file loop appended before it stopped (`Folders.BuildPrefix`), all of them when the large-file pass raised. On success all slots are unexpanded, and the older revision keeps every `subdir` entry in order |
| Folders.BuildPrefix | blomp_api/fso/folder.py:281-287 | the files appended before the loop stops: one per entry, built from it, in order, up to the first entry whose name has no component, or all of them when none fails |
| Folders.ReloadContents | blomp_api/fso/folder.py:273-297 | one file per non-marker file entry, built from it; every slot comes from a listed `subdir`; every listed `subdir` has a slot unless a large file shadows it (current revision) |
| Folders.Open | blomp_api/fso/folder.py:22-32 | one listing request for the directory string; the folder keeps the path, is named by its last component, renders `as_dir` with an end separator exactly when not root, and starts with unexpanded slots |
| Folders.Materialize | blomp_api/fso/folder.py:38-40 | a folder built from a `subdir` entry has the entry's components as its path and the entry's name |
| Folders.OpenRoot | blomp_api/blomp.py:101-105 | the root is listed under the empty prefix and has the empty name and directory string |
| Folders.GetItem | blomp_api/fso/folder.py:34-44 | indices below the slot count address slots (negative ones from the end, `IndexError` past `-len`); an unexpanded slot is materialized with its listing request and stored in place; other indices address the files or raise `IndexError`; nothing else changes |
| Folders.GetItemMemoized | blomp_api/fso/folder.py:38-40 | indexing the same position again sends nothing and returns the same item |
| Folders.ExpandFrom | blomp_api/fso/folder.py:46-47 | succeeds exactly when every unexpanded slot from `k` on opens; then each becomes the folder opened from its `subdir` entry, the listing requests go out in slot order (`Folders.OpenRequests`), and materialized slots are left alone |
| Folders.Iterate | blomp_api/fso/folder.py:46-47 | succeeds exactly when every unexpanded slot opens; then every subfolder, each unexpanded one being the folder opened from its `subdir` entry, and then every file, in order, after one listing request per unexpanded slot in slot order |
| Folders.IterateMatchesIndexing | blomp_api/fso/folder.py:46-47 | after iterating, `folder[i]` is the `i`-th item with no further request |
| Folders.Subfolders | blomp_api/fso/folder.py:135-139 | succeeds exactly when every unexpanded slot opens; then one folder per slot in slot order: the cached folder, or the folder opened from the slot's `subdir` entry, after one listing request per unexpanded slot |
| Folders.FindFile | blomp_api/fso/folder.py:206-208 | the first position holding the name, and none exactly when no file has it |
| Folders.GetFileByName | blomp_api/fso/folder.py:191-208 | the first cached file with exactly that name, or `None` exactly when there is none |
| Folders.Scan | blomp_api/fso/folder.py:225-237 | the scan stops at the first slot that answers to the name or has no name |
| Folders.FindFolderFrom | blomp_api/fso/folder.py:210-237 | `None` with no request exactly when every slot has another name. Otherwise, at the first slot with the name: a materialized folder is returned; an unexpanded one is materialized, stored and returned; an unnamed entry raises `IndexError` |
| Folders.Relocate | blomp_api/fso/folder.py:90-103 | new path, directory string and name; every materialized subfolder and every file gets the new parent path; unexpanded slots untouched |
| Placement.RelocateCoherent | blomp_api/fso/folder.py:90-103 | after propagating a valid path, every materialized descendant sits at its parent's path followed by its own name, and every file's full path is current |
| Placement.ParentPathChangedPlaces | blomp_api/fso/folder.py:86-88 | `_parent_path_changed` puts a subfolder directly under the new path, keeping its name |
| Placement.RelocateOverrides | blomp_api/fso/folder.py:86-103 | a second propagation completely overrides the first |
| Placement.OpenedCoherent | blomp_api/fso/folder.py:22-32 | a freshly opened folder satisfies the placement invariant |
| FolderOps.CreateFolderRequest | blomp_api/fso/folder.py:141-151 | one create request naming this folder's directory string |
| FolderOps.CreateFolderDenotesChild | blomp_api/fso/folder.py:150-151 | read as one path, the create request denotes the new folder inside this one, for the root and for a sub-folder alike |
| FolderOps.DeleteRequest | blomp_api/fso/folder.py:181-187 | a file is deleted by full path and a folder by directory string |
| FolderOps.FolderOrMissing | blomp_api/fso/folder.py:174-177 | `FileNotFoundError` with no request when no slot has the name; a found folder has the name and is stored where the scan stopped |
| FolderOps.DeleteNamed | blomp_api/fso/folder.py:173-189 | a truthy file of the name is deleted by full path, else a subfolder of the name by directory string; `FileNotFoundError` with no request when no file of the name is non-empty and every slot has another name |
| FolderOps.DeleteNamedIntended | blomp_api/fso/folder.py:157-160 | any file of the name is deleted, whatever its size; `FileNotFoundError` exactly when neither a file nor a folder has the name |
| FolderOps.Delete | blomp_api/fso/folder.py:153-189 | a given file or folder is deleted directly; a name is resolved first, as written |
| FolderOps.DeleteIntended | blomp_api/fso/folder.py:153-171 | `delete` with the documented lookup by name |
| FolderOps.EmptyFileNotDeletedByName | blomp_api/fso/folder.py:174-177 | as written, a zero-byte file cannot be deleted by name, where the intended lookup deletes it |
| FolderOps.EmptyFileShadowedByFolder | blomp_api/fso/folder.py:174-175 | as written, a same-named subfolder is deleted instead of the zero-byte file |
| FolderOps.MoveRequest | blomp_api/fso/folder.py:256-265 | the move request: the item's full path or directory string, move exactly when cut, the target's directory string, the file name (empty for a folder), and the kind |
| FolderOps.Reparent | blomp_api/fso/folder.py:268 | the item keeps its kind and is re-parented to the target path |
| FolderOps.Paste | blomp_api/fso/folder.py:239-271 | one request; success exactly when the reply is `"success"`; only then the item is re-parented (a pasted file is owned by the target with a current full path) |
| FolderOps.PastedFolderPlaced | blomp_api/fso/folder.py:267-269 | a pasted folder lands directly under the target with its name and its whole subtree placed consistently |
| FolderOps.Rename | blomp_api/fso/folder.py:299-334 | the root raises `PermissionError` with no request; otherwise one rename request, the result is whether the reply is `"success"`, and only on success the folder moves to `parent / new_name` |
| FolderOps.RenameReplacesLastComponent | blomp_api/fso/folder.py:329-332 | a successful rename replaces the last component, renders the new directory string and re-places the subtree |
| FolderOps.MoveChildren | blomp_api/fso/folder.py:358-359 | the child loop changes only the children, and on success sends at least one request per remaining child; which child goes where is `ChildMoves.MoveChildrenCutsEveryChild` |
| ChildMoves.MoveChildrenCutsEveryChild | blomp_api/fso/folder.py:358-359 | the loop completes exactly when every child can be fetched; it then sends, child by child in order, the child's listing request (if any) and a cut of that child into the new folder (`ChildMoves.CutRequests`), each child ends up as its paste left it, and the children before the start are untouched |
| ChildMoves.CutRequestsOfMaterialized | blomp_api/fso/folder.py:358-359 | when every subfolder is cached, the loop's requests are exactly one cut per child, in iteration order |
| ChildMoves.CachedLoopCutsInOrder | blomp_api/fso/folder.py:358-359 | when every subfolder is cached, the child loop completes and its requests are exactly one cut per child, each into the new folder, in iteration order (subfolders, then files), and nothing else |
| FolderOps.SafeRename | blomp_api/fso/folder.py:336-363 | root: `PermissionError` and nothing sent. Otherwise the create request goes first; the parent changes only in its cached slots: the lookup's slot, and every slot holding this folder, which shows this folder's final state; success ends with deleting this folder, which takes the path of the parent's slot with the new name. A cache without that name always fails and leaves the parent's other slots as they were; for an empty folder that failure is `AttributeError`, after the delete request. Where each child goes is `ChildMoves.SafeRenamePlacesChildren` |
| ChildMoves.SafeRenamePlacesChildren | blomp_api/fso/folder.py:347-363 | a completed `safe_rename` sent the create request, the lookup's requests, one cut per child in order and the delete of this folder; it leaves this folder at the new folder's path with every subfolder materialized, every file keeping its name, and the whole subtree placed under the new path |
| FolderOps.MoveChildrenIgnoresReplies | blomp_api/fso/folder.py:358-359 | the child loop sends the same requests and reaches the same outcome whatever the paste replies; its children differ only in placement |
| FolderOps.SafeRenameIgnoresPasteReplies | blomp_api/fso/folder.py:355-363 | whatever the paste replies, `safe_rename` sends the same requests (its delete included) and has the same outcome; on success it leaves the same folder and the same parent |
| FolderOps.UnfoundIgnoresReplies | blomp_api/fso/folder.py:355-361 | when the new folder is not in the cache, the replies play no part |
| FolderOps.MovesIgnoreReplies | blomp_api/fso/folder.py:356-363 | when the new folder is found, the outcome does not depend on the paste replies |
| LegacyFolders.Fill | src/fso/folder.py:24-30 | the constructor loop sends nothing, keeps path, directory string and name, and can only raise `IndexError` |
| LegacyFolders.Init | src/fso/folder.py:8-30 | one listing request for `as_dir` with an end separator exactly when `str(path)` is not empty; the folder keeps its path and is named by its last component |
| LegacyFolders.FillSlots | src/fso/folder.py:24-27 | the loop appends exactly the `subdir` entries as slots |
| LegacyFolders.FillFiles | src/fso/folder.py:28-30 | the loop raises exactly when building the non-marker files raises, and otherwise appends exactly those files |
| LegacyFolders.FillAppends | src/fso/folder.py:22-30 | the loop appends the listing's slots and files to what is there |
| LegacyFolders.InitMatchesOpen | src/fso/folder.py:8-30 | the entry-by-entry constructor agrees with the bulk listing of the current revision without the large-file rule |
| LegacyFolders.PathString | src/fso/folder.py:59-61 | the `path` property parses to the path's components, ends in the separator for a non-root path, and is empty for the root |
| LegacyFolders.InitPathString | src/fso/folder.py:16-23 | the constructor stores the `path` property as the directory string it lists |
| LegacyFolders.ParentString | src/fso/folder.py:55-57 | the `parent` property parses to every component but the last; it is empty up to one level deep, otherwise the parent's string plus `/` |
| LegacyFolders.Paste | src/fso/folder.py:67-83 | the same move request as the current revision; on `"success"` the target relists itself and the pasted item is left untouched |
| LegacyFolders.PasteRelists | src/fso/folder.py:79-81 | a successful older paste leaves the target exactly as opening its path afresh would, all slots unexpanded |
| LegacyFolders.CreateFolderUsesPathString | src/fso/folder.py:63-65 | the older create request uses the `path` property, as the current one uses the directory string |
| Uploads.ResolveName | blomp_api/fso/folder.py:405-409 | a non-empty `file_name` wins; else the stream's last name component; `ValueError` without a name, `IndexError` without a component |
| Uploads.ResolveSize | blomp_api/fso/folder.py:411-419 | as written, the size is resolved exactly when the length is unknown or zero and the stream is seekable; it is then the end position, otherwise `ValueError` |
| Uploads.ResolveSizeIntended | blomp_api/fso/folder.py:396-397 | a known non-zero length is the size; otherwise the stream is measured by seeking |
| Uploads.ContentType | blomp_api/fso/folder.py:105-109 | the guessed type when there is one, else a non-empty default |
| Uploads.MakeForm | blomp_api/fso/folder.py:429-445 | the form carries the boundary, the file name, the token, the client id and an empty sub-folder |
| Uploads.Upload | blomp_api/fso/folder.py:402-451 | checks in order: name, then size, then an existing file of that name without `replace_if_exists` (`FileExistsError`). Any stream of known non-zero length is refused. A started upload has the resolved name, a fresh monitor for the measured size, the guessed content type, and the form `MakeForm` builds for that size, name and this folder |
| Uploads.UploadIntended | blomp_api/fso/folder.py:394-400 | with the intended size check, an upload starts exactly when name and size resolve and no file blocks it, with a monitor and form for the intended size |
| Uploads.StartedUploadIsOneChunk | blomp_api/fso/folder.py:425-445 | a started upload's form is one chunk at index 0, names the file and this folder, and declares the total its monitor counts against |
| Uploads.KnownLengthRefused | blomp_api/fso/folder.py:411-419 | as written, a named stream of known non-zero length is refused; the intended check starts it with that length as total |
| Uploads.IntendedAgreesWhenMeasured | blomp_api/fso/folder.py:413-416 | when the length is unknown or zero, the two size checks agree |
| Uploads.FormIsOneChunk | blomp_api/fso/folder.py:429-445 | the form describes one chunk holding the whole file: index and offset 0, one chunk, total and current size reading back as the size, chunk size one more |
| Monitors.New | blomp_api/utils/monitor/monitor.py:6-8 | a fresh monitor holds the total and has loaded 0 |
| Monitors.Update | src/utils/monitor/monitor.py:10-12 | an update never changes the total; the abstract update of the older package changes nothing |
| Monitors.UpdateAll | blomp_api/utils/monitor/monitor.py:13-15 | a run of updates never changes the total |
| Monitors.AdditiveLoadedIsSum | src/utils/monitor.py:6-7 | with the adding update, `loaded` grows by exactly the sum of the deltas |
| Monitors.InertStaysAtZero | src/utils/monitor/monitor.py:10-12 | with the inert update, a fresh monitor stays at zero |
| Monitors.Progress | blomp_api/utils/monitor/monitor.py:29-33 | `ZeroDivisionError` exactly when the total is 0; otherwise progress times total is loaded |
| Monitors.AdditiveProgressIsShare | src/utils/monitor.py:6-19 | with the adding update and a non-zero total, progress is the sum of the deltas divided by the total |
| Monitors.InertProgressIsZero | src/utils/monitor/monitor.py:22-24 | the inert monitor always reports progress 0 for a non-zero total |
| Monitors.ReprDeterminesCounters | blomp_api/utils/monitor/monitor.py:10-11 | two monitors of one class with the same `repr` have the same counters |
| Text.DecimalRoundTrip | blomp_api/fso/folder.py:432-436 | parsing `str(n)` gives back `n`, for every integer |
| Text.DecimalInjective | blomp_api/utils/monitor/monitor.py:11 | distinct integers render differently |

## Left out

- Threads and the transfer loops (`__uploader`, `__downloader`, `download`) are left out. They
  are I/O on a socket or a local file. `upload` is modelled up to the point where the thread
  starts.
- The `Blomp` account object, login and the session are left out. Only `get_root_directory` is
  modelled, as `Folders.OpenRoot`. The session token and client id are parameters.
- `mimetypes.guess_type`, `uuid4`, `pathlib.Path(name).parts[-1]` and `total_len` are
  foreign calls. Their answers are parameters: `guess`, `boundary` and the `Stream` record.
  Python's `str()` of the emails iterable is a parameter too (`emailsRepr`).
- `datetime.fromisoformat`: the timestamp is kept as the listed string and is never parsed.
- Files.New: a malformed `last_modified` makes the constructor raise `ValueError` before the name is read; the model does not parse the timestamp and so has no such failure. `Folders.Reload` inherits this: its only modelled failure is `IndexError`.
- `warnings.warn` in `Folder.rename` is left out, because it has no effect on state or result.
- `__repr__` and `__str__` of `Folder` and `File`, `__hash__` and the read-only properties are
  left out. They read fields that the datatypes expose directly. `__len__` appears as the
  truth value of a file (`FolderOps.Truthy`).
- The subclasses `UploadMonitor` and `DownloadMonitor` are not part of this model. Only the
  base `_update` of each monitor class is modelled.
- The older `src/fso/folder.py` `upload` stub (returning `NotImplemented`) has no behaviour to
  model.
- `Monitors.Progress`: progress is an exact real, not a binary float.
- `FolderOps.SafeRenameIgnoresPasteReplies`: states that the folder and the parent are the same
  for both sets of replies only when the rename completes. When a later child fails to load,
  the children already handled differ in where they were placed locally, and so does the
  parent's slot that holds this folder. It also assumes that the parent's
  placement is coherent and that every child has a single-component name.
- `FolderOps.MovesIgnoreReplies`: assumes that the new folder's path is well formed and that
  every child has a single-component name.
- `FolderOps.Rename`: the contract gives only the new path and the child counts. Where the
  subtree lands is stated separately by `FolderOps.RenameReplacesLastComponent`.
- `LegacyFolders.Fill`: the contract does not describe the partial folder left by a raise,
  only what a completed loop appends (`LegacyFolders.FillAppends`).
- `FolderOps.SafeRename`: object identity is modelled by value. The parent is a parameter,
  not a `__parent` back-reference, and a parent slot is taken to be this folder when it holds
  an equal folder. Other references to this folder or its children are not updated.
- `FolderOps.Paste`: the pasted item is returned re-parented, but other references to it are
  not updated. In Python, `ff._parent_path_changed` mutates the object in place, so a source
  folder's cached slot or file list that holds it shows the new path too. The model keeps no
  such references. Inside `safe_rename` the moved child is put back in this folder's own slot.
- `Uploads.Upload`: opening a `str` or `pathlib.Path` argument with `open(file, 'rb')` is left
  out, together with the `FileNotFoundError` or `PermissionError` it can raise. Every argument
  is taken as an already opened stream, described by the `Stream` record.
- `Folders.Reload`: the current revision's slots are described as a sub-list of the listing,
  through `Folders.ReloadContents`, not as an exact list. With neighbouring same-named
  entries the pass is irregular (`Folders.CollisionPassSkipsNeighbour`).

## Findings

| source | as written | input that shows it | evidently intended | confidence | as-written member | corrected member |
|---|---|---|---|---|---|---|
| blomp_api/fso/folder.py:174-177 | `get_file_by_name(item) or get_folder_by_name(item)` takes the file's truth value, which comes from `__len__`, the size | a folder holding a zero-byte file `a.txt` and no subfolder of that name: `delete("a.txt")` raises `FileNotFoundError`; with a subfolder `a.txt` it deletes the folder | the lookup compares the file with `None`, as the docstring's "name of a folder or file" says | not executed | FolderOps.DeleteNamed | FolderOps.DeleteNamedIntended |
| blomp_api/fso/folder.py:411-419 | `if not file_size and file.seekable(): ... else: raise ValueError` | any stream whose `total_len` is a known non-zero length, such as an opened 10-byte file: `upload` raises `ValueError('Unable to determine file size')` | use the known length, and seek only when the length is unknown | not executed | Uploads.Upload | Uploads.UploadIntended |

=== FILE: files.dfy ===
/** The `File` class of blomp_api/fso/file.py and of the older src/fso/file.py: the metadata of
    one remote file, the path of the folder that owns it, the derived full path, and the share
    descriptor fetched on demand. */
module Files {
  import opened Results
  import opened Paths
  import opened Protocol

  /** The share state. The source keeps id, status and link in three attributes that start
      as `None` and are only ever set together, so they form one optional record. */
  datatype ShareState = ShareState(id: int, shared: bool, link: string)

  datatype File = File(
    hash: string, lastModified: string, size: nat, name: string, contentType: string,
    owner: Path, share: Option<ShareState>, filePath: string)

  /** One element of the `emails` iterable passed to `share`: a `str` or anything else. */
  datatype EmailArg = EmailText(text: string) | NotText

  /** The state after an operation on a file (also when it raised), the requests it sent,
      and what it returned or raised. */
  datatype FileStep<T> = FileStep(sent: seq<Request>, file: File, result: Result<T>)

  /** `str(owner / Path(name))`. */
  function FullPath(owner: Path, name: string): string
  {
    owner.Div(FromString(name, Slash)).ToString()
  }

  /** The full path of a valid owner and a single component is the owner's components
      followed by that component. */
  lemma FullPathParts(owner: Path, name: string)
    requires owner.Valid() && IsComponent(name)
    ensures Parse(FullPath(owner, name)) == owner.parts + [name]
  {
    SplitWithoutSep(name);
    assert DropEmpty([name]) == [name] by { assert [name][1..] == []; }
    var joined := owner.Div(FromString(name, Slash));
    assert joined.parts == owner.parts + [name];
    assert joined.Valid();
    ParseJoin(joined.sep, joined.parts);
  }

  /** The invariant the source documents: `file_path == str(owner / name)`. */
  predicate PathCurrent(f: File)
  {
    f.filePath == FullPath(f.owner, f.name)
  }

  /** `File(path, dataobj, session)`: the name is the last component of the listed name
      (an `IndexError` when it has none); no share state is known yet. */
  function New(owner: Path, data: FileData): (r: Result<File>)
    ensures r.Err? <==> Parse(data.name) == []
    ensures r.Err? ==> r.error == IndexError
    ensures r.Ok? ==> r.value.name == Parse(data.name)[|Parse(data.name)| - 1]
    ensures r.Ok? ==> IsComponent(r.value.name) && PathCurrent(r.value)
    ensures r.Ok? ==> r.value.owner == owner && r.value.share == None
    ensures r.Ok? ==> r.value.size == data.bytes && r.value.hash == data.hash
                      && r.value.contentType == data.contentType && r.value.lastModified == data.lastModified
  {
    var parts := Parse(data.name);
    if |parts| == 0 then Err(IndexError)
    else
      var name := parts[|parts| - 1];
      Ok(File(data.hash, data.lastModified, data.bytes, name, data.contentType, owner, None, FullPath(owner, name)))
  }

  /** A freshly built file's full path names its owner's components, then its own name. */
  lemma NewFullPath(owner: Path, data: FileData)
    requires owner.Valid() && New(owner, data).Ok?
    ensures Parse(New(owner, data).value.filePath) == owner.parts + [New(owner, data).value.name]
  {
    FullPathParts(owner, New(owner, data).value.name);
  }

  /** `_parent_path_changed(new_path)`: a new owner, the full path recomputed from the
      unchanged name, nothing else touched. */
  function ParentPathChanged(f: File, newOwner: Path): (r: File)
    ensures r.owner == newOwner && r.name == f.name && PathCurrent(r)
    ensures r.(owner := f.owner, filePath := f.filePath) == f
  {
    f.(owner := newOwner, filePath := FullPath(newOwner, f.name))
  }

  /** A second re-parenting overrides the first. */
  lemma ParentPathChangedOverrides(f: File, p1: Path, p2: Path)
    ensures ParentPathChanged(ParentPathChanged(f, p1), p2) == ParentPathChanged(f, p2)
  {
  }

  /** `__share_info` (`share_info` in the older revision): asks for the share record of the
      current full path and caches id, status and the prefixed link. Also returns the record
      with its link prefixed, as the older revision does. */
  function FetchShareInfo(f: File, info: ShareLinkResponse): (r: FileStep<ShareLinkResponse>)
    ensures r.sent == [ShareLink(f.filePath, f.size)]
    ensures r.file.(share := f.share) == f
    ensures r.file.share.Some? && r.file.share.value.id == info.id
    ensures r.file.share.value.shared <==> info.status != 0
    ensures r.result.Ok? && r.result.value.link == r.file.share.value.link
    ensures |r.file.share.value.link| >= |ShareLinkBase|
    ensures r.file.share.value.link[..|ShareLinkBase|] == ShareLinkBase
    ensures r.file.share.value.link[|ShareLinkBase|..] == info.link
  {
    var link := ShareLinkBase + info.link;
    FileStep([ShareLink(f.filePath, f.size)], f.(share := Some(ShareState(info.id, info.status != 0, link))),
             Ok(info.(link := link)))
  }

  /** Fetches the share record only when none is cached. */
  function EnsureShareInfo(f: File, info: ShareLinkResponse): (r: FileStep<ShareLinkResponse>)
    ensures r.file.share.Some?
    ensures f.share.Some? ==> r.sent == [] && r.file == f
    ensures f.share.None? ==> r == FetchShareInfo(f, info)
  {
    if f.share.None? then FetchShareInfo(f, info) else FileStep([], f, Ok(info))
  }

  /** The directory argument of a file rename: the current revision sends the owner as a
      directory (trailing separator unless it is the root), the older one sends `str(owner)`. */
  function RenameDirectory(rev: Revision, owner: Path): string
  {
    match rev
    case Current => owner.AsDir(false, owner.IsTruthy())
    case Legacy => owner.ToString()
  }

  /** Both revisions name the owner's components; only the current one marks a non-root
      owner as a directory with a trailing separator. */
  lemma RenameDirectoryShape(rev: Revision, owner: Path)
    requires owner.Valid() && owner.sep == Slash
    ensures Parse(RenameDirectory(rev, owner)) == owner.parts
    ensures rev == Current && owner.IsTruthy() ==>
              RenameDirectory(rev, owner)[|RenameDirectory(rev, owner)| - 1] == '/'
    ensures rev == Current && !owner.IsTruthy() ==> RenameDirectory(rev, owner) == ""
    ensures rev == Legacy ==> RenameDirectory(rev, owner) == owner.ToString()
  {
    AsDirRoundTrip(owner, false, owner.IsTruthy());
    ParseJoin(owner.sep, owner.parts);
  }

  /** `rename(new_name)`: on a `"success"` reply the name changes and the share record is
      fetched again, but `file_path` is not recomputed, so the fetch still names the old path;
      on any other reply nothing changes. */
  function Rename(rev: Revision, f: File, newName: string, reply: string, info: ShareLinkResponse): (r: FileStep<bool>)
    ensures r.result == Ok(reply == SuccessReply)
    ensures |r.sent| >= 1 && r.sent[0] == RenameEntry(f.name, FileKind, newName, RenameDirectory(rev, f.owner))
    ensures reply != SuccessReply ==> r.sent == [r.sent[0]] && r.file == f
    ensures reply == SuccessReply ==>
              && r.sent == [r.sent[0], ShareLink(f.filePath, f.size)]
              && r.file.name == newName
              && r.file.filePath == f.filePath
              && r.file.owner == f.owner
              && r.file.share.Some?
              && r.file == FetchShareInfo(f.(name := newName), info).file
  {
    var ask := RenameEntry(f.name, FileKind, newName, RenameDirectory(rev, f.owner));
    if reply == SuccessReply then
      var fetched := FetchShareInfo(f.(name := newName), info);
      FileStep([ask] + fetched.sent, fetched.file, Ok(true))
    else
      FileStep([ask], f, Ok(false))
  }

  /** After a successful rename to a different name, `file_path` no longer names the file. */
  lemma RenameLeavesPathStale(rev: Revision, f: File, newName: string, info: ShareLinkResponse)
    requires f.owner.Valid() && PathCurrent(f) && IsComponent(f.name) && IsComponent(newName)
    requires newName != f.name
    ensures !PathCurrent(Rename(rev, f, newName, SuccessReply, info).file)
  {
    var g := Rename(rev, f, newName, SuccessReply, info).file;
    FullPathParts(f.owner, f.name);
    FullPathParts(f.owner, newName);
    assert (f.owner.parts + [f.name])[|f.owner.parts|] != (f.owner.parts + [newName])[|f.owner.parts|];
  }

  /** `str(emails).replace(" ", "")` applied to the rendered email list. */
  function RemoveSpaces(s: string): (r: string)
    ensures ' ' !in r
    ensures forall c :: c in r ==> c in s
    ensures forall c :: c != ' ' ==> multiset(r)[c] == multiset(s)[c]
    ensures ' ' !in s ==> r == s
    decreases |s|
  {
    if |s| == 0 then ""
    else
      assert s == [s[0]] + s[1..];
      (if s[0] == ' ' then "" else [s[0]]) + RemoveSpaces(s[1..])
  }

  /** Spaces are removed piecewise, so every other character keeps its place relative to
      the others: removing them from a concatenation concatenates the results. */
  lemma {:induction false} RemoveSpacesConcat(a: string, b: string)
    ensures RemoveSpaces(a + b) == RemoveSpaces(a) + RemoveSpaces(b)
    decreases |a|
  {
    if |a| > 0 {
      assert (a + b)[1..] == a[1..] + b;
      RemoveSpacesConcat(a[1..], b);
    } else {
      assert a + b == b;
    }
  }

  /** `share(emails, anyone_can_view)`. `emailsRepr` is `str(emails)`, Python's rendering of
      the iterable. A non-`str` email raises `TypeError` before anything is sent; otherwise
      the share record is fetched if none is cached, the invitation is sent with permission
      1 exactly when anyone may view, and the cached link is returned. */
  function Share(f: File, emails: seq<EmailArg>, anyoneCanView: bool, emailsRepr: string, info: ShareLinkResponse): (r: FileStep<string>)
    ensures (|emails| > 0 && exists i :: 0 <= i < |emails| && emails[i].NotText?) <==> r.result.Err?
    ensures r.result.Err? ==> r.result.error == TypeError && r.sent == [] && r.file == f
    ensures r.result.Ok? ==>
              && r.file.share.Some?
              && r.file == EnsureShareInfo(f, info).file
              && r.result.value == r.file.share.value.link
              && (f.share.Some? ==> r.file == f && |r.sent| == 1)
              && (f.share.None? ==> |r.sent| == 2 && r.sent[0] == ShareLink(f.filePath, f.size))
              && r.sent[..|r.sent| - 1] == EnsureShareInfo(f, info).sent
              && r.sent[|r.sent| - 1].ShareSend?
              && r.sent[|r.sent| - 1].link == r.result.value
              && (r.sent[|r.sent| - 1].permission == 1 <==> anyoneCanView)
              && (r.sent[|r.sent| - 1].email == "" <==> |emails| == 0 || RemoveSpaces(emailsRepr) == "")
              && (|emails| > 0 ==> r.sent[|r.sent| - 1].email == RemoveSpaces(emailsRepr))
  {
    if |emails| > 0 && exists i :: 0 <= i < |emails| && emails[i].NotText? then
      FileStep([], f, Err(TypeError))
    else
      var permission := if anyoneCanView then 1 else 0;
      var field := if |emails| > 0 then RemoveSpaces(emailsRepr) else "";
      var known := EnsureShareInfo(f, info);
      var link := known.file.share.value.link;
      FileStep(known.sent + [ShareSend(field, link, permission)], known.file, Ok(link))
  }

  /** A second `share` reuses the descriptor the first one cached: no further fetch. */
  lemma ShareFetchesOnce(f: File, emails: seq<EmailArg>, anyone: bool, repr: string, info: ShareLinkResponse,
                         emails2: seq<EmailArg>, anyone2: bool, repr2: string, info2: ShareLinkResponse)
    requires Share(f, emails, anyone, repr, info).result.Ok?
    ensures forall k :: 0 <= k < |Share(Share(f, emails, anyone, repr, info).file, emails2, anyone2, repr2, info2).sent| ==>
              !Share(Share(f, emails, anyone, repr, info).file, emails2, anyone2, repr2, info2).sent[k].ShareLink?
  {
    var g := Share(f, emails, anyone, repr, info).file;
    assert g.share.Some?;
    var r := Share(g, emails2, anyone2, repr2, info2);
    assert r.sent == [] || |r.sent| == 1;
  }

  /** `share_switch_on` (`on`) and `share_switch_off` (`!on`). The share record is fetched
      if none is cached; a file already in the target state raises (after that fetch);
      otherwise the switch request is sent, the local status becomes the target state
      whatever the reply, and the result says whether the reply was `"success"`. */
  function Switch(f: File, on: bool, info: ShareLinkResponse, reply: string): (r: FileStep<bool>)
    ensures r.file.share.Some?
    ensures var before := EnsureShareInfo(f, info).file.share.value;
            && (r.result.Err? <==> before.shared == on)
            && (r.result.Err? ==> r.file == EnsureShareInfo(f, info).file && r.sent == EnsureShareInfo(f, info).sent)
            && (r.result.Ok? ==>
                  && r.file == EnsureShareInfo(f, info).file.(share := Some(before.(shared := on)))
                  && r.file.share.value == before.(shared := on)
                  && r.result.value == (reply == SuccessReply)
                  && r.sent == EnsureShareInfo(f, info).sent + [ShareSwitch(if on then 1 else 0, before.id)])
  {
    var known := EnsureShareInfo(f, info);
    var current := known.file.share.value;
    if on && current.shared then
      FileStep(known.sent, known.file, Err(Failed("This file is already being shared")))
    else if !on && !current.shared then
      FileStep(known.sent, known.file, Err(Failed("This file is not being shared")))
    else
      FileStep(known.sent + [ShareSwitch(if on then 1 else 0, current.id)],
               known.file.(share := Some(current.(shared := on))), Ok(reply == SuccessReply))
  }

  /** Switching to the same state twice fails the second time, whatever the server replied
      to the first, because the first sets the local status unconditionally. */
  lemma SwitchTwiceFails(f: File, on: bool, info: ShareLinkResponse, reply: string,
                         info2: ShareLinkResponse, reply2: string)
    requires Switch(f, on, info, reply).result.Ok?
    ensures Switch(Switch(f, on, info, reply).file, on, info2, reply2).result.Err?
    ensures Switch(Switch(f, on, info, reply).file, on, info2, reply2).sent == []
  {
  }

  /** `delete()` of the older revision: asks to delete the full path, returns the truth value
      of the reply's `response`, and leaves the file as it was. */
  function Delete(f: File, response: bool): (r: FileStep<bool>)
    ensures r.file == f && r.result == Ok(response)
    ensures r.sent == [DeleteObject(f.filePath)]
  {
    FileStep([DeleteObject(f.filePath)], f, Ok(response))
  }
}

=== FILE: folders.dfy ===
/** The folder tree of blomp_api/fso/folder.py (shared with the older src/fso/folder.py where
    the two agree): a folder's path, its rendered directory string and name, a list of
    subfolder slots that are either the listing's `Subdir` entry or the folder it was turned
    into on first access, and the list of files. */
module Folders {
  import opened Results
  import opened Paths
  import opened Protocol
  import Files

  datatype Folder = Folder(path: Path, pathStr: string, name: string, slots: seq<Slot>, files: seq<Files.File>)

  /** A subfolder slot: still the listing's `subdir` string, or materialized. */
  datatype Slot = Unexpanded(subdir: string) | Materialized(folder: Folder)

  /** What indexing and iteration yield. */
  datatype Item = FolderItem(folder: Folder) | FileItem(file: Files.File)

  /** The state after a folder operation (also when it raised), the requests it sent, and
      what it returned or raised. */
  datatype Step<T> = Step(sent: seq<Request>, folder: Folder, result: Result<T>)

  /** A folder built from a path: the listing request it sent and the folder, or the error
      that escaped its constructor. */
  datatype Opened = Opened(sent: seq<Request>, result: Result<Folder>)

  // ---------------------------------------------------------------- listings

  /** The name a subfolder entry stands for: the last component of its `subdir` string, or
      nothing when it has none (where the source's `parts[-1]` raises `IndexError`). */
  function EntryName(subdir: string): (r: Option<string>)
    ensures r.Some? ==> IsComponent(r.value)
    ensures r.None? <==> Parse(subdir) == []
  {
    var parts := Parse(subdir);
    if |parts| == 0 then None else Some(parts[|parts| - 1])
  }

  /** The `subdir` entries of a listing, in order. */
  function SubdirsOf(entries: seq<Entry>): (r: seq<string>)
    ensures forall s :: s in r <==> Subdir(s) in entries
    decreases |entries|
  {
    if |entries| == 0 then []
    else (if entries[0].Subdir? then [entries[0].subdir] else []) + SubdirsOf(entries[1..])
  }

  /** The file entries of a listing that are not directory markers, in order. */
  function FileDataOf(entries: seq<Entry>): (r: seq<FileData>)
    ensures forall d :: d in r <==> FileEntry(d) in entries && d.contentType != DirectoryType
    decreases |entries|
  {
    if |entries| == 0 then []
    else (if entries[0].FileEntry? && entries[0].data.contentType != DirectoryType then [entries[0].data] else [])
         + FileDataOf(entries[1..])
  }

  /** The `subdir` entries of two listings in a row are those of the first, then those of
      the second: the order and multiplicity of the listing are kept. */
  lemma {:induction false} SubdirsOfConcat(a: seq<Entry>, b: seq<Entry>)
    ensures SubdirsOf(a + b) == SubdirsOf(a) + SubdirsOf(b)
    decreases |a|
  {
    if |a| > 0 {
      assert (a + b)[1..] == a[1..] + b;
      SubdirsOfConcat(a[1..], b);
    } else {
      assert a + b == b;
    }
  }

  /** The file entries of two listings in a row are those of the first, then those of the
      second: the order and multiplicity of the listing are kept. */
  lemma {:induction false} FileDataOfConcat(a: seq<Entry>, b: seq<Entry>)
    ensures FileDataOf(a + b) == FileDataOf(a) + FileDataOf(b)
    decreases |a|
  {
    if |a| > 0 {
      assert (a + b)[1..] == a[1..] + b;
      FileDataOfConcat(a[1..], b);
    } else {
      assert a + b == b;
    }
  }

  /** Builds a `File` per entry, owned by `owner`; the first unnamed entry raises. */
  function BuildFiles(owner: Path, data: seq<FileData>): (r: Result<seq<Files.File>>)
    ensures r.Err? <==> exists j :: 0 <= j < |data| && Parse(data[j].name) == []
    ensures r.Err? ==> r.error == IndexError
    ensures r.Ok? ==> |r.value| == |data|
    ensures r.Ok? ==> forall j :: 0 <= j < |data| ==> Files.New(owner, data[j]) == Ok(r.value[j])
    decreases |data|
  {
    if |data| == 0 then Ok([])
    else
      var first := Files.New(owner, data[0]);
      if first.Err? then Err(first.error)
      else
        var rest := BuildFiles(owner, data[1..]);
        if rest.Err? then
          assert exists j :: 0 <= j < |data| && Parse(data[j].name) == [] by {
            var j :| 0 <= j < |data[1..]| && Parse(data[1..][j].name) == [];
            assert Parse(data[j + 1].name) == [];
          }
          Err(rest.error)
        else Ok([first.value] + rest.value)
  }

  // ---------------------------------------------------------------- the large-file rule

  /** The position of the first occurrence of `x` in `l`. */
  function FirstIndex(l: seq<string>, x: string): (i: nat)
    requires x in l
    ensures i < |l| && l[i] == x && x !in l[..i]
    decreases |l|
  {
    if l[0] == x then 0
    else
      var i := 1 + FirstIndex(l[1..], x);
      assert l[..i] == [l[0]] + l[1..][..i - 1];
      i
  }

  /** `list.remove(x)`: drops the first occurrence. */
  function RemoveFirst(l: seq<string>, x: string): (r: seq<string>)
    requires x in l
    ensures |r| == |l| - 1
    ensures forall y :: y in r ==> y in l
    ensures forall y :: y in l && y != x ==> y in r
    ensures r == l[..FirstIndex(l, x)] + l[FirstIndex(l, x) + 1..]
    decreases |l|
  {
    if l[0] == x then l[1..]
    else
      var rest := RemoveFirst(l[1..], x);
      var i := FirstIndex(l[1..], x);
      assert l[..i + 1] == [l[0]] + l[1..][..i];
      assert l[i + 1 + 1..] == l[1..][i + 1..];
      [l[0]] + rest
  }

  /** One pass of `for sd in subdirectories: ... subdirectories.remove(sd)` for a file named
      `name`: the list iterator's index `i` keeps counting while the list shrinks under it,
      so the entry right after a removed one is skipped. */
  function CollisionPass(l: seq<string>, i: nat, name: string): (r: Result<seq<string>>)
    ensures r.Err? ==> r.error == IndexError
    ensures (forall k :: i <= k < |l| ==> EntryName(l[k]).Some?) ==> r.Ok?
    decreases |l| - i
  {
    if i >= |l| then Ok(l)
    else match EntryName(l[i])
      case None => Err(IndexError)
      case Some(n) =>
        if n == name then
          var shorter := RemoveFirst(l, l[i]);
          var r := CollisionPass(shorter, i + 1, name);
          assert (forall k :: i <= k < |l| ==> EntryName(l[k]).Some?) ==>
                 (forall k :: i + 1 <= k < |shorter| ==> EntryName(shorter[k]).Some?) by {
            if forall k :: i <= k < |l| ==> EntryName(l[k]).Some? {
              RemoveFirstTail(l, i);
            }
          }
          r
        else CollisionPass(l, i + 1, name)
  }

  /** The pass only removes entries, and only entries called `name`. */
  lemma {:induction false} CollisionPassMembers(l: seq<string>, i: nat, name: string)
    requires CollisionPass(l, i, name).Ok?
    ensures forall y :: y in CollisionPass(l, i, name).value ==> y in l
    ensures forall y :: y in l && EntryName(y) != Some(name) ==> y in CollisionPass(l, i, name).value
    decreases |l| - i
  {
    if i < |l| {
      var n := EntryName(l[i]).value;
      if n == name {
        CollisionPassMembers(RemoveFirst(l, l[i]), i + 1, name);
      } else {
        CollisionPassMembers(l, i + 1, name);
      }
    }
  }

  /** Removing an entry at or before index `i` keeps every later entry, one place earlier. */
  lemma {:induction false} RemoveFirstTail(l: seq<string>, i: nat)
    requires i < |l|
    ensures forall k :: i <= k < |RemoveFirst(l, l[i])| ==> RemoveFirst(l, l[i])[k] == l[k + 1]
    decreases |l|
  {
    if l[0] != l[i] {
      assert i > 0;
      assert l[1..][i - 1] == l[i];
      RemoveFirstTail(l[1..], i - 1);
    }
  }

  /** Whether an entry names a folder called `name`. */
  predicate Named(subdir: string, name: string) { EntryName(subdir) == Some(name) }

  /** The filter the pass is meant to compute: the entries not called `name`, in order. */
  function Unshadowed(l: seq<string>, name: string): seq<string>
    decreases |l|
  {
    if |l| == 0 then [] else (if Named(l[0], name) then [] else [l[0]]) + Unshadowed(l[1..], name)
  }

  /** No two neighbouring entries are both called `name`. */
  predicate NoNamedNeighbours(l: seq<string>, name: string)
  {
    forall k :: 0 <= k < |l| - 1 ==> !(Named(l[k], name) && Named(l[k + 1], name))
  }

  /** `list.remove(x)` removes position `i` when no earlier entry equals `x`. */
  lemma {:induction false} RemoveFirstAt(l: seq<string>, i: nat)
    requires i < |l| && l[i] !in l[..i]
    ensures RemoveFirst(l, l[i]) == l[..i] + l[i + 1..]
    decreases i
  {
    if i > 0 {
      assert l[0] in l[..i];
      assert l[1..][i - 1] == l[i] && l[1..][..i - 1] == l[1..i];
      assert l[i] !in l[1..][..i - 1] by {
        assert forall y :: y in l[1..i] ==> y in l[..i];
      }
      RemoveFirstAt(l[1..], i - 1);
      assert l[1..][i - 1 + 1..] == l[i + 1..];
      assert [l[0]] + l[1..i] == l[..i];
    }
  }

  /** Where no two neighbouring entries are called `name`, the pass from `i` on is the filter:
      every named entry it meets is removed, and the entry it skips after each removal is one
      it would have kept anyway. */
  lemma {:induction false} CollisionPassFilters(l: seq<string>, i: nat, name: string)
    requires i <= |l|
    requires forall k :: 0 <= k < |l| ==> EntryName(l[k]).Some?
    requires forall k :: 0 <= k < i ==> !Named(l[k], name)
    requires NoNamedNeighbours(l[i..], name)
    ensures CollisionPass(l, i, name) == Ok(l[..i] + Unshadowed(l[i..], name))
    decreases |l| - i, 2
  {
    if i == |l| {
      assert l[..i] + [] == l;
    } else if Named(l[i], name) {
      PassRemovesNamed(l, i, name);
    } else {
      PassKeepsUnnamed(l, i, name);
    }
  }

  /** `CollisionPassFilters` at an entry called `name`. */
  lemma {:induction false} PassRemovesNamed(l: seq<string>, i: nat, name: string)
    requires i < |l| && Named(l[i], name)
    requires forall k :: 0 <= k < |l| ==> EntryName(l[k]).Some?
    requires forall k :: 0 <= k < i ==> !Named(l[k], name)
    requires NoNamedNeighbours(l[i..], name)
    ensures CollisionPass(l, i, name) == Ok(l[..i] + Unshadowed(l[i..], name))
    decreases |l| - i, 1
  {
    assert l[i] !in l[..i] by {
      forall y | y in l[..i] ensures y != l[i] {
        var k :| 0 <= k < i && l[..i][k] == y;
        assert !Named(l[k], name);
      }
    }
    RemoveFirstAt(l, i);
    var shorter := l[..i] + l[i + 1..];
    assert CollisionPass(l, i, name) == CollisionPass(shorter, i + 1, name);
    assert l[i..][1..] == l[i + 1..];
    assert Unshadowed(l[i..], name) == Unshadowed(l[i + 1..], name);
    if i + 1 == |l| {
      assert shorter == l[..i];
      assert l[..i] + [] == l[..i];
    } else {
      PassAfterRemoval(l, i, name);
    }
  }

  /** The list after removing the named entry at `i` meets what the pass needs at `i + 1`:
      the entry that moves into position `i` is not named, nothing before it is, and no two
      later entries are named neighbours. */
  lemma ShorterList(l: seq<string>, i: nat, name: string)
    requires i + 1 < |l| && Named(l[i], name)
    requires forall k :: 0 <= k < |l| ==> EntryName(l[k]).Some?
    requires forall k :: 0 <= k < i ==> !Named(l[k], name)
    requires NoNamedNeighbours(l[i..], name)
    ensures var shorter := l[..i] + l[i + 1..];
            && i + 1 <= |shorter|
            && (forall k :: 0 <= k < |shorter| ==> EntryName(shorter[k]).Some?)
            && (forall k :: 0 <= k < i + 1 ==> !Named(shorter[k], name))
            && shorter[..i + 1] == l[..i] + [l[i + 1]]
            && shorter[i + 1..] == l[i + 2..]
            && NoNamedNeighbours(shorter[i + 1..], name)
  {
    var shorter := l[..i] + l[i + 1..];
    assert l[i..][0] == l[i] && l[i..][1] == l[i + 1];
    forall k | 0 <= k < |shorter| ensures EntryName(shorter[k]).Some? {
      if k < i { assert shorter[k] == l[k]; } else { assert shorter[k] == l[k + 1]; }
    }
    forall k | 0 <= k < i + 1 ensures !Named(shorter[k], name) {
      if k < i { assert shorter[k] == l[k]; } else { assert shorter[k] == l[i + 1]; }
    }
    var t := l[i + 2..];
    assert shorter[i + 1..] == t;
    forall k | 0 <= k < |t| - 1 ensures !(Named(t[k], name) && Named(t[k + 1], name)) {
      assert t[k] == l[i..][k + 2] && t[k + 1] == l[i..][k + 3];
    }
  }

  /** After removing the named entry at `i`, the pass resumes at `i + 1` of the shorter list,
      stepping over the entry that moved into position `i`. */
  lemma {:induction false} PassAfterRemoval(l: seq<string>, i: nat, name: string)
    requires i + 1 < |l| && Named(l[i], name)
    requires forall k :: 0 <= k < |l| ==> EntryName(l[k]).Some?
    requires forall k :: 0 <= k < i ==> !Named(l[k], name)
    requires NoNamedNeighbours(l[i..], name)
    ensures CollisionPass(l[..i] + l[i + 1..], i + 1, name) == Ok(l[..i] + Unshadowed(l[i + 1..], name))
    decreases |l| - i, 0
  {
    var shorter := l[..i] + l[i + 1..];
    var u := Unshadowed(l[i + 2..], name);
    assert CollisionPass(shorter, i + 1, name) == Ok(shorter[..i + 1] + Unshadowed(shorter[i + 1..], name)) by {
      ShorterList(l, i, name);
      CollisionPassFilters(shorter, i + 1, name);
    }
    assert shorter[..i + 1] + Unshadowed(shorter[i + 1..], name) == l[..i] + Unshadowed(l[i + 1..], name) by {
      ShorterList(l, i, name);
      assert Unshadowed(l[i + 1..], name) == [l[i + 1]] + u by { assert l[i + 1..][1..] == l[i + 2..]; }
      assert (l[..i] + [l[i + 1]]) + u == l[..i] + ([l[i + 1]] + u);
    }
  }

  /** `CollisionPassFilters` at an entry with another name. */
  lemma {:induction false} PassKeepsUnnamed(l: seq<string>, i: nat, name: string)
    requires i < |l| && !Named(l[i], name)
    requires forall k :: 0 <= k < |l| ==> EntryName(l[k]).Some?
    requires forall k :: 0 <= k < i ==> !Named(l[k], name)
    requires NoNamedNeighbours(l[i..], name)
    ensures CollisionPass(l, i, name) == Ok(l[..i] + Unshadowed(l[i..], name))
    decreases |l| - i, 0
  {
    var t := l[i + 1..];
    assert NoNamedNeighbours(t, name) by {
      forall k | 0 <= k < |t| - 1 ensures !(Named(t[k], name) && Named(t[k + 1], name)) {
        assert t[k] == l[i..][k + 1] && t[k + 1] == l[i..][k + 2];
      }
    }
    assert EntryName(l[i]).Some? && EntryName(l[i]).value != name;
    assert CollisionPass(l, i, name) == CollisionPass(l, i + 1, name);
    CollisionPassFilters(l, i + 1, name);
    assert l[i..][1..] == l[i + 1..];
    assert Unshadowed(l[i..], name) == [l[i]] + Unshadowed(l[i + 1..], name);
    assert l[..i + 1] + Unshadowed(l[i + 1..], name) == l[..i] + ([l[i]] + Unshadowed(l[i + 1..], name));
  }

  /** The skip, on a concrete listing: two folders `a/x` and `b/x` next to each other and a
      large file `x`. The pass removes `a/x`, the list shifts under the iterator, and `b/x`
      survives although it has the same name. */
  lemma CollisionPassSkipsNeighbour()
    ensures CollisionPass(["a/x", "b/x"], 0, "x") == Ok(["b/x"])
    ensures Unshadowed(["a/x", "b/x"], "x") == []
  {
    var ax: string := "a/x";
    var bx: string := "b/x";
    SplitAtSep("a", '/', "x");
    SplitAtSep("b", '/', "x");
    SplitWithoutSep("a");
    SplitWithoutSep("b");
    SplitWithoutSep("x");
    assert "a" + ['/'] + "x" == ax && "b" + ['/'] + "x" == bx;
    assert Parse(ax) == ["a", "x"];
    assert Parse(bx) == ["b", "x"];
    assert Named(ax, "x") && Named(bx, "x");
    assert RemoveFirst([ax, bx], ax) == [bx];
  }

  /** `file.size >= 104857600` */
  predicate IsLarge(f: Files.File) { f.size >= LargeFileSize }

  /** The outer loop of the rule: one pass per large file, in file order. */
  function ApplyCollisions(files: seq<Files.File>, l: seq<string>): (r: Result<seq<string>>)
    ensures r.Err? ==> r.error == IndexError
    ensures (forall k :: 0 <= k < |l| ==> EntryName(l[k]).Some?) ==> r.Ok?
    ensures r.Ok? ==> forall y :: y in r.value ==> y in l
    ensures r.Ok? ==> forall y :: y in l && !Shadowed(y, files) ==> y in r.value
    decreases |files|
  {
    if |files| == 0 then Ok(l)
    else if IsLarge(files[0]) then
      var pass := CollisionPass(l, 0, files[0].name);
      if pass.Err? then pass
      else
        CollisionPassMembers(l, 0, files[0].name);
        assert files[1..] + [] == files[1..];
        ApplyCollisions(files[1..], pass.value)
    else ApplyCollisions(files[1..], l)
  }

  /** An entry is shadowed when its name is the name of a file of at least 100 MiB. */
  predicate Shadowed(subdir: string, files: seq<Files.File>)
  {
    exists j :: 0 <= j < |files| && IsLarge(files[j]) && EntryName(subdir) == Some(files[j].name)
  }

  /** The slots of a fresh listing. */
  function Unexpand(l: seq<string>): (r: seq<Slot>)
    ensures |r| == |l|
    ensures forall i :: 0 <= i < |r| ==> r[i] == Unexpanded(l[i])
  {
    seq(|l|, i requires 0 <= i < |l| => Unexpanded(l[i]))
  }

  /** Every entry of a listing has a usable name: a `subdir` ends in a component, a file
      name parses to at least one component. */
  predicate EntriesNamed(entries: seq<Entry>)
  {
    forall j :: 0 <= j < |entries| ==> match entries[j]
      case Subdir(s) => EntryName(s).Some?
      case FileEntry(d) => Parse(d.name) != []
  }

  lemma SubdirsNamed(entries: seq<Entry>)
    ensures EntriesNamed(entries) ==> forall k :: 0 <= k < |SubdirsOf(entries)| ==> EntryName(SubdirsOf(entries)[k]).Some?
  {
    var subdirs := SubdirsOf(entries);
    forall k | 0 <= k < |subdirs| && EntriesNamed(entries)
      ensures EntryName(subdirs[k]).Some?
    {
      assert Subdir(subdirs[k]) in entries;
      var j :| 0 <= j < |entries| && entries[j] == Subdir(subdirs[k]);
    }
  }

  lemma UnexpandMembers(l: seq<string>)
    ensures forall s :: s in l ==> Unexpanded(s) in Unexpand(l)
  {
    forall s | s in l ensures Unexpanded(s) in Unexpand(l) {
      var k :| 0 <= k < |l| && l[k] == s;
      assert Unexpand(l)[k] == Unexpanded(s);
    }
  }

  /** The files the loop `for fd in folder_data: … self.__files.append(File(…))` has appended
      when it stops: one per entry, in order, up to the first entry whose name has no
      component (where `File(…)` raises), or all of them. */
  function BuildPrefix(owner: Path, data: seq<FileData>): (r: seq<Files.File>)
    ensures |r| <= |data|
    ensures forall j :: 0 <= j < |r| ==> Files.New(owner, data[j]) == Ok(r[j])
    ensures |r| < |data| ==> Parse(data[|r|].name) == []
    decreases |data|
  {
    if |data| == 0 then []
    else
      var first := Files.New(owner, data[0]);
      if first.Err? then []
      else
        var rest := BuildPrefix(owner, data[1..]);
        PrefixCons(owner, data, first.value, rest);
        [first.value] + rest
  }

  /** A file built from the first entry, followed by a prefix built from the others, is a
      prefix built from all the entries. */
  lemma PrefixCons(owner: Path, data: seq<FileData>, first: Files.File, rest: seq<Files.File>)
    requires |data| > 0 && Files.New(owner, data[0]) == Ok(first)
    requires |rest| <= |data[1..]|
    requires forall j :: 0 <= j < |rest| ==> Files.New(owner, data[1..][j]) == Ok(rest[j])
    requires |rest| < |data[1..]| ==> Parse(data[1..][|rest|].name) == []
    ensures var r := [first] + rest;
            && |r| <= |data|
            && (forall j :: 0 <= j < |r| ==> Files.New(owner, data[j]) == Ok(r[j]))
            && (|r| < |data| ==> Parse(data[|r|].name) == [])
  {
    var r := [first] + rest;
    forall j | 0 <= j < |r|
      ensures Files.New(owner, data[j]) == Ok(r[j])
    {
      if j > 0 {
        assert data[1..][j - 1] == data[j] && r[j] == rest[j - 1];
      }
    }
    if |r| < |data| {
      assert data[1..][|rest|] == data[|r|];
    }
  }

  /** When no entry fails, the loop appends every file: the prefix is the whole list. */
  lemma BuildPrefixComplete(owner: Path, data: seq<FileData>)
    requires BuildFiles(owner, data).Ok?
    ensures BuildPrefix(owner, data) == BuildFiles(owner, data).value
  {
    var r := BuildPrefix(owner, data);
    var all := BuildFiles(owner, data).value;
    assert |r| == |data|;
    forall j | 0 <= j < |r|
      ensures r[j] == all[j]
    {
      assert Files.New(owner, data[j]) == Ok(r[j]);
    }
  }

  /** `reload()` with the listing `entries` the service returns for `pathStr` (in the older
      revision, the listing part of `__init__`): one listing request; the file list is
      rebuilt from the non-marker file entries, the slots from the `subdir` entries, all
      unexpanded; the current revision then applies the large-file rule. The file list is
      cleared and refilled before anything can raise, so an `IndexError` leaves the files
      appended so far and the slots as they were. */
  function Reload(rev: Revision, f: Folder, entries: seq<Entry>): (r: Step<()>)
    ensures r.sent == [ListFolder(f.pathStr)]
    ensures r.folder.path == f.path && r.folder.pathStr == f.pathStr && r.folder.name == f.name
    ensures r.result.Err? ==> r.result.error == IndexError
    ensures r.result.Err? ==> r.folder.slots == f.slots && r.folder.files == BuildPrefix(f.path, FileDataOf(entries))
    ensures r.result.Ok? ==> forall i :: 0 <= i < |r.folder.slots| ==> r.folder.slots[i].Unexpanded?
    ensures rev == Legacy && r.result.Ok? ==> r.folder.slots == Unexpand(SubdirsOf(entries))
    ensures EntriesNamed(entries) ==> r.result.Ok?
  {
    var data := FileDataOf(entries);
    var subdirs := SubdirsOf(entries);
    var built := BuildFiles(f.path, data);
    var sent := [ListFolder(f.pathStr)];
    if built.Err? then Step(sent, f.(files := BuildPrefix(f.path, data)), Err(built.error))
    else
      SubdirsNamed(entries);
      var kept := if rev == Current then ApplyCollisions(built.value, subdirs) else Ok(subdirs);
      if kept.Err? then
        BuildPrefixComplete(f.path, data);
        Step(sent, f.(files := built.value), Err(kept.error))
      else Step(sent, f.(slots := Unexpand(kept.value), files := built.value), Ok(()))
  }

  /** What a successful reload holds: one file per non-marker file entry, built from it; a
      slot for listed `subdir` entries only; and a slot for every listed `subdir` entry, except,
      in the current revision, those shadowed by a large file. */
  lemma ReloadContents(rev: Revision, f: Folder, entries: seq<Entry>)
    requires Reload(rev, f, entries).result.Ok?
    ensures var g := Reload(rev, f, entries).folder;
            && |g.files| == |FileDataOf(entries)|
            && (forall j :: 0 <= j < |g.files| ==> Files.New(f.path, FileDataOf(entries)[j]) == Ok(g.files[j]))
            && (forall i :: 0 <= i < |g.slots| ==> Subdir(g.slots[i].subdir) in entries)
            && (forall s :: Subdir(s) in entries && (rev == Legacy || !Shadowed(s, g.files)) ==> Unexpanded(s) in g.slots)
  {
    var built := BuildFiles(f.path, FileDataOf(entries));
    var kept := if rev == Current then ApplyCollisions(built.value, SubdirsOf(entries)) else Ok(SubdirsOf(entries));
    UnexpandMembers(kept.value);
  }

  // ---------------------------------------------------------------- construction

  /** The root test: `bool(path)` in the current revision, `bool(str(path))` in the older one. */
  predicate NotRoot(rev: Revision, path: Path)
  {
    match rev
    case Current => path.IsTruthy()
    case Legacy => path.ToString() != ""
  }

  /** The state the constructor sets up before listing: the directory string (with a trailing
      separator unless this is the root), the name, and no children. */
  function Blank(path: Path, notRoot: bool): (f: Folder)
    ensures f.path == path && f.slots == [] && f.files == []
  {
    Folder(path, path.AsDir(false, notRoot), LastOrEmpty(path.parts), [], [])
  }

  /** `Folder(path, parent, session)` (`Folder(path, session)` in the older revision): the
      blank folder, listed once under its directory string. */
  function Open(rev: Revision, path: Path, lister: Lister): (r: Opened)
    ensures r.sent == [ListFolder(Blank(path, NotRoot(rev, path)).pathStr)]
    ensures r.result.Ok? ==> r.result.value.path == path && r.result.value.name == LastOrEmpty(path.parts)
    ensures r.result.Ok? && path.Valid() ==> r.result.value.pathStr == path.AsDir(false, path.IsTruthy())
    ensures r.result.Ok? ==> forall i :: 0 <= i < |r.result.value.slots| ==> r.result.value.slots[i].Unexpanded?
  {
    var blank := Blank(path, NotRoot(rev, path));
    assert path.Valid() ==> NotRoot(rev, path) == path.IsTruthy() by {
      if path.Valid() { TruthyIffNonEmptyString(path); }
    }
    var listed := Reload(rev, blank, lister(blank.pathStr));
    Opened(listed.sent, if listed.result.Ok? then Ok(listed.folder) else Err(listed.result.error))
  }

  /** The folder a slot turns into: `Folder(Path(sd["subdir"]), self, session)`. */
  function Materialize(rev: Revision, subdir: string, lister: Lister): (r: Opened)
    ensures r.result.Ok? ==> r.result.value.path.parts == Parse(subdir) && r.result.value.path.Valid()
    ensures r.result.Ok? ==> r.result.value.name == LastOrEmpty(Parse(subdir))
    ensures EntryName(subdir).Some? && r.result.Ok? ==> Some(r.result.value.name) == EntryName(subdir)
    ensures r.result.Ok? ==> forall i :: 0 <= i < |r.result.value.slots| ==> r.result.value.slots[i].Unexpanded?
  {
    Open(rev, FromString(subdir, Slash), lister)
  }

  /** `get_root_directory()`: the root folder, listed under the empty prefix. */
  function OpenRoot(lister: Lister): (r: Opened)
    ensures r.sent == [ListFolder("")]
    ensures r.result.Ok? ==> r.result.value.path == Root && r.result.value.name == "" && r.result.value.pathStr == ""
  {
    AsDirOfRoot();
    Open(Current, Root, lister)
  }

  // ---------------------------------------------------------------- indexing and iteration

  /** The slot a Python index `i` with `-len(slots) <= i < len(slots)` addresses. */
  function SlotIndex(n: nat, i: int): (k: nat)
    requires -(n as int) <= i < n
    ensures k < n
  {
    if i < 0 then i + n else i
  }

  /** `folder[i]`: indices below the slot count address subfolders, turning an unexpanded slot
      into a folder (one listing request) and storing it in place; the other indices address
      `files[i - len(slots)]`. */
  function GetItem(rev: Revision, f: Folder, i: int, lister: Lister): (r: Step<Item>)
    ensures r.folder.(slots := f.slots) == f && |r.folder.slots| == |f.slots|
    ensures r.result.Err? ==> r.folder == f
    ensures i >= |f.slots| ==>
              r == Step([], f, if i - |f.slots| < |f.files| then Ok(FileItem(f.files[i - |f.slots|])) else Err(IndexError))
    ensures i < -|f.slots| ==> r == Step([], f, Err(IndexError))
    ensures -|f.slots| <= i < |f.slots| ==>
              var k := SlotIndex(|f.slots|, i);
              && (forall j :: 0 <= j < |f.slots| && j != k ==> r.folder.slots[j] == f.slots[j])
              && (f.slots[k].Materialized? ==> r == Step([], f, Ok(FolderItem(f.slots[k].folder))))
              && (f.slots[k].Unexpanded? ==>
                    var m := Materialize(rev, f.slots[k].subdir, lister);
                    && r.sent == m.sent
                    && (r.result.Ok? <==> m.result.Ok?)
                    && (r.result.Err? ==> r.result.error == m.result.error)
                    && (r.result.Ok? ==> r.result == Ok(FolderItem(m.result.value))
                                         && r.folder.slots[k] == Materialized(m.result.value)))
  {
    if i < |f.slots| then
      if i < -|f.slots| then Step([], f, Err(IndexError))
      else
        var k := SlotIndex(|f.slots|, i);
        match f.slots[k]
        case Materialized(c) => Step([], f, Ok(FolderItem(c)))
        case Unexpanded(e) =>
          var m := Materialize(rev, e, lister);
          if m.result.Err? then Step(m.sent, f, Err(m.result.error))
          else Step(m.sent, f.(slots := f.slots[k := Materialized(m.result.value)]), Ok(FolderItem(m.result.value)))
    else if i - |f.slots| < |f.files| then Step([], f, Ok(FileItem(f.files[i - |f.slots|])))
    else Step([], f, Err(IndexError))
  }

  /** Materialization is memoized: indexing the same position again sends nothing, returns
      the same item and leaves the folder as the first access left it. */
  lemma GetItemMemoized(rev: Revision, f: Folder, i: int, lister: Lister, later: Lister)
    requires GetItem(rev, f, i, lister).result.Ok?
    ensures var first := GetItem(rev, f, i, lister);
            GetItem(rev, first.folder, i, later) == Step([], first.folder, first.result)
  {
  }

  /** The listing requests that opening the unexpanded slots from index `k` on sends, in order. */
  function OpenRequests(rev: Revision, slots: seq<Slot>, k: nat, lister: Lister): seq<Request>
    decreases |slots| - k
  {
    if k >= |slots| then []
    else (if slots[k].Unexpanded? then Materialize(rev, slots[k].subdir, lister).sent else [])
         + OpenRequests(rev, slots, k + 1, lister)
  }

  /** Whether every unexpanded slot from index `k` on opens without error. */
  predicate OpensFrom(rev: Revision, slots: seq<Slot>, k: nat, lister: Lister)
  {
    forall j :: k <= j < |slots| && slots[j].Unexpanded? ==> Materialize(rev, slots[j].subdir, lister).result.Ok?
  }

  /** Materializes every slot from index `k` on, in order, stopping at the first error. */
  function ExpandFrom(rev: Revision, f: Folder, k: nat, lister: Lister): (r: Step<()>)
    requires k <= |f.slots|
    ensures r.folder.(slots := f.slots) == f && |r.folder.slots| == |f.slots|
    ensures forall j :: 0 <= j < k ==> r.folder.slots[j] == f.slots[j]
    ensures forall j :: k <= j < |f.slots| && f.slots[j].Materialized? ==> r.folder.slots[j] == f.slots[j]
    ensures r.result.Ok? ==> forall j :: k <= j < |f.slots| ==> r.folder.slots[j].Materialized?
    ensures r.result.Ok? <==> OpensFrom(rev, f.slots, k, lister)
    ensures r.result.Ok? ==>
              forall j :: k <= j < |f.slots| && f.slots[j].Unexpanded? ==>
                Materialize(rev, f.slots[j].subdir, lister).result == Ok(r.folder.slots[j].folder)
    ensures r.result.Ok? ==> r.sent == OpenRequests(rev, f.slots, k, lister)
    ensures (forall j :: k <= j < |f.slots| ==> f.slots[j].Materialized?) ==> r == Step([], f, Ok(()))
    decreases |f.slots| - k
  {
    if k == |f.slots| then Step([], f, Ok(()))
    else
      var g := GetItem(rev, f, k, lister);
      ExpandStep(rev, f, k, lister);
      if g.result.Err? then Step(g.sent, g.folder, Err(g.result.error))
      else
        var rest := ExpandFrom(rev, g.folder, k + 1, lister);
        ExpandFrameTurn(rev, f, k, lister, rest);
        ExpandOpenedTurn(rev, f, k, lister, rest);
        Step(g.sent + rest.sent, rest.folder, rest.result)
  }

  /** The frame part of `ExpandFrom`'s contract: only the slots change, those before `k`
      and the materialized ones not at all. */
  predicate ExpandFrame(f: Folder, k: nat, r: Step<()>)
  {
    && r.folder.(slots := f.slots) == f && |r.folder.slots| == |f.slots|
    && (forall j :: 0 <= j < k && j < |f.slots| ==> r.folder.slots[j] == f.slots[j])
    && (forall j :: k <= j < |f.slots| && f.slots[j].Materialized? ==> r.folder.slots[j] == f.slots[j])
  }

  /** The rest of `ExpandFrom`'s contract: when it succeeds, and what it opens and sends. */
  predicate ExpandOpened(rev: Revision, f: Folder, k: nat, lister: Lister, r: Step<()>)
    requires |r.folder.slots| == |f.slots|
  {
    && (r.result.Ok? ==> forall j :: k <= j < |f.slots| ==> r.folder.slots[j].Materialized?)
    && (r.result.Ok? <==> OpensFrom(rev, f.slots, k, lister))
    && (r.result.Ok? ==>
          forall j :: k <= j < |f.slots| && f.slots[j].Unexpanded? ==>
            Materialize(rev, f.slots[j].subdir, lister).result == Ok(r.folder.slots[j].folder))
    && (r.result.Ok? ==> r.sent == OpenRequests(rev, f.slots, k, lister))
  }

  /** The frame after a successful fetch of slot `k` and an expansion of the rest. */
  lemma ExpandFrameTurn(rev: Revision, f: Folder, k: nat, lister: Lister, rest: Step<()>)
    requires k < |f.slots| && GetItem(rev, f, k, lister).result.Ok?
    requires ExpandFrame(GetItem(rev, f, k, lister).folder, k + 1, rest)
    ensures var g := GetItem(rev, f, k, lister);
            ExpandFrame(f, k, Step(g.sent + rest.sent, rest.folder, rest.result))
  {
    var g := GetItem(rev, f, k, lister);
    ExpandStep(rev, f, k, lister);
    forall j | 0 <= j < k
      ensures rest.folder.slots[j] == f.slots[j]
    {
      assert rest.folder.slots[j] == g.folder.slots[j];
    }
    forall j | k <= j < |f.slots| && f.slots[j].Materialized?
      ensures rest.folder.slots[j] == f.slots[j]
    {
      assert rest.folder.slots[j] == g.folder.slots[j];
    }
  }

  /** The outcome after a successful fetch of slot `k` and an expansion of the rest. */
  lemma ExpandOpenedTurn(rev: Revision, f: Folder, k: nat, lister: Lister, rest: Step<()>)
    requires k < |f.slots| && GetItem(rev, f, k, lister).result.Ok?
    requires ExpandFrame(GetItem(rev, f, k, lister).folder, k + 1, rest)
    requires ExpandOpened(rev, GetItem(rev, f, k, lister).folder, k + 1, lister, rest)
    ensures |rest.folder.slots| == |f.slots|
    ensures var g := GetItem(rev, f, k, lister);
            ExpandOpened(rev, f, k, lister, Step(g.sent + rest.sent, rest.folder, rest.result))
  {
    ExpandStep(rev, f, k, lister);
  }

  /** One turn of `ExpandFrom`: fetching slot `k` sends that slot's listing request, if any,
      fails exactly when opening it fails, and leaves the later slots alone. */
  lemma ExpandStep(rev: Revision, f: Folder, k: nat, lister: Lister)
    requires k < |f.slots|
    ensures var g := GetItem(rev, f, k, lister);
            && g.sent == (if f.slots[k].Unexpanded? then Materialize(rev, f.slots[k].subdir, lister).sent else [])
            && (g.result.Ok? ==>
                  g.folder.slots[k] == if f.slots[k].Materialized? then f.slots[k]
                                       else Materialized(Materialize(rev, f.slots[k].subdir, lister).result.value))
            && (g.result.Ok? <==> f.slots[k].Materialized? || Materialize(rev, f.slots[k].subdir, lister).result.Ok?)
            && (forall j :: k < j < |f.slots| ==> g.folder.slots[j] == f.slots[j])
            && (forall j :: 0 <= j < k ==> g.folder.slots[j] == f.slots[j])
            && OpenRequests(rev, f.slots, k, lister) == g.sent + OpenRequests(rev, g.folder.slots, k + 1, lister)
            && (OpensFrom(rev, g.folder.slots, k + 1, lister) <==> OpensFrom(rev, f.slots, k + 1, lister))
  {
    var g := GetItem(rev, f, k, lister);
    FetchSlot(rev, f, k, lister);
    OpenTurn(rev, f.slots, g.folder.slots, k, lister, g.sent);
  }

  /** The requests from slot `k` on are those of slot `k` followed by those of any slots that
      agree after `k`, and whether the later slots open does not depend on which. */
  lemma OpenTurn(rev: Revision, s1: seq<Slot>, s2: seq<Slot>, k: nat, lister: Lister, first: seq<Request>)
    requires k < |s1| && |s1| == |s2| && forall j :: k < j < |s1| ==> s1[j] == s2[j]
    requires first == if s1[k].Unexpanded? then Materialize(rev, s1[k].subdir, lister).sent else []
    ensures OpenRequests(rev, s1, k, lister) == first + OpenRequests(rev, s2, k + 1, lister)
    ensures OpensFrom(rev, s2, k + 1, lister) <==> OpensFrom(rev, s1, k + 1, lister)
  {
    OpenRequestsLater(rev, s2, s1, k + 1, lister);
  }

  /** Fetching slot `k` by its non-negative index: the slot's listing request, if any; the slot
      opened in place; failure exactly when opening fails; every other slot left alone. */
  lemma FetchSlot(rev: Revision, f: Folder, k: nat, lister: Lister)
    requires k < |f.slots|
    ensures var g := GetItem(rev, f, k, lister);
            && g.sent == (if f.slots[k].Unexpanded? then Materialize(rev, f.slots[k].subdir, lister).sent else [])
            && (g.result.Ok? ==>
                  g.folder.slots[k] == if f.slots[k].Materialized? then f.slots[k]
                                       else Materialized(Materialize(rev, f.slots[k].subdir, lister).result.value))
            && (g.result.Ok? <==> f.slots[k].Materialized? || Materialize(rev, f.slots[k].subdir, lister).result.Ok?)
            && (forall j :: 0 <= j < |f.slots| && j != k ==> g.folder.slots[j] == f.slots[j])
  {
    assert SlotIndex(|f.slots|, k) == k;
  }

  /** The requests from index `k` on depend only on the slots from `k` on. */
  lemma {:induction false} OpenRequestsLater(rev: Revision, s1: seq<Slot>, s2: seq<Slot>, k: nat, lister: Lister)
    requires |s1| == |s2| && forall j :: k <= j < |s1| ==> s1[j] == s2[j]
    ensures OpenRequests(rev, s1, k, lister) == OpenRequests(rev, s2, k, lister)
    decreases |s1| - k
  {
    if k < |s1| {
      OpenRequestsLater(rev, s1, s2, k + 1, lister);
    }
  }

  predicate AllMaterialized(slots: seq<Slot>)
  {
    forall i :: 0 <= i < |slots| ==> slots[i].Materialized?
  }

  function FolderItems(slots: seq<Slot>): (r: seq<Item>)
    requires AllMaterialized(slots)
    ensures |r| == |slots| && forall i :: 0 <= i < |r| ==> r[i] == FolderItem(slots[i].folder)
  {
    seq(|slots|, i requires 0 <= i < |slots| => FolderItem(slots[i].folder))
  }

  function FileItems(files: seq<Files.File>): (r: seq<Item>)
    ensures |r| == |files| && forall i :: 0 <= i < |r| ==> r[i] == FileItem(files[i])
  {
    seq(|files|, i requires 0 <= i < |files| => FileItem(files[i]))
  }

  /** `items` lists `g`'s subfolders, all materialized, and then its files. */
  predicate ListsChildren(g: Folder, items: seq<Item>)
  {
    && AllMaterialized(g.slots)
    && |items| == |g.slots| + |g.files|
    && (forall i :: 0 <= i < |g.slots| ==> items[i] == FolderItem(g.slots[i].folder))
    && (forall j :: 0 <= j < |g.files| ==> items[|g.slots| + j] == FileItem(g.files[j]))
  }

  /** `iter(folder)`: every subfolder (materializing them in order), then every file. */
  function Iterate(rev: Revision, f: Folder, lister: Lister): (r: Step<seq<Item>>)
    ensures r.folder.(slots := f.slots) == f && |r.folder.slots| == |f.slots|
    ensures forall j :: 0 <= j < |f.slots| && f.slots[j].Materialized? ==> r.folder.slots[j] == f.slots[j]
    ensures r.result.Ok? ==> AllMaterialized(r.folder.slots)
    ensures r.result.Ok? ==> |r.result.value| == |f.slots| + |f.files|
    ensures r.result.Ok? ==> forall i :: 0 <= i < |f.slots| ==> r.result.value[i] == FolderItem(r.folder.slots[i].folder)
    ensures r.result.Ok? ==> forall j :: 0 <= j < |f.files| ==> r.result.value[|f.slots| + j] == FileItem(f.files[j])
    ensures r.result.Ok? ==> ListsChildren(r.folder, r.result.value)
    ensures r.result.Ok? <==> OpensFrom(rev, f.slots, 0, lister)
    ensures r.result.Ok? ==>
              forall j :: 0 <= j < |f.slots| && f.slots[j].Unexpanded? ==>
                Materialize(rev, f.slots[j].subdir, lister).result == Ok(r.folder.slots[j].folder)
    ensures r.result.Ok? ==> r.sent == OpenRequests(rev, f.slots, 0, lister)
  {
    var e := ExpandFrom(rev, f, 0, lister);
    if e.result.Err? then Step(e.sent, e.folder, Err(e.result.error))
    else
      ItemsListed(e.folder, f);
      Step(e.sent, e.folder, Ok(FolderItems(e.folder.slots) + FileItems(f.files)))
  }

  /** The subfolders' items followed by the files' items list a folder's children; `f` is the
      folder before its subfolders were materialized. */
  lemma ItemsListed(g: Folder, f: Folder)
    requires AllMaterialized(g.slots) && g.files == f.files && |g.slots| == |f.slots|
    ensures var items := FolderItems(g.slots) + FileItems(f.files);
            && ListsChildren(g, items)
            && |items| == |f.slots| + |f.files|
            && (forall i :: 0 <= i < |f.slots| ==> items[i] == FolderItem(g.slots[i].folder))
            && (forall j :: 0 <= j < |f.files| ==> items[|f.slots| + j] == FileItem(f.files[j]))
  {
  }

  /** Indexing a folder whose subfolders are all materialized yields the listed item. */
  lemma IndexListed(rev: Revision, g: Folder, items: seq<Item>, lister: Lister, i: nat)
    requires ListsChildren(g, items) && i < |items|
    ensures GetItem(rev, g, i, lister) == Step([], g, Ok(items[i]))
  {
    if i >= |g.slots| {
      assert items[|g.slots| + (i - |g.slots|)] == FileItem(g.files[i - |g.slots|]);
    }
  }

  /** Iteration and indexing agree: after iterating, position `i` of the items is exactly what
      `folder[i]` returns, with no further request. */
  lemma IterateMatchesIndexing(rev: Revision, f: Folder, lister: Lister, later: Lister, i: nat)
    requires Iterate(rev, f, lister).result.Ok?
    requires i < |f.slots| + |f.files|
    ensures var it := Iterate(rev, f, lister);
            GetItem(rev, it.folder, i, later) == Step([], it.folder, Ok(it.result.value[i]))
  {
    var it := Iterate(rev, f, lister);
    IndexListed(rev, it.folder, it.result.value, later, i);
  }

  /** `subfolders`: every subfolder, materialized in order. */
  function Subfolders(rev: Revision, f: Folder, lister: Lister): (r: Step<seq<Folder>>)
    ensures r.folder.(slots := f.slots) == f && |r.folder.slots| == |f.slots|
    ensures r.result.Ok? ==> AllMaterialized(r.folder.slots) && |r.result.value| == |f.slots|
    ensures r.result.Ok? ==> forall i :: 0 <= i < |f.slots| ==> r.result.value[i] == r.folder.slots[i].folder
    ensures forall j :: 0 <= j < |f.slots| && f.slots[j].Materialized? ==> r.folder.slots[j] == f.slots[j]
    ensures r.result.Ok? <==> OpensFrom(rev, f.slots, 0, lister)
    ensures r.result.Ok? ==>
              forall j :: 0 <= j < |f.slots| ==>
                if f.slots[j].Unexpanded? then Materialize(rev, f.slots[j].subdir, lister).result == Ok(r.result.value[j])
                else r.result.value[j] == f.slots[j].folder
    ensures r.result.Ok? ==> r.sent == OpenRequests(rev, f.slots, 0, lister)
  {
    var e := ExpandFrom(rev, f, 0, lister);
    if e.result.Err? then Step(e.sent, e.folder, Err(e.result.error))
    else Step(e.sent, e.folder, Ok(seq(|e.folder.slots|, i requires 0 <= i < |e.folder.slots| => e.folder.slots[i].folder)))
  }

  // ---------------------------------------------------------------- lookup by name

  /** The position of the first file called `name`. */
  function FindFile(files: seq<Files.File>, name: string): (r: Option<nat>)
    ensures r.Some? ==> r.value < |files| && files[r.value].name == name
    ensures r.Some? ==> forall j :: 0 <= j < r.value ==> files[j].name != name
    ensures r.None? <==> forall j :: 0 <= j < |files| ==> files[j].name != name
    decreases |files|
  {
    if |files| == 0 then None
    else if files[0].name == name then Some(0)
    else match FindFile(files[1..], name)
      case None => None
      case Some(k) => Some(k + 1)
  }

  /** `get_file_by_name(name)`: the first cached file with exactly that name, or `None`. */
  function GetFileByName(f: Folder, name: string): (r: Option<Files.File>)
    ensures r.None? <==> forall j :: 0 <= j < |f.files| ==> f.files[j].name != name
    ensures r.Some? ==> exists j :: 0 <= j < |f.files| && f.files[j] == r.value && r.value.name == name
                                    && forall j' :: 0 <= j' < j ==> f.files[j'].name != name
  {
    match FindFile(f.files, name)
    case None => None
    case Some(j) => Some(f.files[j])
  }

  /** The name a slot answers to in `get_folder_by_name`. */
  function SlotName(s: Slot): Option<string>
  {
    match s
    case Unexpanded(e) => EntryName(e)
    case Materialized(c) => Some(c.name)
  }

  /** Where `get_folder_by_name` stops when scanning from slot `i`: the first slot that
      answers to `name` or has no name at all, or the end of the slots. */
  function Scan(slots: seq<Slot>, name: string, i: nat): (k: nat)
    ensures i <= k && (i <= |slots| ==> k <= |slots|)
    ensures k < |slots| ==> SlotName(slots[k]).None? || SlotName(slots[k]) == Some(name)
    ensures forall j :: i <= j < k && j < |slots| ==> SlotName(slots[j]).Some? && SlotName(slots[j]) != Some(name)
    decreases |slots| - i
  {
    if i >= |slots| then i
    else if SlotName(slots[i]).Some? && SlotName(slots[i]) != Some(name) then Scan(slots, name, i + 1)
    else i
  }

  /** `get_folder_by_name(name)` scanning from slot `i`: it stops at the slot `Scan` finds.
      There a materialized folder is returned as is; an unexpanded slot whose entry has no
      component raises `IndexError`; any other unexpanded slot is materialized, stored in
      place and returned. Past the end the answer is `None`. */
  function FindFolderFrom(f: Folder, name: string, i: nat, lister: Lister): (r: Step<Option<Folder>>)
    ensures r.folder.(slots := f.slots) == f && |r.folder.slots| == |f.slots|
    ensures r.result.Err? ==> r.folder == f
    ensures forall j :: 0 <= j < |f.slots| && f.slots[j].Materialized? ==> r.folder.slots[j] == f.slots[j]
    ensures r.result.Ok? && r.result.value.Some? ==>
              && r.result.value.value.name == name
              && var k := Scan(f.slots, name, i);
                 && k < |f.slots| && SlotName(f.slots[k]) == Some(name)
                 && r.folder.slots[k] == Materialized(r.result.value.value)
    ensures (forall j :: i <= j < |f.slots| ==> SlotName(f.slots[j]).Some? && SlotName(f.slots[j]) != Some(name))
            <==> r == Step([], f, Ok(None))
    ensures var k := Scan(f.slots, name, i);
            k < |f.slots| ==>
              match f.slots[k]
              case Materialized(c) => r == Step([], f, Ok(Some(c)))
              case Unexpanded(e) =>
                if EntryName(e).None? then r == Step([], f, Err(IndexError))
                else
                  var m := Materialize(Current, e, lister);
                  && r.sent == m.sent
                  && (m.result.Err? ==> r == Step(m.sent, f, Err(m.result.error)))
                  && (m.result.Ok? ==> r == Step(m.sent, f.(slots := f.slots[k := Materialized(m.result.value)]), Ok(Some(m.result.value))))
    decreases |f.slots| - i
  {
    if i >= |f.slots| then Step([], f, Ok(None))
    else match f.slots[i]
      case Materialized(c) =>
        if c.name == name then Step([], f, Ok(Some(c))) else FindFolderFrom(f, name, i + 1, lister)
      case Unexpanded(e) =>
        match EntryName(e)
        case None => Step([], f, Err(IndexError))
        case Some(n) =>
          if n != name then FindFolderFrom(f, name, i + 1, lister)
          else
            var m := Materialize(Current, e, lister);
            if m.result.Err? then Step(m.sent, f, Err(m.result.error))
            else Step(m.sent, f.(slots := f.slots[i := Materialized(m.result.value)]), Ok(Some(m.result.value)))
  }

  function GetFolderByName(f: Folder, name: string, lister: Lister): (r: Step<Option<Folder>>)
    ensures r == FindFolderFrom(f, name, 0, lister)
  {
    FindFolderFrom(f, name, 0, lister)
  }

  // ---------------------------------------------------------------- path propagation

  /** `_self_path_changed` after the path was set to `path`: the directory string (trailing
      separator when `notRoot`), the name (last component, or `""`), and the new path pushed
      down to every materialized subfolder (`_parent_path_changed`, which places it at
      `path / name`) and to every file; unexpanded slots are left alone. */
  function Relocate(f: Folder, path: Path, notRoot: bool): (r: Folder)
    ensures r.path == path && r.pathStr == path.AsDir(false, notRoot) && r.name == LastOrEmpty(path.parts)
    ensures |r.slots| == |f.slots| && |r.files| == |f.files|
    ensures forall i :: 0 <= i < |f.slots| ==> (r.slots[i].Unexpanded? <==> f.slots[i].Unexpanded?)
    ensures forall i :: 0 <= i < |f.slots| && f.slots[i].Unexpanded? ==> r.slots[i] == f.slots[i]
    ensures forall j :: 0 <= j < |f.files| ==> r.files[j] == Files.ParentPathChanged(f.files[j], path)
    decreases f, 1
  {
    Folder(path, path.AsDir(false, notRoot), LastOrEmpty(path.parts),
           seq(|f.slots|, i requires 0 <= i < |f.slots| => RelocateSlot(f.slots[i], path)),
           seq(|f.files|, j requires 0 <= j < |f.files| => Files.ParentPathChanged(f.files[j], path)))
  }

  function RelocateSlot(s: Slot, parentPath: Path): (r: Slot)
    ensures r.Unexpanded? <==> s.Unexpanded?
    ensures s.Unexpanded? ==> r == s
    decreases s, 0
  {
    match s
    case Unexpanded(_) => s
    case Materialized(c) => Materialized(ParentPathChanged(c, parentPath))
  }

  /** `_parent_path_changed(new_path)`: the folder moves to `new_path / name`. */
  function ParentPathChanged(f: Folder, parentPath: Path): Folder
    decreases f, 2
  {
    Relocate(f, parentPath.DivStr(f.name), true)
  }
}

=== FILE: legacy.dfy ===
/** The older `Folder` of src/fso/folder.py where it differs from the current one: the
    constructor lists the folder entry by entry, `parent` is a string, and `paste` rebuilds the
    target instead of re-parenting the pasted item. Indexing, iteration and `create_folder` are
    the ones of `Folders` and `FolderOps` with the `Legacy` revision. */
module LegacyFolders {
  import opened Results
  import opened Paths
  import opened Protocol
  import opened Folders
  import Files
  import FolderOps

  // ---------------------------------------------------------------- construction

  /** The constructor's loop over the listing: a `subdir` entry is appended as a slot, a file
      entry that is not a directory marker is appended as a `File`, and a file entry whose name
      has no component raises `IndexError`, leaving what the earlier entries appended. */
  function Fill(f: Folder, entries: seq<Entry>): (r: Step<()>)
    ensures r.sent == []
    ensures r.folder.path == f.path && r.folder.pathStr == f.pathStr && r.folder.name == f.name
    ensures r.result.Err? ==> r.result.error == IndexError
    decreases |entries|
  {
    if |entries| == 0 then Step([], f, Ok(()))
    else match entries[0]
      case Subdir(s) => Fill(f.(slots := f.slots + [Unexpanded(s)]), entries[1..])
      case FileEntry(d) =>
        if d.contentType == DirectoryType then Fill(f, entries[1..])
        else match Files.New(f.path, d)
          case Err(e) => Step([], f, Err(e))
          case Ok(x) => Fill(f.(files := f.files + [x]), entries[1..])
  }

  /** `Folder(path, session)`: the blank folder (non-root exactly when `str(path)` is not
      empty), one listing request, then the loop over what it returns. */
  function Init(path: Path, lister: Lister): (r: Step<()>)
    ensures r.sent == [ListFolder(path.AsDir(false, path.ToString() != ""))]
    ensures r.folder.path == path && r.folder.name == LastOrEmpty(path.parts)
    ensures r.folder.pathStr == path.AsDir(false, path.ToString() != "")
  {
    var blank := Blank(path, NotRoot(Legacy, path));
    var filled := Fill(blank, lister(blank.pathStr));
    Step([ListFolder(blank.pathStr)], filled.folder, filled.result)
  }

  /** How the first entry of a listing contributes to its `subdir` entries and its file
      entries. */
  lemma ListingHead(entries: seq<Entry>)
    requires |entries| > 0
    ensures entries[0].Subdir? ==> SubdirsOf(entries) == [entries[0].subdir] + SubdirsOf(entries[1..])
    ensures entries[0].FileEntry? ==> SubdirsOf(entries) == SubdirsOf(entries[1..])
    ensures entries[0].FileEntry? && entries[0].data.contentType != DirectoryType ==>
              FileDataOf(entries) == [entries[0].data] + FileDataOf(entries[1..])
    ensures entries[0].Subdir? || entries[0].data.contentType == DirectoryType ==>
              FileDataOf(entries) == FileDataOf(entries[1..])
  {
    assert [] + SubdirsOf(entries[1..]) == SubdirsOf(entries[1..]);
    assert [] + FileDataOf(entries[1..]) == FileDataOf(entries[1..]);
  }

  /** Appending the slots of `[s] + l` is appending `s`'s slot and then those of `l`. */
  lemma UnexpandCons(slots: seq<Slot>, s: string, l: seq<string>)
    ensures slots + Unexpand([s] + l) == (slots + [Unexpanded(s)]) + Unexpand(l)
  {
    assert Unexpand([s] + l) == [Unexpanded(s)] + Unexpand(l);
  }

  lemma BuildFilesCons(owner: Path, d: FileData, rest: seq<FileData>)
    ensures Files.New(owner, d).Err? ==> BuildFiles(owner, [d] + rest).Err?
    ensures Files.New(owner, d).Ok? ==> (BuildFiles(owner, [d] + rest).Ok? <==> BuildFiles(owner, rest).Ok?)
    ensures Files.New(owner, d).Ok? && BuildFiles(owner, rest).Ok? ==>
              BuildFiles(owner, [d] + rest).value == [Files.New(owner, d).value] + BuildFiles(owner, rest).value
  {
    assert ([d] + rest)[1..] == rest;
  }

  /** The loop appends exactly the `subdir` entries as slots, when it does not raise. */
  lemma {:induction false} FillSlots(f: Folder, entries: seq<Entry>)
    ensures Fill(f, entries).result.Ok? ==> Fill(f, entries).folder.slots == f.slots + Unexpand(SubdirsOf(entries))
    decreases |entries|, 1
  {
    if |entries| == 0 {
      assert f.slots + [] == f.slots;
    } else if entries[0].Subdir? {
      SlotsAfterSubdir(f, entries);
    } else {
      SlotsAfterFile(f, entries);
    }
  }

  lemma {:induction false} SlotsAfterSubdir(f: Folder, entries: seq<Entry>)
    requires |entries| > 0 && entries[0].Subdir?
    ensures Fill(f, entries).result.Ok? ==> Fill(f, entries).folder.slots == f.slots + Unexpand(SubdirsOf(entries))
    decreases |entries|, 0
  {
    var s := entries[0].subdir;
    var g := f.(slots := f.slots + [Unexpanded(s)]);
    FillSlots(g, entries[1..]);
    assert Fill(f, entries) == Fill(g, entries[1..]);
    ListingHead(entries);
    UnexpandCons(f.slots, s, SubdirsOf(entries[1..]));
  }

  lemma {:induction false} SlotsAfterFile(f: Folder, entries: seq<Entry>)
    requires |entries| > 0 && entries[0].FileEntry?
    ensures Fill(f, entries).result.Ok? ==> Fill(f, entries).folder.slots == f.slots + Unexpand(SubdirsOf(entries))
    decreases |entries|, 0
  {
    var d := entries[0].data;
    ListingHead(entries);
    if d.contentType == DirectoryType {
      FillSlots(f, entries[1..]);
    } else if Files.New(f.path, d).Ok? {
      FillSlots(f.(files := f.files + [Files.New(f.path, d).value]), entries[1..]);
    }
  }

  /** The loop raises exactly when building the files of the non-marker entries raises,
      and otherwise appends exactly those files. */
  predicate FilesAppended(f: Folder, entries: seq<Entry>)
  {
    var filled := Fill(f, entries);
    var built := BuildFiles(f.path, FileDataOf(entries));
    && (filled.result.Ok? <==> built.Ok?)
    && (filled.result.Ok? ==> filled.folder.files == f.files + built.value)
  }

  lemma {:induction false} FillFiles(f: Folder, entries: seq<Entry>)
    ensures FilesAppended(f, entries)
    decreases |entries|, 1
  {
    if |entries| == 0 {
      assert f.files + [] == f.files;
    } else if entries[0].Subdir? {
      ListingHead(entries);
      FillFiles(f.(slots := f.slots + [Unexpanded(entries[0].subdir)]), entries[1..]);
    } else if entries[0].data.contentType == DirectoryType {
      ListingHead(entries);
      FillFiles(f, entries[1..]);
    } else if Files.New(f.path, entries[0].data).Err? {
      ListingHead(entries);
      BuildFilesCons(f.path, entries[0].data, FileDataOf(entries[1..]));
    } else {
      FilesAfterGoodFile(f, Files.New(f.path, entries[0].data).value, entries[0].data, entries);
    }
  }

  lemma {:induction false} FilesAfterGoodFile(f: Folder, x: Files.File, d: FileData, entries: seq<Entry>)
    requires |entries| > 0 && entries[0] == FileEntry(d) && d.contentType != DirectoryType
    requires Files.New(f.path, d) == Ok(x)
    ensures FilesAppended(f, entries)
    decreases |entries|, 0
  {
    var g := f.(files := f.files + [x]);
    FillFiles(g, entries[1..]);
    assert Fill(f, entries) == Fill(g, entries[1..]);
    ListingHead(entries);
    BuildFilesAppend(f.path, d, FileDataOf(entries[1..]), x, f.files);
  }

  /** Building a file list whose first entry builds to `x`: it succeeds exactly when the
      rest does, and appending it is appending `x` and then the rest. */
  lemma BuildFilesAppend(owner: Path, d: FileData, rest: seq<FileData>, x: Files.File, files: seq<Files.File>)
    requires Files.New(owner, d) == Ok(x)
    ensures BuildFiles(owner, [d] + rest).Ok? <==> BuildFiles(owner, rest).Ok?
    ensures BuildFiles(owner, rest).Ok? ==>
              files + BuildFiles(owner, [d] + rest).value == (files + [x]) + BuildFiles(owner, rest).value
  {
    var b := BuildFiles(owner, [d] + rest);
    var c := BuildFiles(owner, rest);
    BuildFilesCons(owner, d, rest);
    if c.Ok? {
      assert b.value == [x] + c.value;
      assert files + ([x] + c.value) == (files + [x]) + c.value;
    }
  }

  /** The loop appends exactly the `subdir` entries as slots and the files built from the
      non-marker entries, and raises exactly when building those files raises. */
  lemma FillAppends(f: Folder, entries: seq<Entry>)
    ensures Fill(f, entries).result.Ok? <==> BuildFiles(f.path, FileDataOf(entries)).Ok?
    ensures Fill(f, entries).result.Ok? ==>
              Fill(f, entries).folder
              == f.(slots := f.slots + Unexpand(SubdirsOf(entries)),
                    files := f.files + BuildFiles(f.path, FileDataOf(entries)).value)
  {
    FillSlots(f, entries);
    FillFiles(f, entries);
  }

  /** The older constructor agrees with the bulk definition `Open(Legacy, …)`: same request,
      same success condition, and on success the same folder. */
  lemma InitMatchesOpen(path: Path, lister: Lister)
    ensures Init(path, lister).sent == Open(Legacy, path, lister).sent
    ensures Init(path, lister).result.Ok? <==> Open(Legacy, path, lister).result.Ok?
    ensures Init(path, lister).result.Ok? ==> Init(path, lister).folder == Open(Legacy, path, lister).result.value
  {
    var blank := Blank(path, NotRoot(Legacy, path));
    var entries := lister(blank.pathStr);
    FillAppends(blank, entries);
    assert [] + Unexpand(SubdirsOf(entries)) == Unexpand(SubdirsOf(entries));
    var built := BuildFiles(blank.path, FileDataOf(entries));
    if built.Ok? {
      assert [] + built.value == built.value;
    }
  }

  // ---------------------------------------------------------------- path strings

  /** The `path` property: the directory string, with a trailing separator exactly when the
      path's string form is not empty. */
  function PathString(f: Folder): (r: string)
    ensures f.path.Valid() ==> Parse(r) == f.path.parts
    ensures f.path.Valid() && f.path.IsTruthy() ==> r == f.path.ToString() + f.path.sep
    ensures f.path.Valid() && !f.path.IsTruthy() ==> r == ""
  {
    var r := f.path.AsDir(false, f.path.ToString() != "");
    if f.path.Valid() then
      AsDirRoundTrip(f.path, false, f.path.ToString() != "");
      TruthyIffNonEmptyString(f.path);
      r
    else r
  }

  /** A folder built by the constructor stores its `path` property as its directory string. */
  lemma InitPathString(path: Path, lister: Lister)
    ensures Init(path, lister).folder.pathStr == PathString(Init(path, lister).folder)
  {
  }

  /** The `parent` property: the parent path as a directory string, with a trailing separator
      exactly when the parent's string form is not empty. */
  function ParentString(f: Folder): (r: string)
    ensures f.path.Valid() ==> Parse(r) == (if |f.path.parts| == 0 then [] else f.path.parts[..|f.path.parts| - 1])
    ensures f.path.Valid() && |f.path.parts| <= 1 ==> r == ""
    ensures f.path.Valid() && |f.path.parts| > 1 ==> r == f.path.Parent().ToString() + "/"
  {
    var q := f.path.Parent();
    var r := q.AsDir(false, q.ToString() != "");
    if f.path.Valid() then ParentDirString(f.path); r else r
  }

  lemma ParentDirString(p: Path)
    requires p.Valid()
    ensures var q := p.Parent();
            var r := q.AsDir(false, q.ToString() != "");
            && Parse(r) == (if |p.parts| == 0 then [] else p.parts[..|p.parts| - 1])
            && (|p.parts| <= 1 ==> r == "")
            && (|p.parts| > 1 ==> r == q.ToString() + "/")
  {
    var q := p.Parent();
    assert q.Valid();
    AsDirRoundTrip(q, false, q.ToString() != "");
    TruthyIffNonEmptyString(q);
  }

  // ---------------------------------------------------------------- paste

  /** `target.paste(item, cut)` in the older revision: the same move request as the current
      revision; on `"success"` the target re-runs its constructor on its own path (a second
      request, all children relisted and unexpanded) and the pasted item is left as it was.
      A relisting that raises propagates, with the target as the loop left it. */
  function Paste(target: Folder, item: Item, cut: bool, reply: string, lister: Lister): (r: Step<bool>)
    ensures |r.sent| >= 1 && r.sent[0] == FolderOps.MoveRequest(target, item, cut)
    ensures reply != SuccessReply ==> r == Step([FolderOps.MoveRequest(target, item, cut)], target, Ok(false))
    ensures reply == SuccessReply ==>
              var again := Init(target.path, lister);
              && r.sent == [FolderOps.MoveRequest(target, item, cut)] + again.sent
              && r.folder == again.folder
              && (r.result.Ok? <==> again.result.Ok?)
              && (r.result.Ok? ==> r.result.value)
              && (r.result.Err? ==> r.result.error == IndexError)
  {
    var move := FolderOps.MoveRequest(target, item, cut);
    if reply != SuccessReply then Step([move], target, Ok(false))
    else
      var again := Init(target.path, lister);
      Step([move] + again.sent, again.folder, if again.result.Ok? then Ok(true) else Err(again.result.error))
  }

  /** A successful older-revision paste forgets every materialized subfolder of the target:
      afterwards the target is exactly what opening its path afresh gives. */
  lemma PasteRelists(target: Folder, item: Item, cut: bool, lister: Lister)
    requires Paste(target, item, cut, SuccessReply, lister).result.Ok?
    ensures var r := Paste(target, item, cut, SuccessReply, lister);
            && r.result == Ok(true)
            && Open(Legacy, target.path, lister).result == Ok(r.folder)
            && forall i :: 0 <= i < |r.folder.slots| ==> r.folder.slots[i].Unexpanded?
  {
    InitMatchesOpen(target.path, lister);
  }

  /** For a folder the constructor built, the older `create_folder` request is the current
      one: the folder's `path` property and `name + "/"`. */
  lemma CreateFolderUsesPathString(path: Path, lister: Lister, name: string)
    ensures var f := Init(path, lister).folder;
            FolderOps.CreateFolderRequest(f, name) == CreateFolder(PathString(f), name + "/")
  {
  }
}

=== FILE: monitors.dfy ===
/** The transfer-progress counters: the abstract `Monitor` of blomp_api/utils/monitor/monitor.py,
    the concrete `Monitor` of src/utils/monitor.py and the abstract one of
    src/utils/monitor/monitor.py. All three hold a fixed total and a loaded count that starts
    at 0; they differ only in what the base `_update` does. */
module Monitors {
  import opened Results
  import Text

  /** What the base `_update` does with its argument. */
  datatype Variant =
      /** Adds it to `loaded` (the current revision, and src/utils/monitor.py). */
    | Additive
      /** Ignores it (`pass`, src/utils/monitor/monitor.py). */
    | Inert

  datatype Monitor = Monitor(total: int, loaded: int)

  /** `Monitor(total_size)`. */
  function New(total: int): (m: Monitor)
    ensures m.total == total && m.loaded == 0
  {
    Monitor(total, 0)
  }

  /** The base `_update(delta)`. */
  function Update(v: Variant, m: Monitor, delta: int): (r: Monitor)
    ensures r.total == m.total
    ensures v == Inert ==> r == m
  {
    match v
    case Additive => m.(loaded := m.loaded + delta)
    case Inert => m
  }

  /** A run of base updates, first to last. */
  function UpdateAll(v: Variant, m: Monitor, deltas: seq<int>): (r: Monitor)
    ensures r.total == m.total
    decreases |deltas|
  {
    if |deltas| == 0 then m else UpdateAll(v, Update(v, m, deltas[0]), deltas[1..])
  }

  function Sum(xs: seq<int>): int
    decreases |xs|
  {
    if |xs| == 0 then 0 else xs[0] + Sum(xs[1..])
  }

  /** With the additive update, `loaded` grows by exactly the sum of the deltas and the
      total never moves. */
  lemma {:induction false} AdditiveLoadedIsSum(m: Monitor, deltas: seq<int>)
    ensures UpdateAll(Additive, m, deltas) == Monitor(m.total, m.loaded + Sum(deltas))
    decreases |deltas|
  {
    if |deltas| > 0 {
      AdditiveLoadedIsSum(Update(Additive, m, deltas[0]), deltas[1..]);
    }
  }

  /** With the inert base update, a fresh monitor stays at `loaded == 0` forever. */
  lemma {:induction false} InertStaysAtZero(total: int, deltas: seq<int>)
    ensures UpdateAll(Inert, New(total), deltas) == New(total)
    decreases |deltas|
  {
    if |deltas| > 0 {
      InertStaysAtZero(total, deltas[1..]);
    }
  }

  /** `progress`, `loaded / total` over exact reals; Python raises when the total is 0. */
  function Progress(m: Monitor): (r: Result<real>)
    ensures m.total == 0 <==> r == Err(ZeroDivisionError)
    ensures r.Ok? ==> r.value * (m.total as real) == m.loaded as real
  {
    if m.total == 0 then Err(ZeroDivisionError) else Ok((m.loaded as real) / (m.total as real))
  }

  /** With additive updates, a fresh monitor with a non-zero total reports the summed deltas
      as a share of the total. */
  lemma AdditiveProgressIsShare(total: int, deltas: seq<int>)
    requires total != 0
    ensures Progress(UpdateAll(Additive, New(total), deltas)) == Ok((Sum(deltas) as real) / (total as real))
  {
    AdditiveLoadedIsSum(New(total), deltas);
  }

  /** The inert monitor reports no progress for any non-zero total. */
  lemma InertProgressIsZero(total: int, deltas: seq<int>)
    requires total != 0
    ensures Progress(UpdateAll(Inert, New(total), deltas)) == Ok(0.0)
  {
    InertStaysAtZero(total, deltas);
  }

  /** `repr(m)`: `ClassName(loaded=<loaded>, total=<total>)`. */
  function Repr(className: string, m: Monitor): string
  {
    className + "(loaded=" + Text.Decimal(m.loaded) + ", total=" + Text.Decimal(m.total) + ")"
  }

  lemma {:induction false} CutAtMarker(a: string, x: string, b: string, y: string, c: char)
    requires c !in a && c !in b
    requires a + [c] + x == b + [c] + y
    ensures a == b && x == y
  {
    var s := a + [c] + x;
    var t := b + [c] + y;
    assert s[|a|] == c;
    assert t[|b|] == c;
    assert forall i :: 0 <= i < |a| ==> s[i] == a[i];
    assert forall i :: 0 <= i < |b| ==> t[i] == b[i];
    assert |a| == |b|;
    assert a == s[..|a|];
    assert b == t[..|b|];
    assert x == s[|a| + 1..];
    assert y == t[|b| + 1..];
  }

  /** Equal strings around the same frame have equal middles. */
  lemma Unframe(p: string, x: string, y: string, q: string)
    requires p + x + q == p + y + q
    ensures x == y
  {
    assert |x| == |y|;
    assert x == (p + x + q)[|p|..|p| + |x|];
    assert y == (p + y + q)[|p|..|p| + |y|];
  }

  /** A rendered integer contains no comma. */
  lemma NoCommaInDecimal(n: int)
    ensures ',' !in Text.Decimal(n)
  {
    Text.DecimalAlphabet(n);
  }

  lemma ReprShape(className: string, m: Monitor)
    ensures Repr(className, m)
            == className + "(loaded=" + (Text.Decimal(m.loaded) + [','] + (" total=" + Text.Decimal(m.total) + ")")) + ""
  {
  }

  /** The representation determines both counters: two monitors of one class with the same
      `repr` are equal. */
  lemma ReprDeterminesCounters(className: string, m1: Monitor, m2: Monitor)
    requires Repr(className, m1) == Repr(className, m2)
    ensures m1 == m2
  {
    var head := className + "(loaded=";
    var l1, t1 := Text.Decimal(m1.loaded), Text.Decimal(m1.total);
    var l2, t2 := Text.Decimal(m2.loaded), Text.Decimal(m2.total);
    var r1 := " total=" + t1 + ")";
    var r2 := " total=" + t2 + ")";
    ReprShape(className, m1);
    ReprShape(className, m2);
    Unframe(head, l1 + [','] + r1, l2 + [','] + r2, "");
    NoCommaInDecimal(m1.loaded);
    NoCommaInDecimal(m2.loaded);
    CutAtMarker(l1, r1, l2, r2, ',');
    Text.DecimalInjective(m1.loaded, m2.loaded);
    Unframe(" total=", t1, t2, ")");
    Text.DecimalInjective(m1.total, m2.total);
  }
}

=== FILE: moves.dfy ===
/** What the child loop of `safe_rename` does to each child: every child is fetched from the
    folder as it was before the loop and cut into the new folder, in order, and a completed
    `safe_rename` leaves its whole subtree placed under the new path. */
module ChildMoves {
  import opened Results
  import opened Paths
  import opened Protocol
  import opened Folders
  import opened Placement
  import opened FolderOps
  import Files

  // ---------------------------------------------------------------- children

  /** Child `j` of a folder exactly as stored: its slot (subfolders first), its file, or nothing
      past the end. */
  datatype Child = SlotChild(slot: Slot) | FileChild(file: Files.File) | NoChild

  function ChildOf(f: Folder, j: nat): Child
  {
    if j < |f.slots| then SlotChild(f.slots[j])
    else if j - |f.slots| < |f.files| then FileChild(f.files[j - |f.slots|])
    else NoChild
  }

  /** Child `j` of a folder as an item: a materialized subfolder or a file; `None` for an
      unexpanded slot or an index past the end. */
  function ChildItem(f: Folder, j: nat): Option<Item>
  {
    match ChildOf(f, j)
    case SlotChild(s) => if s.Materialized? then Some(FolderItem(s.folder)) else None
    case FileChild(file) => Some(FileItem(file))
    case NoChild => None
  }

  /** Folders with as many subfolder slots and as many files. */
  predicate SameShape(a: Folder, b: Folder)
  {
    |a.slots| == |b.slots| && |a.files| == |b.files|
  }

  /** Folders of one shape with the same children from `k` on. */
  ghost predicate AgreeFrom(g: Folder, h: Folder, k: nat)
  {
    SameShape(g, h) && forall j :: k <= j ==> ChildOf(g, j) == ChildOf(h, j)
  }

  // ---------------------------------------------------------------- a loop over the children

  /** A loop over children `k` to `n - 1`, `turn(g, j)` handling child `j` of the folder `g`
      the earlier turns left; it stops at the first turn that fails. */
  function ChildLoop(f: Folder, k: nat, n: nat, turn: (Folder, nat) -> Step<()>): Step<()>
    decreases n - k
  {
    if k >= n then Step([], f, Ok(()))
    else
      var t := turn(f, k);
      if t.result.Err? then t
      else
        var rest := ChildLoop(t.folder, k + 1, n, turn);
        Step(t.sent + rest.sent, rest.folder, rest.result)
  }

  /** What the turns send from `k` on, each turn taken on `f` itself. */
  function Sends(f: Folder, k: nat, n: nat, turn: (Folder, nat) -> Step<()>): seq<Request>
    decreases n - k
  {
    if k >= n then [] else turn(f, k).sent + Sends(f, k + 1, n, turn)
  }

  /** `each(k)`, then `each(k + 1)`, and so on up to `each(n - 1)`. */
  function Concat(k: nat, n: nat, each: nat -> seq<Request>): seq<Request>
    decreases n - k
  {
    if k >= n then [] else each(k) + Concat(k + 1, n, each)
  }

  /** Every turn keeps the folder's shape and every child but its own. */
  ghost predicate Framed(turn: (Folder, nat) -> Step<()>)
  {
    && (forall g: Folder, m: nat {:trigger turn(g, m)} :: SameShape(turn(g, m).folder, g))
    && (forall g: Folder, m: nat, i: nat {:trigger ChildOf(turn(g, m).folder, i)} :: i != m ==> ChildOf(turn(g, m).folder, i) == ChildOf(g, i))
  }

  /** A turn depends only on its own child: in folders of one shape holding the same child
      `m`, it sends the same, ends the same and leaves the same child `m`. */
  ghost predicate Local(turn: (Folder, nat) -> Step<()>)
  {
    forall g: Folder, h: Folder, m: nat {:trigger turn(g, m), turn(h, m)} ::
      SameShape(g, h) && ChildOf(g, m) == ChildOf(h, m) ==>
        && turn(g, m).sent == turn(h, m).sent
        && turn(g, m).result == turn(h, m).result
        && ChildOf(turn(g, m).folder, m) == ChildOf(turn(h, m).folder, m)
  }

  /** Every turn from `k` on, taken on `f` itself, succeeds. */
  ghost predicate TurnsOk(f: Folder, k: nat, n: nat, turn: (Folder, nat) -> Step<()>)
  {
    forall j :: k <= j < n ==> turn(f, j).result.Ok?
  }

  /** After turn `k` the folder has the same children from `k + 1` on. */
  lemma TurnAgrees(f: Folder, k: nat, turn: (Folder, nat) -> Step<()>)
    requires Framed(turn)
    ensures AgreeFrom(turn(f, k).folder, f, k + 1)
  {
    forall j: nat | k + 1 <= j
      ensures ChildOf(turn(f, k).folder, j) == ChildOf(f, j)
    {
    }
  }

  /** A turn taken on a folder that agrees with `f` from `m` on acts as on `f`. */
  lemma TurnAlike(g: Folder, f: Folder, k: nat, m: nat, turn: (Folder, nat) -> Step<()>)
    requires Local(turn) && AgreeFrom(g, f, k) && k <= m
    ensures turn(g, m).sent == turn(f, m).sent && turn(g, m).result == turn(f, m).result
    ensures ChildOf(turn(g, m).folder, m) == ChildOf(turn(f, m).folder, m)
  {
    assert ChildOf(g, m) == ChildOf(f, m);
  }

  /** The loop keeps the folder's shape. */
  lemma {:induction false} LoopShape(f: Folder, k: nat, n: nat, turn: (Folder, nat) -> Step<()>)
    requires Framed(turn)
    ensures SameShape(ChildLoop(f, k, n, turn).folder, f)
    decreases n - k
  {
    if k < n && turn(f, k).result.Ok? {
      LoopShape(turn(f, k).folder, k + 1, n, turn);
    }
  }

  /** The loop from `k` keeps every child before `k`. */
  lemma {:induction false} LoopKeeps(f: Folder, k: nat, n: nat, turn: (Folder, nat) -> Step<()>, i: nat)
    requires Framed(turn) && i < k
    ensures ChildOf(ChildLoop(f, k, n, turn).folder, i) == ChildOf(f, i)
    decreases n - k
  {
    if k < n && turn(f, k).result.Ok? {
      LoopKeeps(turn(f, k).folder, k + 1, n, turn, i);
    }
  }

  /** The loop from `k` completes exactly when every turn from `k` on, taken on `f` itself,
      succeeds. */
  lemma {:induction false} LoopOk(f: Folder, k: nat, n: nat, turn: (Folder, nat) -> Step<()>)
    requires Framed(turn) && Local(turn)
    ensures ChildLoop(f, k, n, turn).result.Ok? <==> TurnsOk(f, k, n, turn)
    decreases n - k
  {
    if k < n {
      var h := turn(f, k).folder;
      LoopOk(h, k + 1, n, turn);
      TurnAgrees(f, k, turn);
      forall j | k + 1 <= j < n
        ensures turn(h, j).result == turn(f, j).result
      {
        TurnAlike(h, f, k + 1, j, turn);
      }
    }
  }

  /** Turns taken on folders agreeing from `k` on send alike. */
  lemma {:induction false} SendsAlike(g: Folder, f: Folder, k: nat, n: nat, turn: (Folder, nat) -> Step<()>)
    requires Local(turn) && AgreeFrom(g, f, k)
    ensures Sends(g, k, n, turn) == Sends(f, k, n, turn)
    decreases n - k
  {
    if k < n {
      TurnAlike(g, f, k, k, turn);
      SendsAlike(g, f, k + 1, n, turn);
    }
  }

  /** A completed loop sends what its turns, taken on `f` itself, send. */
  lemma {:induction false} LoopSends(f: Folder, k: nat, n: nat, turn: (Folder, nat) -> Step<()>)
    requires Framed(turn) && Local(turn)
    ensures ChildLoop(f, k, n, turn).result.Ok? ==> ChildLoop(f, k, n, turn).sent == Sends(f, k, n, turn)
    decreases n - k
  {
    if k < n && turn(f, k).result.Ok? {
      var h := turn(f, k).folder;
      LoopSends(h, k + 1, n, turn);
      TurnAgrees(f, k, turn);
      SendsAlike(h, f, k + 1, n, turn);
    }
  }

  /** In a completed loop from `k`, turn `j` succeeds on `f` itself and child `j` ends up as
      that turn leaves it. */
  lemma {:induction false} LoopPlaced(f: Folder, k: nat, n: nat, turn: (Folder, nat) -> Step<()>, j: nat)
    requires Framed(turn) && Local(turn) && k <= j < n && ChildLoop(f, k, n, turn).result.Ok?
    ensures turn(f, j).result.Ok?
    ensures ChildOf(ChildLoop(f, k, n, turn).folder, j) == ChildOf(turn(f, j).folder, j)
    decreases j - k
  {
    var h := turn(f, k).folder;
    if j == k {
      LoopKeeps(h, k + 1, n, turn, k);
    } else {
      LoopPlaced(h, k + 1, n, turn, j);
      TurnAgrees(f, k, turn);
      TurnAlike(h, f, k + 1, j, turn);
    }
  }

  /** What the turns send, when each turn's requests are `each` of its index. */
  lemma {:induction false} SendsConcat(f: Folder, k: nat, n: nat, turn: (Folder, nat) -> Step<()>, each: nat -> seq<Request>)
    requires forall j :: k <= j < n ==> turn(f, j).sent == each(j)
    ensures Sends(f, k, n, turn) == Concat(k, n, each)
    decreases n - k
  {
    if k < n {
      SendsConcat(f, k + 1, n, turn, each);
    }
  }

  /** The loop completes exactly when every turn, taken on `f` itself, succeeds as `ok` says,
      and then sends what `each` says. */
  lemma LoopOutcomeOf(f: Folder, k: nat, n: nat, turn: (Folder, nat) -> Step<()>, ok: nat -> bool, each: nat -> seq<Request>)
    requires Framed(turn) && Local(turn)
    requires forall j :: k <= j < n ==> (turn(f, j).result.Ok? <==> ok(j)) && turn(f, j).sent == each(j)
    ensures ChildLoop(f, k, n, turn).result.Ok? <==> forall j :: k <= j < n ==> ok(j)
    ensures ChildLoop(f, k, n, turn).result.Ok? ==> ChildLoop(f, k, n, turn).sent == Concat(k, n, each)
  {
    LoopOk(f, k, n, turn);
    LoopSends(f, k, n, turn);
    SendsConcat(f, k, n, turn, each);
  }

  /** The concatenation of one request per index is the slice of those requests. */
  lemma {:induction false} ConcatSingles(k: nat, n: nat, each: nat -> seq<Request>, xs: seq<Request>)
    requires k <= n <= |xs| && forall j :: k <= j < n ==> each(j) == [xs[j]]
    ensures Concat(k, n, each) == xs[k..n]
    decreases n - k
  {
    if k < n {
      ConcatSingles(k + 1, n, each, xs);
      assert xs[k..n] == [xs[k]] + xs[k + 1..n];
    }
  }

  // ---------------------------------------------------------------- the loop of safe_rename

  /** One turn of `for ff in self: target.paste(ff, True)`: fetch child `m`; if that fails, stop
      with the fetch's error; otherwise cut it into `target` and put the pasted child back. */
  function Turn(g: Folder, target: Folder, m: nat, lister: Lister, moveReply: nat -> string): Step<()>
  {
    if m >= |g.slots| + |g.files| then Step([], g, Ok(()))
    else
      var p := GetItem(Current, g, m, lister);
      if p.result.Err? then Step(p.sent, p.folder, Err(p.result.error))
      else Step(p.sent + Paste(target, p.result.value, true, moveReply(m)).sent,
                NextFolder(g, target, m, lister, moveReply), Ok(()))
  }

  function TurnOf(target: Folder, lister: Lister, moveReply: nat -> string): (Folder, nat) -> Step<()>
  {
    (g: Folder, m: nat) => Turn(g, target, m, lister, moveReply)
  }

  /** The requests for one child: those of fetching it, then its cut into `target` if the fetch
      succeeded. */
  function ChildCut(target: Folder, fetchSent: seq<Request>, fetched: Result<Item>): seq<Request>
  {
    fetchSent + (if fetched.Ok? then [MoveRequest(target, fetched.value, true)] else [])
  }

  /** The requests for child `j`, read from `f` as it was before the loop. */
  function CutEach(f: Folder, target: Folder, lister: Lister): nat -> seq<Request>
  {
    j => ChildCut(target, GetItem(Current, f, j, lister).sent, GetItem(Current, f, j, lister).result)
  }

  /** The requests of the loop from child `k` on, each child read from `f` as it was before the
      loop: the child's listing request if it is fetched, then its cut into `target`. */
  function CutRequests(f: Folder, target: Folder, k: nat, lister: Lister): seq<Request>
  {
    Concat(k, |f.slots| + |f.files|, CutEach(f, target, lister))
  }

  /** A turn keeps every child but its own. */
  lemma TurnKeeps(g: Folder, target: Folder, m: nat, lister: Lister, moveReply: nat -> string, i: nat)
    requires i != m
    ensures SameShape(Turn(g, target, m, lister, moveReply).folder, g)
    ensures ChildOf(Turn(g, target, m, lister, moveReply).folder, i) == ChildOf(g, i)
  {
    if m < |g.slots| {
      FetchSlot(Current, g, m, lister);
    }
  }

  /** A turn sends, ends and leaves its child according to that child alone. */
  lemma TurnLocal(g: Folder, h: Folder, target: Folder, m: nat, lister: Lister, moveReply: nat -> string)
    requires SameShape(g, h) && ChildOf(g, m) == ChildOf(h, m)
    ensures var t1 := Turn(g, target, m, lister, moveReply);
            var t2 := Turn(h, target, m, lister, moveReply);
            && t1.sent == t2.sent && t1.result == t2.result
            && ChildOf(t1.folder, m) == ChildOf(t2.folder, m)
  {
    if m < |g.slots| {
      SlotTurnLocal(g, h, target, m, lister, moveReply);
    } else if m < |g.slots| + |g.files| {
      assert g.files[m - |g.slots|] == h.files[m - |g.slots|];
      NextFolderTurn(g, target, m, lister, moveReply);
      NextFolderTurn(h, target, m, lister, moveReply);
    }
  }

  /** `TurnLocal` for a turn on a slot. */
  lemma SlotTurnLocal(g: Folder, h: Folder, target: Folder, m: nat, lister: Lister, moveReply: nat -> string)
    requires SameShape(g, h) && m < |g.slots| && g.slots[m] == h.slots[m]
    ensures var t1 := Turn(g, target, m, lister, moveReply);
            var t2 := Turn(h, target, m, lister, moveReply);
            && t1.sent == t2.sent && t1.result == t2.result
            && ChildOf(t1.folder, m) == ChildOf(t2.folder, m)
  {
    FetchSlot(Current, g, m, lister);
    FetchSlot(Current, h, m, lister);
    var p1 := GetItem(Current, g, m, lister);
    var p2 := GetItem(Current, h, m, lister);
    assert p1.result == p2.result;
    if p1.result.Ok? {
      NextFolderTurn(g, target, m, lister, moveReply);
      NextFolderTurn(h, target, m, lister, moveReply);
    }
  }

  /** The turn of the child loop is framed and local. */
  lemma TurnFacts(target: Folder, lister: Lister, moveReply: nat -> string)
    ensures Framed(TurnOf(target, lister, moveReply)) && Local(TurnOf(target, lister, moveReply))
  {
    var turn := TurnOf(target, lister, moveReply);
    forall g: Folder, m: nat
      ensures SameShape(turn(g, m).folder, g)
    {
      TurnKeeps(g, target, m, lister, moveReply, m + 1);
    }
    forall g: Folder, m: nat, i: nat | i != m
      ensures ChildOf(turn(g, m).folder, i) == ChildOf(g, i)
    {
      TurnKeeps(g, target, m, lister, moveReply, i);
    }
    forall g: Folder, h: Folder, m: nat | SameShape(g, h) && ChildOf(g, m) == ChildOf(h, m)
      ensures turn(g, m).sent == turn(h, m).sent && turn(g, m).result == turn(h, m).result
      ensures ChildOf(turn(g, m).folder, m) == ChildOf(turn(h, m).folder, m)
    {
      TurnLocal(g, h, target, m, lister, moveReply);
    }
  }

  /** The folder the loop goes on with holds the pasted child at `k`. */
  lemma NextFolderTurn(f: Folder, target: Folder, k: nat, lister: Lister, moveReply: nat -> string)
    requires k < |f.slots| + |f.files| && GetItem(Current, f, k, lister).result.Ok?
    ensures ChildItem(NextFolder(f, target, k, lister, moveReply), k)
            == Some(Paste(target, GetItem(Current, f, k, lister).result.value, true, moveReply(k)).item)
  {
    var g := GetItem(Current, f, k, lister);
    var item := Paste(target, g.result.value, true, moveReply(k)).item;
    if k < |f.slots| {
      assert g.result.value.FolderItem?;
      assert item.FolderItem?;
    } else {
      assert g.result.value.FileItem?;
      assert item.FileItem?;
    }
  }

  /** Turn `j` taken on `f`: it succeeds exactly when child `j` can be fetched, it sends that
      child's requests, and on success it leaves the pasted child at `j`. */
  lemma TurnFetches(f: Folder, target: Folder, j: nat, lister: Lister, moveReply: nat -> string)
    requires j < |f.slots| + |f.files|
    ensures var t := TurnOf(target, lister, moveReply)(f, j);
            var g := GetItem(Current, f, j, lister);
            && (t.result.Ok? <==> g.result.Ok?)
            && t.sent == CutEach(f, target, lister)(j)
            && (g.result.Ok? ==> ChildItem(t.folder, j) == Some(Paste(target, g.result.value, true, moveReply(j)).item))
  {
    if GetItem(Current, f, j, lister).result.Ok? {
      NextFolderTurn(f, target, j, lister, moveReply);
    }
  }

  /** One turn of the loop when child `k` is fetched: the requests of the fetch and the paste,
      then those of the rest of the loop. */
  lemma MoveChildrenTurn(f: Folder, target: Folder, k: nat, lister: Lister, moveReply: nat -> string)
    requires k < |f.slots| + |f.files| && GetItem(Current, f, k, lister).result.Ok?
    ensures var g := GetItem(Current, f, k, lister);
            var rest := MoveChildren(NextFolder(f, target, k, lister, moveReply), target, k + 1, lister, moveReply);
            MoveChildren(f, target, k, lister, moveReply)
            == Step(g.sent + [MoveRequest(target, g.result.value, true)] + rest.sent, rest.folder, rest.result)
  {
  }

  /** The turn of the loop, when child `k` is fetched, continues with `NextFolder`. */
  lemma LoopTurn(f: Folder, target: Folder, k: nat, n: nat, lister: Lister, moveReply: nat -> string)
    requires n == |f.slots| + |f.files| && k < n && GetItem(Current, f, k, lister).result.Ok?
    ensures var g := GetItem(Current, f, k, lister);
            var rest := ChildLoop(NextFolder(f, target, k, lister, moveReply), k + 1, n, TurnOf(target, lister, moveReply));
            ChildLoop(f, k, n, TurnOf(target, lister, moveReply))
            == Step(g.sent + [MoveRequest(target, g.result.value, true)] + rest.sent, rest.folder, rest.result)
  {
  }

  /** `MoveChildren` is the loop over the children with `Turn` as its turn. */
  lemma {:induction false} LoopIsMoveChildren(f: Folder, target: Folder, k: nat, n: nat, lister: Lister, moveReply: nat -> string)
    requires n == |f.slots| + |f.files| && k <= n
    ensures MoveChildren(f, target, k, lister, moveReply) == ChildLoop(f, k, n, TurnOf(target, lister, moveReply))
    decreases n - k
  {
    if k == n {
      assert ChildLoop(f, k, n, TurnOf(target, lister, moveReply)) == Step([], f, Ok(()));
    } else if GetItem(Current, f, k, lister).result.Err? {
      LoopStops(f, target, k, n, lister, moveReply);
    } else {
      LoopIsMoveChildren(NextFolder(f, target, k, lister, moveReply), target, k + 1, n, lister, moveReply);
      MoveChildrenTurn(f, target, k, lister, moveReply);
      LoopTurn(f, target, k, n, lister, moveReply);
    }
  }

  /** A turn whose child cannot be fetched ends the loop with the fetch's error. */
  lemma LoopStops(f: Folder, target: Folder, k: nat, n: nat, lister: Lister, moveReply: nat -> string)
    requires n == |f.slots| + |f.files| && k < n && GetItem(Current, f, k, lister).result.Err?
    ensures MoveChildren(f, target, k, lister, moveReply) == ChildLoop(f, k, n, TurnOf(target, lister, moveReply))
  {
    var g := GetItem(Current, f, k, lister);
    assert MoveChildren(f, target, k, lister, moveReply) == Step(g.sent, g.folder, Err(g.result.error));
    assert TurnOf(target, lister, moveReply)(f, k) == Step(g.sent, g.folder, Err(g.result.error));
  }

  /** Whether child `j` of `f` can be fetched. */
  function FetchOk(f: Folder, lister: Lister): nat -> bool
  {
    j => GetItem(Current, f, j, lister).result.Ok?
  }

  /** The turns of the loop, taken on `f`, succeed as the children fetch and send as `CutEach`
      says. */
  lemma TurnsFetched(f: Folder, target: Folder, k: nat, n: nat, lister: Lister, moveReply: nat -> string)
    requires n == |f.slots| + |f.files|
    ensures forall j :: k <= j < n ==>
              && (TurnOf(target, lister, moveReply)(f, j).result.Ok? <==> FetchOk(f, lister)(j))
              && TurnOf(target, lister, moveReply)(f, j).sent == CutEach(f, target, lister)(j)
  {
    forall j | k <= j < n
      ensures TurnOf(target, lister, moveReply)(f, j).result.Ok? <==> FetchOk(f, lister)(j)
      ensures TurnOf(target, lister, moveReply)(f, j).sent == CutEach(f, target, lister)(j)
    {
      TurnFetches(f, target, j, lister, moveReply);
    }
  }

  /** `LoopOutcome`, with the number of children named `n`. */
  lemma MovesOutcome(f: Folder, target: Folder, k: nat, n: nat, lister: Lister, moveReply: nat -> string)
    requires n == |f.slots| + |f.files| && k <= n
    ensures var r := MoveChildren(f, target, k, lister, moveReply);
            && (r.result.Ok? <==> forall j :: k <= j < n ==> FetchOk(f, lister)(j))
            && (r.result.Ok? ==> r.sent == CutRequests(f, target, k, lister))
  {
    LoopIsMoveChildren(f, target, k, n, lister, moveReply);
    TurnsFetched(f, target, k, n, lister, moveReply);
    TurnsOutcome(f, k, n, TurnOf(target, lister, moveReply), target, lister, moveReply, FetchOk(f, lister), CutEach(f, target, lister));
    SentForm(MoveChildren(f, target, k, lister, moveReply), f, target, k, n, lister);
  }

  /** A completion stated through `FetchOk`, restated through `GetItem`. */
  lemma OkForm(r: Step<()>, f: Folder, k: nat, n: nat, lister: Lister)
    requires r.result.Ok? <==> forall j :: k <= j < n ==> FetchOk(f, lister)(j)
    ensures r.result.Ok? <==> forall j :: k <= j < n ==> GetItem(Current, f, j, lister).result.Ok?
  {
    forall j | k <= j < n
      ensures FetchOk(f, lister)(j) == GetItem(Current, f, j, lister).result.Ok?
    {
    }
  }

  /** Requests stated through `Concat` and `CutEach`, restated through `CutRequests`. */
  lemma SentForm(r: Step<()>, f: Folder, target: Folder, k: nat, n: nat, lister: Lister)
    requires n == |f.slots| + |f.files|
    requires r.result.Ok? ==> r.sent == Concat(k, n, CutEach(f, target, lister))
    ensures r.result.Ok? ==> r.sent == CutRequests(f, target, k, lister)
  {
  }

  /** The loop with `Turn` as its turn completes exactly when every turn succeeds as `ok` says,
      and then sends what `each` says. */
  lemma TurnsOutcome(f: Folder, k: nat, n: nat, turn: (Folder, nat) -> Step<()>, target: Folder, lister: Lister,
                     moveReply: nat -> string, ok: nat -> bool, each: nat -> seq<Request>)
    requires turn == TurnOf(target, lister, moveReply)
    requires forall j :: k <= j < n ==> (turn(f, j).result.Ok? <==> ok(j)) && turn(f, j).sent == each(j)
    ensures ChildLoop(f, k, n, turn).result.Ok? <==> forall j :: k <= j < n ==> ok(j)
    ensures ChildLoop(f, k, n, turn).result.Ok? ==> ChildLoop(f, k, n, turn).sent == Concat(k, n, each)
  {
    TurnFacts(target, lister, moveReply);
    LoopOutcomeOf(f, k, n, turn, ok, each);
  }

  /** `KeptAt`, with the number of children named `n`. */
  lemma MovesKeep(f: Folder, target: Folder, k: nat, n: nat, lister: Lister, moveReply: nat -> string, i: nat)
    requires n == |f.slots| + |f.files| && k <= n && i < k
    ensures ChildOf(MoveChildren(f, target, k, lister, moveReply).folder, i) == ChildOf(f, i)
  {
    LoopIsMoveChildren(f, target, k, n, lister, moveReply);
    TurnsKeep(f, k, n, TurnOf(target, lister, moveReply), target, lister, moveReply, i);
  }

  /** The loop with `Turn` as its turn keeps the children before `k`. */
  lemma TurnsKeep(f: Folder, k: nat, n: nat, turn: (Folder, nat) -> Step<()>, target: Folder, lister: Lister,
                  moveReply: nat -> string, i: nat)
    requires turn == TurnOf(target, lister, moveReply) && i < k
    ensures ChildOf(ChildLoop(f, k, n, turn).folder, i) == ChildOf(f, i)
  {
    TurnFacts(target, lister, moveReply);
    LoopKeeps(f, k, n, turn, i);
  }

  /** `PlacedAt`, with the number of children named `n`. */
  lemma MovesPlace(f: Folder, target: Folder, k: nat, n: nat, lister: Lister, moveReply: nat -> string, j: nat)
    requires n == |f.slots| + |f.files| && k <= j < n && MoveChildren(f, target, k, lister, moveReply).result.Ok?
    ensures GetItem(Current, f, j, lister).result.Ok?
    ensures ChildItem(MoveChildren(f, target, k, lister, moveReply).folder, j)
            == Some(Paste(target, GetItem(Current, f, j, lister).result.value, true, moveReply(j)).item)
  {
    LoopIsMoveChildren(f, target, k, n, lister, moveReply);
    TurnsPlace(f, k, n, TurnOf(target, lister, moveReply), target, lister, moveReply, j);
    TurnFetches(f, target, j, lister, moveReply);
  }

  /** In a completed loop with `Turn` as its turn, turn `j` on `f` succeeds and child `j` ends
      up as that turn leaves it. */
  lemma TurnsPlace(f: Folder, k: nat, n: nat, turn: (Folder, nat) -> Step<()>, target: Folder, lister: Lister,
                   moveReply: nat -> string, j: nat)
    requires turn == TurnOf(target, lister, moveReply) && k <= j < n && ChildLoop(f, k, n, turn).result.Ok?
    ensures turn(f, j).result.Ok?
    ensures ChildOf(ChildLoop(f, k, n, turn).folder, j) == ChildOf(turn(f, j).folder, j)
  {
    TurnFacts(target, lister, moveReply);
    LoopPlaced(f, k, n, turn, j);
  }

  // ---------------------------------------------------------------- what the loop does

  /** The child loop from index `k` cuts every child into the target: it completes exactly
      when every child from `k` on can be fetched; it then sends, for each child in turn, the
      child's listing request (if any) and its move, the child as it was before the loop; each
      child ends up as its paste left it; and the children before `k` are untouched. */
  lemma MoveChildrenCutsEveryChild(f: Folder, target: Folder, k: nat, lister: Lister, moveReply: nat -> string)
    requires k <= |f.slots| + |f.files|
    ensures var r := MoveChildren(f, target, k, lister, moveReply);
            && (r.result.Ok? <==> forall j :: k <= j < |f.slots| + |f.files| ==> GetItem(Current, f, j, lister).result.Ok?)
            && (r.result.Ok? ==> r.sent == CutRequests(f, target, k, lister))
            && (r.result.Ok? ==>
                  forall j :: k <= j < |f.slots| + |f.files| ==>
                    && GetItem(Current, f, j, lister).result.Ok?
                    && ChildItem(r.folder, j)
                       == Some(Paste(target, GetItem(Current, f, j, lister).result.value, true, moveReply(j)).item))
            && (forall i :: 0 <= i < k && i < |f.slots| ==> r.folder.slots[i] == f.slots[i])
            && (forall j :: 0 <= j < |f.files| && |f.slots| + j < k ==> r.folder.files[j] == f.files[j])
  {
    LoopOutcome(f, target, k, lister, moveReply);
    LoopPlacesAll(f, target, k, lister, moveReply);
    LoopKeepsBelow(f, target, k, lister, moveReply);
  }

  /** When the loop from `k` completes, and what it then sends. */
  lemma LoopOutcome(f: Folder, target: Folder, k: nat, lister: Lister, moveReply: nat -> string)
    requires k <= |f.slots| + |f.files|
    ensures var r := MoveChildren(f, target, k, lister, moveReply);
            && (r.result.Ok? <==> forall j :: k <= j < |f.slots| + |f.files| ==> GetItem(Current, f, j, lister).result.Ok?)
            && (r.result.Ok? ==> r.sent == CutRequests(f, target, k, lister))
  {
    MovesOutcome(f, target, k, |f.slots| + |f.files|, lister, moveReply);
    OkForm(MoveChildren(f, target, k, lister, moveReply), f, k, |f.slots| + |f.files|, lister);
  }

  /** In a completed loop from `k`, every child from `k` on is as its paste left it. */
  lemma LoopPlacesAll(f: Folder, target: Folder, k: nat, lister: Lister, moveReply: nat -> string)
    requires k <= |f.slots| + |f.files|
    ensures var r := MoveChildren(f, target, k, lister, moveReply);
            r.result.Ok? ==>
              forall j :: k <= j < |f.slots| + |f.files| ==>
                && GetItem(Current, f, j, lister).result.Ok?
                && ChildItem(r.folder, j)
                   == Some(Paste(target, GetItem(Current, f, j, lister).result.value, true, moveReply(j)).item)
  {
    var r := MoveChildren(f, target, k, lister, moveReply);
    forall j | k <= j < |f.slots| + |f.files| && r.result.Ok?
      ensures GetItem(Current, f, j, lister).result.Ok?
      ensures ChildItem(r.folder, j) == Some(Paste(target, GetItem(Current, f, j, lister).result.value, true, moveReply(j)).item)
    {
      PlacedAt(f, target, k, lister, moveReply, j);
    }
  }

  /** The loop from `k` leaves the children before `k` as they were. */
  lemma LoopKeepsBelow(f: Folder, target: Folder, k: nat, lister: Lister, moveReply: nat -> string)
    requires k <= |f.slots| + |f.files|
    ensures var r := MoveChildren(f, target, k, lister, moveReply);
            && (forall i :: 0 <= i < k && i < |f.slots| ==> r.folder.slots[i] == f.slots[i])
            && (forall j :: 0 <= j < |f.files| && |f.slots| + j < k ==> r.folder.files[j] == f.files[j])
  {
    var r := MoveChildren(f, target, k, lister, moveReply);
    forall i | 0 <= i < k && i < |f.slots|
      ensures r.folder.slots[i] == f.slots[i]
    {
      KeptAt(f, target, k, lister, moveReply, i);
    }
    forall j | 0 <= j < |f.files| && |f.slots| + j < k
      ensures r.folder.files[j] == f.files[j]
    {
      var i := |f.slots| + j;
      KeptAt(f, target, k, lister, moveReply, i);
    }
  }

  /** A child before `k` is left as it was. */
  lemma KeptAt(f: Folder, target: Folder, k: nat, lister: Lister, moveReply: nat -> string, i: nat)
    requires k <= |f.slots| + |f.files| && i < k
    ensures ChildOf(MoveChildren(f, target, k, lister, moveReply).folder, i) == ChildOf(f, i)
  {
    MovesKeep(f, target, k, |f.slots| + |f.files|, lister, moveReply, i);
  }

  /** In a completed loop from `k`, child `j` was fetched and is left as its paste left it. */
  lemma PlacedAt(f: Folder, target: Folder, k: nat, lister: Lister, moveReply: nat -> string, j: nat)
    requires k <= j < |f.slots| + |f.files| && MoveChildren(f, target, k, lister, moveReply).result.Ok?
    ensures GetItem(Current, f, j, lister).result.Ok?
    ensures ChildItem(MoveChildren(f, target, k, lister, moveReply).folder, j)
            == Some(Paste(target, GetItem(Current, f, j, lister).result.value, true, moveReply(j)).item)
  {
    MovesPlace(f, target, k, |f.slots| + |f.files|, lister, moveReply, j);
  }

  /** Child `j` of a folder whose subfolders are all cached is fetched without a request and
      cut as it is listed. */
  lemma CachedCut(f: Folder, target: Folder, j: nat, lister: Lister)
    requires AllMaterialized(f.slots) && j < |f.slots| + |f.files|
    ensures CutEach(f, target, lister)(j) == [MoveRequest(target, (FolderItems(f.slots) + FileItems(f.files))[j], true)]
  {
    var items := FolderItems(f.slots) + FileItems(f.files);
    var g := GetItem(Current, f, j, lister);
    if j < |f.slots| {
      FetchSlot(Current, f, j, lister);
      assert g == Step([], f, Ok(items[j]));
    } else {
      assert items[j] == FileItems(f.files)[j - |f.slots|];
    }
  }

  /** One cut per item, in order. */
  function Cuts(target: Folder, items: seq<Item>): (r: seq<Request>)
    ensures |r| == |items| && forall i :: 0 <= i < |r| ==> r[i] == MoveRequest(target, items[i], true)
  {
    seq(|items|, i requires 0 <= i < |items| => MoveRequest(target, items[i], true))
  }

  /** When every subfolder is already materialized nothing needs listing, and the loop sends
      exactly one cut per child, in the order iteration yields them. */
  lemma CutRequestsOfMaterialized(f: Folder, target: Folder, k: nat, lister: Lister)
    requires k <= |f.slots| + |f.files| && AllMaterialized(f.slots)
    ensures var c := CutRequests(f, target, k, lister);
            var items := FolderItems(f.slots) + FileItems(f.files);
            && |c| == |f.slots| + |f.files| - k
            && forall i :: 0 <= i < |c| ==> c[i] == MoveRequest(target, items[k + i], true)
  {
    var n := |f.slots| + |f.files|;
    var xs := Cuts(target, FolderItems(f.slots) + FileItems(f.files));
    forall j | k <= j < n
      ensures CutEach(f, target, lister)(j) == [xs[j]]
    {
      CachedCut(f, target, j, lister);
    }
    ConcatSingles(k, n, CutEach(f, target, lister), xs);
  }

  /** When every subfolder is cached, the child loop completes and sends exactly one cut per
      child, in iteration order, and nothing else. */
  lemma CachedLoopCutsInOrder(f: Folder, target: Folder, k: nat, lister: Lister, moveReply: nat -> string)
    requires k <= |f.slots| + |f.files| && AllMaterialized(f.slots)
    ensures var r := MoveChildren(f, target, k, lister, moveReply);
            var items := FolderItems(f.slots) + FileItems(f.files);
            && r.result.Ok?
            && |r.sent| == |f.slots| + |f.files| - k
            && forall i :: 0 <= i < |r.sent| ==> r.sent[i] == MoveRequest(target, items[k + i], true)
  {
    forall j | k <= j < |f.slots| + |f.files|
      ensures GetItem(Current, f, j, lister).result.Ok?
    {
      CachedChildFetched(f, j, lister);
    }
    LoopOutcome(f, target, k, lister, moveReply);
    CutRequestsOfMaterialized(f, target, k, lister);
  }

  /** Every child of a folder whose subfolders are all cached can be fetched. */
  lemma CachedChildFetched(f: Folder, j: nat, lister: Lister)
    requires AllMaterialized(f.slots) && j < |f.slots| + |f.files|
    ensures GetItem(Current, f, j, lister).result.Ok?
  {
    if j < |f.slots| {
      FetchSlot(Current, f, j, lister);
    }
  }

  /** A fetched subfolder whose slot has a usable name has a single-component name and usable
      names below it. */
  lemma FetchedChildNamed(f: Folder, i: nat, lister: Lister)
    requires i < |f.slots| && SlotNamed(f.slots[i]) && GetItem(Current, f, i, lister).result.Ok?
    ensures GetItem(Current, f, i, lister).result.value.FolderItem?
    ensures IsComponent(GetItem(Current, f, i, lister).result.value.folder.name)
    ensures NamesValid(GetItem(Current, f, i, lister).result.value.folder)
  {
  }

  /** After a completed child loop, every subfolder is materialized with usable names, and
      every file keeps its name. */
  lemma MovedChildrenNamed(f: Folder, target: Folder, lister: Lister, moveReply: nat -> string)
    requires target.path.Valid() && forall i :: 0 <= i < |f.slots| ==> SlotNamed(f.slots[i])
    requires MoveChildren(f, target, 0, lister, moveReply).result.Ok?
    ensures var m := MoveChildren(f, target, 0, lister, moveReply).folder;
            && AllMaterialized(m.slots) && NamesValid(m)
            && |m.files| == |f.files| && forall j :: 0 <= j < |f.files| ==> m.files[j].name == f.files[j].name
  {
    MovedFoldersNamed(f, target, lister, moveReply);
    MovedFilesNamed(f, target, lister, moveReply);
  }

  /** After a completed child loop, every subfolder is materialized with usable names. */
  lemma MovedFoldersNamed(f: Folder, target: Folder, lister: Lister, moveReply: nat -> string)
    requires target.path.Valid() && forall i :: 0 <= i < |f.slots| ==> SlotNamed(f.slots[i])
    requires MoveChildren(f, target, 0, lister, moveReply).result.Ok?
    ensures var m := MoveChildren(f, target, 0, lister, moveReply).folder;
            AllMaterialized(m.slots) && NamesValid(m)
  {
    var m := MoveChildren(f, target, 0, lister, moveReply);
    forall i | 0 <= i < |f.slots|
      ensures m.folder.slots[i].Materialized?
      ensures IsComponent(m.folder.slots[i].folder.name) && NamesValid(m.folder.slots[i].folder)
    {
      PlacedAt(f, target, 0, lister, moveReply, i);
      MovedFolderNamed(f, target, lister, moveReply, m.folder, i);
    }
  }

  /** One subfolder after a completed child loop. */
  lemma MovedFolderNamed(f: Folder, target: Folder, lister: Lister, moveReply: nat -> string, m: Folder, i: nat)
    requires target.path.Valid() && i < |f.slots| && SlotNamed(f.slots[i])
    requires GetItem(Current, f, i, lister).result.Ok?
    requires ChildItem(m, i) == Some(Paste(target, GetItem(Current, f, i, lister).result.value, true, moveReply(i)).item)
    requires |m.slots| == |f.slots|
    ensures m.slots[i].Materialized?
    ensures IsComponent(m.slots[i].folder.name) && NamesValid(m.slots[i].folder)
  {
    FetchedChildNamed(f, i, lister);
    var c := GetItem(Current, f, i, lister).result.value.folder;
    ParentPathChangedPlaces(c, target.path);
  }

  /** After a completed child loop, every file keeps its name. */
  lemma MovedFilesNamed(f: Folder, target: Folder, lister: Lister, moveReply: nat -> string)
    requires MoveChildren(f, target, 0, lister, moveReply).result.Ok?
    ensures var m := MoveChildren(f, target, 0, lister, moveReply).folder;
            |m.files| == |f.files| && forall j :: 0 <= j < |f.files| ==> m.files[j].name == f.files[j].name
  {
    forall j | 0 <= j < |f.files|
      ensures MoveChildren(f, target, 0, lister, moveReply).folder.files[j].name == f.files[j].name
    {
      MovedFileNamed(f, target, lister, moveReply, j);
    }
  }

  /** One file after a completed child loop. */
  lemma MovedFileNamed(f: Folder, target: Folder, lister: Lister, moveReply: nat -> string, j: nat)
    requires MoveChildren(f, target, 0, lister, moveReply).result.Ok? && j < |f.files|
    ensures MoveChildren(f, target, 0, lister, moveReply).folder.files[j].name == f.files[j].name
  {
    var idx := |f.slots| + j;
    PlacedAt(f, target, 0, lister, moveReply, idx);
    PastedFileNamed(f, target, lister, moveReply, MoveChildren(f, target, 0, lister, moveReply).folder, j, idx);
  }

  /** A folder holding, at the place `idx` of file `j`, the paste of that file, holds a file of
      the same name there. */
  lemma PastedFileNamed(f: Folder, target: Folder, lister: Lister, moveReply: nat -> string, m: Folder, j: nat, idx: nat)
    requires j < |f.files| && idx == |f.slots| + j && |m.slots| == |f.slots| && |m.files| == |f.files|
    requires GetItem(Current, f, idx, lister).result.Ok?
    requires ChildItem(m, idx) == Some(Paste(target, GetItem(Current, f, idx, lister).result.value, true, moveReply(idx)).item)
    ensures m.files[j].name == f.files[j].name
  {
    assert GetItem(Current, f, idx, lister).result == Ok(FileItem(f.files[j]));
  }

  /** A completed `safe_rename` has cut every child into the new folder, in order, and then
      deleted this folder; it is left at the new folder's path with every subfolder
      materialized, every file keeping its name, and its whole subtree placed under the new
      path. */
  lemma SafeRenamePlacesChildren(parent: Option<Folder>, f: Folder, newName: string, lister: Lister,
                                 moveReply: nat -> string)
    requires parent.Some? ==> Coherent(parent.value)
    requires forall i :: 0 <= i < |f.slots| ==> SlotNamed(f.slots[i])
    ensures var r := SafeRename(parent, f, newName, lister, moveReply);
            r.result.Ok? ==>
              && parent.Some?
              && var look := GetFolderByName(parent.value, newName, lister);
                 && look.result.Ok? && look.result.value.Some?
                 && r.sent == [CreateFolderRequest(parent.value, newName)] + look.sent
                              + CutRequests(f, look.result.value.value, 0, lister) + [DeleteFolder(f.pathStr)]
                 && r.folder.path == look.result.value.value.path && r.folder.path.Valid()
                 && Coherent(r.folder) && NamesValid(r.folder) && AllMaterialized(r.folder.slots)
                 && |r.folder.slots| == |f.slots| && |r.folder.files| == |f.files|
                 && forall j :: 0 <= j < |f.files| ==> r.folder.files[j].name == f.files[j].name
  {
    if parent.Some? {
      var look := GetFolderByName(parent.value, newName, lister);
      if look.result.Ok? && look.result.value.Some? {
        var target := look.result.value.value;
        FoundFolderPathValid(parent.value, newName, lister);
        SafeRenameFound(parent.value, f, newName, lister, moveReply);
        if MoveChildren(f, target, 0, lister, moveReply).result.Ok? {
          MoveChildrenCutsEveryChild(f, target, 0, lister, moveReply);
          RelocatedChildren(f, target, lister, moveReply);
        }
      }
    }
  }

  /** The folder a completed child loop leaves, moved to the new folder's path. */
  lemma RelocatedChildren(f: Folder, target: Folder, lister: Lister, moveReply: nat -> string)
    requires target.path.Valid() && forall i :: 0 <= i < |f.slots| ==> SlotNamed(f.slots[i])
    requires MoveChildren(f, target, 0, lister, moveReply).result.Ok?
    ensures var g := Relocate(MoveChildren(f, target, 0, lister, moveReply).folder, target.path, true);
            && g.path == target.path
            && Coherent(g) && NamesValid(g) && AllMaterialized(g.slots)
            && |g.slots| == |f.slots| && |g.files| == |f.files|
            && forall j :: 0 <= j < |f.files| ==> g.files[j].name == f.files[j].name
  {
    var m := MoveChildren(f, target, 0, lister, moveReply).folder;
    MovedChildrenNamed(f, target, lister, moveReply);
    RelocateCoherent(m, target.path, true);
  }
}

=== FILE: mutations.dfy ===
/** The operations that change the cloud from a folder: creating, deleting, pasting and
    renaming, as in the current revision's `Folder`. Each returns the requests it sends and
    the local state it leaves, with the server's replies given as parameters. */
module FolderOps {
  import opened Results
  import opened Paths
  import opened Protocol
  import opened Folders
  import opened Placement
  import Files

  // ---------------------------------------------------------------- create_folder

  /** `create_folder(name)`: one request naming this folder's directory string and the new
      name with a trailing separator; nothing local changes. */
  function CreateFolderRequest(f: Folder, name: string): (r: Request)
    ensures r.CreateFolder? && r.pseudoFolder == f.pathStr
  {
    CreateFolder(f.pathStr, name + "/")
  }

  /** Read back as one path, the request denotes the new folder inside this one: for a
      sub-folder (directory string with a trailing separator) and for the root (empty
      directory string) alike. */
  lemma CreateFolderDenotesChild(f: Folder, name: string)
    requires f.path.Valid()
    requires f.pathStr == f.path.AsDir(false, true) || (f.pathStr == "" && f.path.parts == [])
    ensures var r := CreateFolderRequest(f, name);
            Parse(r.pseudoFolder + r.folderName) == f.path.parts + Parse(name)
  {
    var r := CreateFolderRequest(f, name);
    ParseTrailingSep(name);
    if f.pathStr == f.path.AsDir(false, true) {
      ParseAfterDir(f.path, name + "/");
      assert r.pseudoFolder + r.folderName == f.path.AsDir(false, true) + (name + "/");
    } else {
      assert r.pseudoFolder + r.folderName == name + "/";
    }
  }

  // ---------------------------------------------------------------- delete

  /** What `delete` may be handed: a name to look up, or the object itself. */
  datatype Target = ByName(name: string) | TheFile(file: Files.File) | TheFolder(folder: Folder)

  /** The truth value of a `File`, which Python takes from `__len__`, its size. */
  predicate Truthy(x: Files.File) { x.size != 0 }

  /** The request deleting an item: by full path for a file, by directory string for a folder. */
  function DeleteRequest(item: Item): (r: Request)
    ensures item.FileItem? <==> r.DeleteObject?
    ensures item.FileItem? ==> r == DeleteObject(item.file.filePath)
    ensures item.FolderItem? ==> r == DeleteFolder(item.folder.pathStr)
  {
    match item
    case FileItem(x) => DeleteObject(x.filePath)
    case FolderItem(c) => DeleteFolder(c.pathStr)
  }

  /** The `get_folder_by_name` half of the lookup, with `None` turned into `FileNotFoundError`. */
  function FolderOrMissing(f: Folder, name: string, lister: Lister): (r: Step<Item>)
    ensures r.folder.(slots := f.slots) == f && |r.folder.slots| == |f.slots|
    ensures (forall j :: 0 <= j < |f.slots| ==> SlotName(f.slots[j]).Some? && SlotName(f.slots[j]) != Some(name))
            ==> r == Step([], f, Err(FileNotFoundError))
    ensures r.result.Ok? ==>
              && r.result.value.FolderItem? && r.result.value.folder.name == name
              && var k := Scan(f.slots, name, 0);
                 k < |f.slots| && r.folder.slots[k] == Materialized(r.result.value.folder)
  {
    var look := GetFolderByName(f, name, lister);

    if look.result.Err? then Step(look.sent, look.folder, Err(look.result.error))
    else if look.result.value.None? then Step(look.sent, look.folder, Err(FileNotFoundError))
    else Step(look.sent, look.folder, Ok(FolderItem(look.result.value.value)))
  }

  /** Sends the delete request for a resolved item; the reply's truth value is the result. */
  function Finish(s: Step<Item>, response: bool): (r: Step<bool>)
    ensures r.folder == s.folder
    ensures s.result.Err? ==> r == Step(s.sent, s.folder, Err(s.result.error))
    ensures s.result.Ok? ==> r == Step(s.sent + [DeleteRequest(s.result.value)], s.folder, Ok(response))
  {
    if s.result.Err? then Step(s.sent, s.folder, Err(s.result.error))
    else Step(s.sent + [DeleteRequest(s.result.value)], s.folder, Ok(response))
  }

  /** `delete(name)` as written: the name is looked up with `get_file_by_name(name) or
      get_folder_by_name(name)`, so a file found by name is only used when it is truthy. */
  function DeleteNamed(f: Folder, name: string, lister: Lister, response: bool): (r: Step<bool>)
    ensures r.folder.(slots := f.slots) == f && |r.folder.slots| == |f.slots|
    ensures r.result.Ok? ==> r.result.value == response && |r.sent| > 0
    ensures r.result.Ok? ==>
              var last := r.sent[|r.sent| - 1];
              var j := FindFile(f.files, name);
              var k := Scan(f.slots, name, 0);
              || (j.Some? && Truthy(f.files[j.value]) && last == DeleteObject(f.files[j.value].filePath))
              || (k < |f.slots| && r.folder.slots[k].Materialized? && r.folder.slots[k].folder.name == name
                  && last == DeleteFolder(r.folder.slots[k].folder.pathStr))
    ensures FindFile(f.files, name).Some? && Truthy(f.files[FindFile(f.files, name).value]) ==>
              r == Step([DeleteObject(f.files[FindFile(f.files, name).value].filePath)], f, Ok(response))
    ensures (forall j :: 0 <= j < |f.files| && f.files[j].name == name ==> !Truthy(f.files[j]))
            && (forall k :: 0 <= k < |f.slots| ==> SlotName(f.slots[k]).Some? && SlotName(f.slots[k]) != Some(name))
            ==> r == Step([], f, Err(FileNotFoundError))
  {
    var file := GetFileByName(f, name);
    if file.Some? && Truthy(file.value) then Finish(Step([], f, Ok(FileItem(file.value))), response)
    else Finish(FolderOrMissing(f, name, lister), response)
  }

  /** `delete(name)` with the lookup the documentation describes (`get_file_by_name(name)`
      compared with `None`): any file of that name is deleted, whatever its size. */
  function DeleteNamedIntended(f: Folder, name: string, lister: Lister, response: bool): (r: Step<bool>)
    ensures r.folder.(slots := f.slots) == f && |r.folder.slots| == |f.slots|
    ensures FindFile(f.files, name).Some? ==>
              r == Step([DeleteObject(f.files[FindFile(f.files, name).value].filePath)], f, Ok(response))
    ensures (forall j :: 0 <= j < |f.files| ==> f.files[j].name != name)
            && (forall k :: 0 <= k < |f.slots| ==> SlotName(f.slots[k]).Some? && SlotName(f.slots[k]) != Some(name))
            <==> r == Step([], f, Err(FileNotFoundError))
  {
    var file := GetFileByName(f, name);
    if file.Some? then Finish(Step([], f, Ok(FileItem(file.value))), response)
    else Finish(FolderOrMissing(f, name, lister), response)
  }

  /** `delete(item)`: a file is deleted by its full path, a folder by its directory string,
      and a name is resolved first (as written). The reply's truth value is returned. */
  function Delete(f: Folder, target: Target, lister: Lister, response: bool): (r: Step<bool>)
    ensures target.TheFile? ==> r == Step([DeleteObject(target.file.filePath)], f, Ok(response))
    ensures target.TheFolder? ==> r == Step([DeleteFolder(target.folder.pathStr)], f, Ok(response))
    ensures target.ByName? ==> r == DeleteNamed(f, target.name, lister, response)
  {
    match target
    case TheFile(x) => Finish(Step([], f, Ok(FileItem(x))), response)
    case TheFolder(c) => Finish(Step([], f, Ok(FolderItem(c))), response)
    case ByName(n) => DeleteNamed(f, n, lister, response)
  }

  /** `delete(item)` with the intended lookup by name. */
  function DeleteIntended(f: Folder, target: Target, lister: Lister, response: bool): (r: Step<bool>)
    ensures target.TheFile? ==> r == Step([DeleteObject(target.file.filePath)], f, Ok(response))
    ensures target.TheFolder? ==> r == Step([DeleteFolder(target.folder.pathStr)], f, Ok(response))
    ensures target.ByName? ==> r == DeleteNamedIntended(f, target.name, lister, response)
  {
    match target
    case TheFile(x) => Finish(Step([], f, Ok(FileItem(x))), response)
    case TheFolder(c) => Finish(Step([], f, Ok(FolderItem(c))), response)
    case ByName(n) => DeleteNamedIntended(f, n, lister, response)
  }

  /** As written, an empty file cannot be deleted by name: when it is the first file of that
      name and no subfolder shares the name, `delete` raises `FileNotFoundError` without any
      request, where the intended lookup deletes it. */
  lemma EmptyFileNotDeletedByName(f: Folder, name: string, lister: Lister, response: bool)
    requires FindFile(f.files, name).Some? && f.files[FindFile(f.files, name).value].size == 0
    requires forall j :: 0 <= j < |f.files| && f.files[j].name == name ==> f.files[j].size == 0
    requires forall k :: 0 <= k < |f.slots| ==> SlotName(f.slots[k]).Some? && SlotName(f.slots[k]) != Some(name)
    ensures Delete(f, ByName(name), lister, response) == Step([], f, Err(FileNotFoundError))
    ensures DeleteIntended(f, ByName(name), lister, response)
            == Step([DeleteObject(f.files[FindFile(f.files, name).value].filePath)], f, Ok(response))
  {
  }

  /** When the first file of the name is empty and an unexpanded subfolder shares the name,
      `delete` as written deletes the folder instead. */
  lemma EmptyFileShadowedByFolder(owner: Path, x: Files.File, subdir: string, lister: Lister, response: bool)
    requires x.size == 0 && EntryName(subdir) == Some(x.name)
    requires Materialize(Current, subdir, lister).result.Ok?
    ensures var f := Folder(owner, owner.AsDir(false, true), LastOrEmpty(owner.parts), [Unexpanded(subdir)], [x]);
            var m := Materialize(Current, subdir, lister);
            && Delete(f, ByName(x.name), lister, response).sent == m.sent + [DeleteFolder(m.result.value.pathStr)]
            && DeleteIntended(f, ByName(x.name), lister, response).sent == [DeleteObject(x.filePath)]
  {
    var f := Folder(owner, owner.AsDir(false, true), LastOrEmpty(owner.parts), [Unexpanded(subdir)], [x]);
    assert FindFile(f.files, x.name) == Some(0);
  }

  // ---------------------------------------------------------------- paste

  /** Result of `target.paste(item, cut)`: the requests, the item as it stands afterwards
      (the target folder itself is not changed) and the returned flag. */
  datatype Pasted = Pasted(sent: seq<Request>, item: Item, ok: bool)

  /** The move/copy request: the item's full path (a file) or directory string (a folder), the
      target's directory string, and the file name (empty for a folder). */
  function MoveRequest(target: Folder, item: Item, cut: bool): (r: Request)
    ensures r.MoveEntry? && r.targetPath == target.pathStr
    ensures r.action == (if cut then MoveAction else CopyAction)
    ensures item.FileItem? <==> r.kind == FileKind
    ensures item.FileItem? ==> r.originalPath == item.file.filePath && r.fileName == item.file.name
    ensures item.FolderItem? ==> r.originalPath == item.folder.pathStr && r.fileName == ""
  {
    match item
    case FileItem(x) => MoveEntry(x.filePath, if cut then MoveAction else CopyAction, target.pathStr, x.name, FileKind)
    case FolderItem(c) => MoveEntry(c.pathStr, if cut then MoveAction else CopyAction, target.pathStr, "", FolderKind)
  }

  /** The local effect of a successful paste: `item._parent_path_changed(target.path)`. */
  function Reparent(item: Item, parentPath: Path): (r: Item)
    ensures r.FileItem? <==> item.FileItem?
    ensures r.FileItem? ==> r.file == Files.ParentPathChanged(item.file, parentPath)
    ensures r.FolderItem? ==> r.folder == ParentPathChanged(item.folder, parentPath)
  {
    match item
    case FileItem(x) => FileItem(Files.ParentPathChanged(x, parentPath))
    case FolderItem(c) => FolderItem(ParentPathChanged(c, parentPath))
  }

  /** `target.paste(item, cut)`: one request; only the reply `"success"` re-parents the item
      locally, whether it was moved or copied. */
  function Paste(target: Folder, item: Item, cut: bool, reply: string): (r: Pasted)
    ensures r.sent == [MoveRequest(target, item, cut)]
    ensures r.ok <==> reply == SuccessReply
    ensures !r.ok ==> r.item == item
    ensures r.ok ==> r.item == Reparent(item, target.path)
    ensures r.ok && item.FileItem? ==>
              r.item.file.owner == target.path && r.item.file.name == item.file.name && Files.PathCurrent(r.item.file)
  {
    var ok := reply == SuccessReply;
    Pasted([MoveRequest(target, item, cut)], if ok then Reparent(item, target.path) else item, ok)
  }

  /** A folder pasted successfully into a target with a valid path lands directly under it,
      keeping its name, with its whole subtree placed consistently. */
  lemma PastedFolderPlaced(target: Folder, c: Folder, cut: bool)
    requires target.path.Valid() && IsComponent(c.name) && NamesValid(c)
    ensures var r := Paste(target, FolderItem(c), cut, SuccessReply);
            && r.item.FolderItem? && r.item.folder.name == c.name
            && PlacedUnder(r.item.folder, target.path) && Coherent(r.item.folder)
  {
    ParentPathChangedPlaces(c, target.path);
  }

  // ---------------------------------------------------------------- rename

  /** `rename(new_name)`: the root raises `PermissionError` before sending anything; otherwise
      one rename request, and on `"success"` the folder moves to `path.parent / new_name`. */
  function Rename(f: Folder, newName: string, reply: string): (r: Step<bool>)
    ensures !f.path.IsTruthy() ==> r == Step([], f, Err(PermissionError))
    ensures f.path.IsTruthy() ==>
              && r.sent == [RenameEntry(f.name, FolderKind, newName, f.pathStr)]
              && r.result == Ok(reply == SuccessReply)
    ensures f.path.IsTruthy() && reply != SuccessReply ==> r.folder == f
    ensures f.path.IsTruthy() && reply == SuccessReply ==>
              r.folder.path == f.path.Parent().DivStr(newName) && |r.folder.slots| == |f.slots| && |r.folder.files| == |f.files|
  {
    if !f.path.IsTruthy() then Step([], f, Err(PermissionError))
    else
      var ok := reply == SuccessReply;
      Step([RenameEntry(f.name, FolderKind, newName, f.pathStr)],
           if ok then Relocate(f, f.path.Parent().DivStr(newName), true) else f,
           Ok(ok))
  }

  /** A successful rename of a valid non-root folder to a single component replaces the last
      component, renders the new directory string, and re-places the whole subtree. */
  lemma RenameReplacesLastComponent(f: Folder, newName: string)
    requires f.path.Valid() && f.path.IsTruthy() && IsComponent(newName) && NamesValid(f)
    ensures var g := Rename(f, newName, SuccessReply).folder;
            && g.path.parts == f.path.parts[..|f.path.parts| - 1] + [newName]
            && g.name == newName
            && g.pathStr == g.path.AsDir(false, true)
            && Coherent(g)
  {
    var q := f.path.Parent().DivStr(newName);
    assert f.path.Parent().Valid();
    ChildPath(f.path.Parent(), newName);
    RelocateCoherent(f, q, true);
  }

  // ---------------------------------------------------------------- safe_rename

  /** Puts the item back at combined index `k` (subfolders first, then files). */
  function PutChild(f: Folder, k: nat, item: Item): (r: Folder)
    ensures r.(slots := f.slots, files := f.files) == f
    ensures |r.slots| == |f.slots| && |r.files| == |f.files|
    ensures forall i :: 0 <= i < |f.slots| && i != k ==> r.slots[i] == f.slots[i]
    ensures forall j :: 0 <= j < |f.files| && |f.slots| + j != k ==> r.files[j] == f.files[j]
    ensures k < |f.slots| && item.FolderItem? ==> r.slots[k] == Materialized(item.folder)
    ensures |f.slots| <= k < |f.slots| + |f.files| && item.FileItem? ==> r.files[k - |f.slots|] == item.file
  {
    if k < |f.slots| && item.FolderItem? then f.(slots := f.slots[k := Materialized(item.folder)])
    else if |f.slots| <= k < |f.slots| + |f.files| && item.FileItem? then f.(files := f.files[k - |f.slots| := item.file])
    else f
  }

  /** The folder the child loop continues with after fetching child `k`: the fetched child,
      pasted, put back at `k` (the folder as the fetch left it when the fetch failed). */
  function NextFolder(f: Folder, target: Folder, k: nat, lister: Lister, reply: nat -> string): (r: Folder)
    requires k < |f.slots| + |f.files|
    ensures r.(slots := f.slots, files := f.files) == f
    ensures |r.slots| == |f.slots| && |r.files| == |f.files|
  {
    var g := GetItem(Current, f, k, lister);
    if g.result.Err? then g.folder else PutChild(g.folder, k, Paste(target, g.result.value, true, reply(k)).item)
  }

  /** The loop `for ff in self: new_folder.paste(ff, True)` from index `k` on; the reply to the
      paste of child `k` is `moveReply(k)`. A child the server moved is re-parented in place. */
  function MoveChildren(f: Folder, target: Folder, k: nat, lister: Lister, moveReply: nat -> string): (r: Step<()>)
    requires k <= |f.slots| + |f.files|
    ensures r.folder.(slots := f.slots, files := f.files) == f
    ensures |r.folder.slots| == |f.slots| && |r.folder.files| == |f.files|
    ensures r.result.Ok? ==> |r.sent| >= |f.slots| + |f.files| - k
    decreases |f.slots| + |f.files| - k
  {
    if k == |f.slots| + |f.files| then Step([], f, Ok(()))
    else
      var g := GetItem(Current, f, k, lister);
      if g.result.Err? then Step(g.sent, g.folder, Err(g.result.error))
      else
        var p := Paste(target, g.result.value, true, moveReply(k));
        var rest := MoveChildren(NextFolder(f, target, k, lister, moveReply), target, k + 1, lister, moveReply);
        Step(g.sent + p.sent + rest.sent, rest.folder, rest.result)
  }

  /** What `safe_rename` leaves behind: the requests, the parent (whose cache the lookup may
      have filled), this folder, and the outcome. */
  datatype Renamed = Renamed(sent: seq<Request>, parent: Option<Folder>, folder: Folder, result: Result<()>)

  /** The parent as it reads once this folder has changed from `was` to `now`: a child that
      was materialized through the parent is the same object as this folder, so every slot
      holding this folder shows its new state. Value equality stands in for that identity. */
  function ShowSelf(p: Folder, was: Folder, now: Folder): (r: Folder)
    ensures r.(slots := p.slots) == p && |r.slots| == |p.slots|
    ensures forall i :: 0 <= i < |p.slots| && p.slots[i] != Materialized(was) ==> r.slots[i] == p.slots[i]
    ensures forall i :: 0 <= i < |p.slots| && p.slots[i] == Materialized(was) ==> r.slots[i] == Materialized(now)
    ensures now == was ==> r == p
  {
    if now == was then p
    else p.(slots := seq(|p.slots|, i requires 0 <= i < |p.slots| =>
                             if p.slots[i] == Materialized(was) then Materialized(now) else p.slots[i]))
  }

  /** `safe_rename(new_name)`: create the new folder from the parent, look it up in the
      parent's cached listing, cut every child into it, delete this folder from the parent and
      take the new folder's path. The cache is not reloaded after the creation, and the paste
      replies are not looked at. When the lookup finds nothing, the first use of the missing
      folder raises `AttributeError`: at the first paste, or for an empty folder only after
      the delete request has gone out. The parent's slot that is this folder follows every
      change to it. */
  function SafeRename(parent: Option<Folder>, f: Folder, newName: string, lister: Lister, moveReply: nat -> string)
    : (r: Renamed)
    ensures parent.None? ==> r == Renamed([], parent, f, Err(PermissionError))
    ensures parent.Some? ==> |r.sent| > 0 && r.sent[0] == CreateFolderRequest(parent.value, newName)
    ensures parent.Some? ==> r.parent.Some? && r.parent.value.(slots := parent.value.slots) == parent.value
                             && |r.parent.value.slots| == |parent.value.slots|
    ensures parent.Some? ==> r.parent == Some(ShowSelf(GetFolderByName(parent.value, newName, lister).folder, f, r.folder))
    ensures parent.Some? ==>
              forall i :: 0 <= i < |parent.value.slots| && parent.value.slots[i] == Materialized(f) ==>
                r.parent.value.slots[i] == Materialized(r.folder)
    ensures r.result.Ok? ==>
              && parent.Some? && r.sent[|r.sent| - 1] == DeleteFolder(f.pathStr)
              && var k := Scan(parent.value.slots, newName, 0);
                 && k < |parent.value.slots| && SlotName(parent.value.slots[k]) == Some(newName)
                 && r.parent.value.slots[k].Materialized?
                 && r.folder.path == r.parent.value.slots[k].folder.path
    ensures parent.Some?
            && (forall k :: 0 <= k < |parent.value.slots| ==>
                  SlotName(parent.value.slots[k]).Some? && SlotName(parent.value.slots[k]) != Some(newName))
            ==> r.result.Err? && r.parent == Some(ShowSelf(parent.value, f, r.folder))
    ensures parent.Some? && |f.slots| + |f.files| == 0
            && (forall k :: 0 <= k < |parent.value.slots| ==>
                  SlotName(parent.value.slots[k]).Some? && SlotName(parent.value.slots[k]) != Some(newName))
            ==> r == Renamed([CreateFolderRequest(parent.value, newName), DeleteFolder(f.pathStr)], parent, f, Err(AttributeError))
  {
    if parent.None? then Renamed([], parent, f, Err(PermissionError))
    else
      var create := CreateFolderRequest(parent.value, newName);
      var look := GetFolderByName(parent.value, newName, lister);
      var before := [create] + look.sent;
      if look.result.Err? then Renamed(before, Some(look.folder), f, Err(look.result.error))
      else if look.result.value.None? then
        if |f.slots| + |f.files| == 0 then Renamed(before + [DeleteFolder(f.pathStr)], Some(look.folder), f, Err(AttributeError))
        else
          var g := GetItem(Current, f, 0, lister);
          Renamed(before + g.sent, Some(ShowSelf(look.folder, f, g.folder)), g.folder,
                  Err(if g.result.Err? then g.result.error else AttributeError))
      else
        var target := look.result.value.value;
        var moved := MoveChildren(f, target, 0, lister, moveReply);
        if moved.result.Err? then
          Renamed(before + moved.sent, Some(ShowSelf(look.folder, f, moved.folder)), moved.folder, Err(moved.result.error))
        else
          var renamed := Relocate(moved.folder, target.path, true);
          Renamed(before + moved.sent + [DeleteFolder(f.pathStr)], Some(ShowSelf(look.folder, f, renamed)), renamed, Ok(()))
  }

  // ---------------------------------------------------------------- paste replies are ignored

  /** A slot that, once materialized, is a folder with a single-component name. */
  predicate SlotNamed(s: Slot)
  {
    match s
    case Unexpanded(e) => EntryName(e).Some?
    case Materialized(c) => IsComponent(c.name) && NamesValid(c)
  }

  /** Every child from index `k` on has a usable name. */
  predicate NamedFrom(f: Folder, k: nat)
  {
    forall i :: k <= i < |f.slots| ==> SlotNamed(f.slots[i])
  }

  /** The child loop's invariant at index `k` of `n` children: the two runs agree below `k`
      and the children from `k` on have usable names. */
  predicate Agreeing(f1: Folder, f2: Folder, p: Path, k: nat, n: nat)
  {
    p.Valid() && n == |f1.slots| + |f1.files| && k <= n && AgreeBelow(f1, f2, k, p) && NamedFrom(f1, k)
  }

  /** Two runs of the child loop agree: same folder apart from the children, children before
      `k` equal once placed under `p`, children from `k` on identical. */
  predicate AgreeBelow(f1: Folder, f2: Folder, k: nat, p: Path)
  {
    && f1.(slots := f2.slots, files := f2.files) == f2
    && |f1.slots| == |f2.slots| && |f1.files| == |f2.files|
    && (forall i :: 0 <= i < |f1.slots| ==>
          if i < k then RelocateSlot(f1.slots[i], p) == RelocateSlot(f2.slots[i], p) else f1.slots[i] == f2.slots[i])
    && (forall j :: 0 <= j < |f1.files| ==>
          if |f1.slots| + j < k then Files.ParentPathChanged(f1.files[j], p) == Files.ParentPathChanged(f2.files[j], p)
          else f1.files[j] == f2.files[j])
  }

  /** Placing a re-parented subfolder under the same path again gives what placing the
      original gives. */
  lemma ReparentedSlot(c: Folder, p: Path)
    requires p.Valid() && IsComponent(c.name) && NamesValid(c)
    ensures RelocateSlot(Materialized(ParentPathChanged(c, p)), p) == RelocateSlot(Materialized(c), p)
  {
    var q := p.DivStr(c.name);
    ChildPath(p, c.name);
    RelocateCoherent(c, q, true);
    assert ParentPathChanged(c, p).name == c.name;
    RelocateOverrides(c, q, true, q, true);
  }

  /** Fetching child `k` of two agreeing folders sends the same requests and yields the same
      item, and the folders still agree. */
  lemma GetItemAgrees(f1: Folder, f2: Folder, k: nat, p: Path, lister: Lister)
    requires k < |f1.slots| + |f1.files| && AgreeBelow(f1, f2, k, p)
    ensures var g1 := GetItem(Current, f1, k, lister);
            var g2 := GetItem(Current, f2, k, lister);
            && g1.sent == g2.sent && g1.result == g2.result && AgreeBelow(g1.folder, g2.folder, k, p)
            && (forall i :: k < i < |f1.slots| ==> g1.folder.slots[i] == f1.slots[i])
            && (g1.result.Ok? && k >= |f1.slots| ==> g1.result.value.FileItem?)
            && (g1.result.Ok? && k < |f1.slots| ==>
                  && g1.result.value.FolderItem?
                  && (SlotNamed(f1.slots[k]) ==> IsComponent(g1.result.value.folder.name) && NamesValid(g1.result.value.folder)))
  {
    if k < |f1.slots| {
      assert f1.slots[k] == f2.slots[k];
    } else {
      assert f1.files[k - |f1.slots|] == f2.files[k - |f1.slots|];
    }
  }

  /** Putting back either paste's result at index `k` keeps two agreeing folders agreeing one
      index further: a moved child differs from an unmoved one only in its placement. */
  lemma PutBackAgrees(g1: Folder, g2: Folder, k: nat, target: Folder, item: Item, reply1: string, reply2: string)
    requires target.path.Valid() && k < |g1.slots| + |g1.files| && AgreeBelow(g1, g2, k, target.path)
    requires k < |g1.slots| ==> item.FolderItem? && IsComponent(item.folder.name) && NamesValid(item.folder)
    requires k >= |g1.slots| ==> item.FileItem?
    ensures AgreeBelow(PutChild(g1, k, Paste(target, item, true, reply1).item),
                       PutChild(g2, k, Paste(target, item, true, reply2).item), k + 1, target.path)
  {
    var p := target.path;
    var h1 := PutChild(g1, k, Paste(target, item, true, reply1).item);
    var h2 := PutChild(g2, k, Paste(target, item, true, reply2).item);
    if k < |g1.slots| {
      ReparentedSlot(item.folder, p);
      assert RelocateSlot(h1.slots[k], p) == RelocateSlot(h2.slots[k], p);
    } else {
      Files.ParentPathChangedOverrides(item.file, p, p);
      assert Files.ParentPathChanged(h1.files[k - |g1.slots|], p) == Files.ParentPathChanged(h2.files[k - |g1.slots|], p);
    }
  }

  /** The child loop from index `k` on; the agreement lemmas below are stated over it. */
  function Loop(f: Folder, target: Folder, k: nat, lister: Lister, moveReply: nat -> string): (r: Step<()>)
    requires k <= |f.slots| + |f.files|
  {
    MoveChildren(f, target, k, lister, moveReply)
  }

  /** The child loop sends the same requests and reaches the same outcome whatever the paste
      replies are, and the children it leaves differ only in where they were placed. */
  lemma {:induction false} MoveChildrenIgnoresReplies(f1: Folder, f2: Folder, target: Folder, k: nat, lister: Lister,
                                                       reply1: nat -> string, reply2: nat -> string, n: nat)
    requires Agreeing(f1, f2, target.path, k, n)
    ensures k <= |f2.slots| + |f2.files|
    ensures LoopsAgree(Loop(f1, target, k, lister, reply1), Loop(f2, target, k, lister, reply2), n, target.path)
    decreases n - k, 3
  {
    if k < n {
      GetItemAgrees(f1, f2, k, target.path, lister);
      var g1 := GetItem(Current, f1, k, lister);
      var g2 := GetItem(Current, f2, k, lister);
      if g1.result.Ok? {
        MovedChildThenRest(f1, f2, target, k, lister, reply1, reply2, n);
      } else {
        AgreeBelowLater(g1.folder, g2.folder, k, n, target.path);
      }
    }
  }

  /** One successful fetch of child `k`, its paste, and the rest of the loop. */
  lemma {:induction false} MovedChildThenRest(f1: Folder, f2: Folder, target: Folder, k: nat, lister: Lister,
                                              reply1: nat -> string, reply2: nat -> string, n: nat)
    requires Agreeing(f1, f2, target.path, k, n) && k < n
    requires GetItem(Current, f1, k, lister).result.Ok?
    ensures k <= |f2.slots| + |f2.files|
    ensures LoopsAgree(Loop(f1, target, k, lister, reply1), Loop(f2, target, k, lister, reply2), n, target.path)
    decreases n - k, 2
  {
    RestAgrees(f1, f2, target, k, lister, reply1, reply2, n);
    JoinTurn(f1, f2, target, k, lister, reply1, reply2, n);
  }

  /** After a successful fetch of child `k`, the rest of the two loops agree. */
  lemma {:induction false} RestAgrees(f1: Folder, f2: Folder, target: Folder, k: nat, lister: Lister,
                                      reply1: nat -> string, reply2: nat -> string, n: nat)
    requires Agreeing(f1, f2, target.path, k, n) && k < n
    requires GetItem(Current, f1, k, lister).result.Ok?
    ensures k < |f2.slots| + |f2.files|
    ensures LoopsAgree(Loop(NextFolder(f1, target, k, lister, reply1), target, k + 1, lister, reply1),
                       Loop(NextFolder(f2, target, k, lister, reply2), target, k + 1, lister, reply2), n, target.path)
    decreases n - k, 1
  {
    NextFoldersAgree(f1, f2, target, k, lister, reply1, reply2, n);
    RestFrom(f1, f2, target, k, lister, reply1, reply2, n);
  }

  /** The rest of the two loops, from folders that agree one index further. */
  lemma {:induction false} RestFrom(f1: Folder, f2: Folder, target: Folder, k: nat, lister: Lister,
                                    reply1: nat -> string, reply2: nat -> string, n: nat)
    requires k < n && k < |f1.slots| + |f1.files| && k < |f2.slots| + |f2.files|
    requires Agreeing(NextFolder(f1, target, k, lister, reply1), NextFolder(f2, target, k, lister, reply2), target.path, k + 1, n)
    ensures LoopsAgree(Loop(NextFolder(f1, target, k, lister, reply1), target, k + 1, lister, reply1),
                       Loop(NextFolder(f2, target, k, lister, reply2), target, k + 1, lister, reply2), n, target.path)
    decreases n - k, 0
  {
    MoveChildrenIgnoresReplies(NextFolder(f1, target, k, lister, reply1), NextFolder(f2, target, k, lister, reply2),
                               target, k + 1, lister, reply1, reply2, n);
  }

  /** Two runs of the child loop send the same requests, reach the same outcome and leave
      agreeing children. */
  predicate LoopsAgree(m1: Step<()>, m2: Step<()>, n: nat, p: Path)
  {
    m1.sent == m2.sent && m1.result == m2.result && AgreeBelow(m1.folder, m2.folder, n, p)
  }

  /** Agreeing fetches of child `k` followed by agreeing remainders give agreeing loops. */
  lemma JoinTurn(f1: Folder, f2: Folder, target: Folder, k: nat, lister: Lister,
                 reply1: nat -> string, reply2: nat -> string, n: nat)
    requires k < |f1.slots| + |f1.files| && AgreeBelow(f1, f2, k, target.path)
    requires GetItem(Current, f1, k, lister).result.Ok?
    requires LoopsAgree(Loop(NextFolder(f1, target, k, lister, reply1), target, k + 1, lister, reply1),
                        Loop(NextFolder(f2, target, k, lister, reply2), target, k + 1, lister, reply2),
                        n, target.path)
    ensures LoopsAgree(Loop(f1, target, k, lister, reply1), Loop(f2, target, k, lister, reply2), n, target.path)
  {
    GetItemAgrees(f1, f2, k, target.path, lister);
  }

  /** After agreeing fetches of child `k`, the folders the loop continues with agree one index
      further and keep usable names from there on. */
  lemma NextFoldersAgree(f1: Folder, f2: Folder, target: Folder, k: nat, lister: Lister,
                         reply1: nat -> string, reply2: nat -> string, n: nat)
    requires Agreeing(f1, f2, target.path, k, n) && k < n
    requires GetItem(Current, f1, k, lister).result.Ok?
    ensures k < |f2.slots| + |f2.files| && GetItem(Current, f2, k, lister).result.Ok?
    ensures var h1 := NextFolder(f1, target, k, lister, reply1);
            var h2 := NextFolder(f2, target, k, lister, reply2);
            Agreeing(h1, h2, target.path, k + 1, n)
  {
    GetItemAgrees(f1, f2, k, target.path, lister);
    var g1 := GetItem(Current, f1, k, lister);
    var g2 := GetItem(Current, f2, k, lister);
    PutBackAgrees(g1.folder, g2.folder, k, target, g1.result.value, reply1(k), reply2(k));
    var h1 := NextFolder(f1, target, k, lister, reply1);
    assert NamedFrom(h1, k + 1) by {
      assert forall i :: k + 1 <= i < |h1.slots| ==> h1.slots[i] == f1.slots[i];
    }
  }

  /** Agreement below `k` implies agreement below any later index. */
  lemma AgreeBelowLater(f1: Folder, f2: Folder, k: nat, k': nat, p: Path)
    requires k <= k' && AgreeBelow(f1, f2, k, p)
    ensures AgreeBelow(f1, f2, k', p)
  {
  }

  /** Folders that agree on every child once placed under `p` are equal after being moved to
      `p`. */
  lemma RelocateAgreeing(f1: Folder, f2: Folder, p: Path)
    requires AgreeBelow(f1, f2, |f1.slots| + |f1.files|, p)
    ensures Relocate(f1, p, true) == Relocate(f2, p, true)
  {
    var r1 := Relocate(f1, p, true);
    var r2 := Relocate(f2, p, true);
    forall i | 0 <= i < |f1.slots|
      ensures r1.slots[i] == r2.slots[i]
    {
      assert r1.slots[i] == RelocateSlot(f1.slots[i], p);
      assert r2.slots[i] == RelocateSlot(f2.slots[i], p);
    }
    assert r1.slots == r2.slots;
    assert r1.files == r2.files;
  }

  /** `safe_rename` ignores the results of its pastes: whatever the server replies to each
      move, the same requests go out, in particular the delete of this folder, the same
      outcome follows, and a completed rename leaves the same folder and parent. (When a later
      child fails to load, the children already handled differ in where they were placed
      locally, and so does the parent's slot that is this folder.) */
  lemma {:induction false} SafeRenameIgnoresPasteReplies(parent: Option<Folder>, f: Folder, newName: string,
                                                         lister: Lister, reply1: nat -> string, reply2: nat -> string)
    requires parent.Some? ==> Coherent(parent.value)
    requires forall i :: 0 <= i < |f.slots| ==> SlotNamed(f.slots[i])
    ensures var r1 := SafeRename(parent, f, newName, lister, reply1);
            var r2 := SafeRename(parent, f, newName, lister, reply2);
            && r1.sent == r2.sent && r1.result == r2.result
            && (r1.result.Ok? ==> r1.folder == r2.folder && r1.parent == r2.parent)
  {
    if parent.Some? {
      var look := GetFolderByName(parent.value, newName, lister);
      if look.result.Ok? && look.result.value.Some? {
        FoundFolderPathValid(parent.value, newName, lister);
        MovesIgnoreReplies(parent.value, f, newName, lister, reply1, reply2);
      } else {
        UnfoundIgnoresReplies(parent.value, f, newName, lister, reply1, reply2);
      }
    }
  }

  /** When the new folder is not found, no paste is attempted, so the replies play no part. */
  lemma UnfoundIgnoresReplies(parent: Folder, f: Folder, newName: string, lister: Lister,
                              reply1: nat -> string, reply2: nat -> string)
    requires !(GetFolderByName(parent, newName, lister).result.Ok? && GetFolderByName(parent, newName, lister).result.value.Some?)
    ensures SafeRename(Some(parent), f, newName, lister, reply1) == SafeRename(Some(parent), f, newName, lister, reply2)
  {
  }

  /** When the new folder is found, the child loop reaches the same outcome for both replies
      and the final move to the new folder's path erases how the children were placed. */
  lemma MovesIgnoreReplies(parent: Folder, f: Folder, newName: string, lister: Lister,
                           reply1: nat -> string, reply2: nat -> string)
    requires GetFolderByName(parent, newName, lister).result.Ok? && GetFolderByName(parent, newName, lister).result.value.Some?
    requires GetFolderByName(parent, newName, lister).result.value.value.path.Valid()
    requires forall i :: 0 <= i < |f.slots| ==> SlotNamed(f.slots[i])
    ensures var r1 := SafeRename(Some(parent), f, newName, lister, reply1);
            var r2 := SafeRename(Some(parent), f, newName, lister, reply2);
            && r1.sent == r2.sent && r1.result == r2.result
            && (r1.result.Ok? ==> r1.folder == r2.folder && r1.parent == r2.parent)
  {
    var target := GetFolderByName(parent, newName, lister).result.value.value;
    AgreeBelowSelf(f, target.path);
    MoveChildrenIgnoresReplies(f, f, target, 0, lister, reply1, reply2, |f.slots| + |f.files|);
    var m1 := MoveChildren(f, target, 0, lister, reply1);
    var m2 := MoveChildren(f, target, 0, lister, reply2);
    if m1.result.Ok? {
      RelocateAgreeing(m1.folder, m2.folder, target.path);
    }
    SafeRenameFound(parent, f, newName, lister, reply1);
    SafeRenameFound(parent, f, newName, lister, reply2);
  }

  /** `safe_rename` once the new folder is found: the child loop, then the delete and the
      move to the new folder's path when the loop completes. */
  lemma SafeRenameFound(parent: Folder, f: Folder, newName: string, lister: Lister, reply: nat -> string)
    requires GetFolderByName(parent, newName, lister).result.Ok? && GetFolderByName(parent, newName, lister).result.value.Some?
    ensures var look := GetFolderByName(parent, newName, lister);
            var target := look.result.value.value;
            var m := MoveChildren(f, target, 0, lister, reply);
            var before := [CreateFolderRequest(parent, newName)] + look.sent;
            SafeRename(Some(parent), f, newName, lister, reply)
            == if m.result.Err? then Renamed(before + m.sent, Some(ShowSelf(look.folder, f, m.folder)), m.folder, Err(m.result.error))
               else
                 var g := Relocate(m.folder, target.path, true);
                 Renamed(before + m.sent + [DeleteFolder(f.pathStr)], Some(ShowSelf(look.folder, f, g)), g, Ok(()))
  {
  }

  /** A folder found by name in a coherent parent has a valid path: either it was already
      placed under the parent, or it was just built from a listing entry. */
  lemma FoundFolderPathValid(parent: Folder, name: string, lister: Lister)
    requires Coherent(parent)
    requires GetFolderByName(parent, name, lister).result.Ok? && GetFolderByName(parent, name, lister).result.value.Some?
    ensures GetFolderByName(parent, name, lister).result.value.value.path.Valid()
  {
    var k := Scan(parent.slots, name, 0);
    if parent.slots[k].Materialized? {
      assert PlacedUnder(parent.slots[k].folder, parent.path);
    }
  }

  /** Every folder agrees with itself before any child has been moved. */
  lemma AgreeBelowSelf(f: Folder, p: Path)
    ensures AgreeBelow(f, f, 0, p)
  {
  }
}

=== FILE: paths.dfy ===
/** The `Path` value of blomp_api/utils/path.py (and, textually identical, src/utils/path.py):
    a tuple of components split out of a string on `/` or `\`, a separator character used
    to render it, and the derived forms `p / q`, `parent` and `as_dir`. */
module Paths {

  predicate IsSep(c: char) { c == '/' || c == '\\' }

  predicate NoSep(s: string) { forall k :: 0 <= k < |s| ==> !IsSep(s[k]) }

  /** What a parsed path is made of: non-empty strings without a separator. */
  predicate IsComponent(s: string) { |s| > 0 && NoSep(s) }

  predicate AllComponents(parts: seq<string>) {
    forall i :: 0 <= i < |parts| ==> IsComponent(parts[i])
  }

  /** A one-character separator that the parser also splits on. */
  predicate IsSeparator(sep: string) { |sep| == 1 && IsSep(sep[0]) }

  /** The default `path_char`. */
  const Slash: string := "/"

  /** `re.split(r"/|\\", s)`: the pieces between separators, empty pieces included. */
  function Split(s: string): (pieces: seq<string>)
    ensures |pieces| >= 1
    ensures forall i :: 0 <= i < |pieces| ==> NoSep(pieces[i])
    decreases |s|
  {
    if |s| == 0 then [""]
    else if IsSep(s[0]) then [""] + Split(s[1..])
    else
      var rest := Split(s[1..]);
      [[s[0]] + rest[0]] + rest[1..]
  }

  /** `filter(None, pieces)`: the non-empty pieces, in order. */
  function DropEmpty(pieces: seq<string>): (kept: seq<string>)
    ensures forall i :: 0 <= i < |kept| ==> kept[i] != "" && kept[i] in pieces
    decreases |pieces|
  {
    if |pieces| == 0 then []
    else (if pieces[0] == "" then [] else [pieces[0]]) + DropEmpty(pieces[1..])
  }

  /** The components `Path(s)` stores. */
  function Parse(s: string): (parts: seq<string>)
    ensures AllComponents(parts)
  {
    var pieces := Split(s);
    var kept := DropEmpty(pieces);
    assert forall i :: 0 <= i < |kept| ==> NoSep(kept[i]) by {
      forall i | 0 <= i < |kept|
        ensures NoSep(kept[i])
      {
        var j :| 0 <= j < |pieces| && pieces[j] == kept[i];
      }
    }
    kept
  }

  /** `sep.join(parts)`. */
  function JoinWith(sep: string, parts: seq<string>): string
    decreases |parts|
  {
    if |parts| == 0 then ""
    else if |parts| == 1 then parts[0]
    else parts[0] + sep + JoinWith(sep, parts[1..])
  }

  /** The last component, or `""` when there is none (the `IndexError` fallback of the folders). */
  function LastOrEmpty(parts: seq<string>): string
  {
    if |parts| == 0 then "" else parts[|parts| - 1]
  }

  datatype Path = Path(parts: seq<string>, sep: string) {

    /** What every constructed path satisfies when its separator is `/` or `\`. */
    predicate Valid() { AllComponents(parts) && IsSeparator(sep) }

    /** `str(p)`: the components joined by the separator. */
    function ToString(): string { JoinWith(sep, parts) }

    /** `bool(p)`. */
    predicate IsTruthy() { |parts| > 0 }

    /** `p / q`: the joined components re-parsed, with the default separator. */
    function Div(other: Path): (r: Path)
      ensures r.sep == Slash
      ensures Valid() && AllComponents(other.parts) ==> r.parts == parts + other.parts
    {
      if Valid() && AllComponents(other.parts) then
        ParseJoin(sep, parts + other.parts);
        FromString(JoinWith(sep, parts + other.parts), Slash)
      else
        FromString(JoinWith(sep, parts + other.parts), Slash)
    }

    /** `p / s` for a string `s`, which is parsed first. */
    function DivStr(s: string): (r: Path)
      ensures r.sep == Slash
      ensures Valid() ==> r.parts == parts + Parse(s)
    {
      Div(FromString(s, Slash))
    }

    /** `p.parent`: every component but the last, re-parsed with the default separator. */
    function Parent(): (r: Path)
      ensures r.sep == Slash
      ensures Valid() ==> r.parts == (if |parts| == 0 then [] else parts[..|parts| - 1])
    {
      var init := if |parts| == 0 then [] else parts[..|parts| - 1];
      if Valid() then
        ParseJoin(sep, init);
        FromString(JoinWith(sep, init), Slash)
      else
        FromString(JoinWith(sep, init), Slash)
    }

    /** `p.as_dir(start_sep, end_sep)`. */
    function AsDir(startSep: bool, endSep: bool): string
    {
      (if startSep then sep else "") + ToString() + (if endSep then sep else "")
    }
  }

  /** `Path(s, path_char)`. */
  function FromString(s: string, sep: string): (p: Path)
    ensures p.parts == Parse(s) && p.sep == sep
    ensures IsSeparator(sep) ==> p.Valid()
  {
    Path(Parse(s), sep)
  }

  /** `s / p` for a string `s` (`__rtruediv__`): `s` is parsed and put in front. */
  function RDivStr(s: string, p: Path): (r: Path)
    ensures r.sep == Slash
    ensures AllComponents(p.parts) ==> r.parts == Parse(s) + p.parts
  {
    FromString(s, Slash).Div(p)
  }

  /** `Path("")`, the root. */
  const Root: Path := Path([], Slash)

  // ---------------------------------------------------------------- splitting lemmas

  lemma {:induction false} SplitWithoutSep(s: string)
    requires NoSep(s)
    ensures Split(s) == [s]
    decreases |s|
  {
    if |s| > 0 {
      SplitWithoutSep(s[1..]);
      assert [s[0]] + s[1..] == s;
    }
  }

  /** Splitting at a separator splits each side independently. */
  lemma {:induction false} SplitAtSep(a: string, c: char, b: string)
    requires IsSep(c)
    ensures Split(a + [c] + b) == Split(a) + Split(b)
    decreases |a|
  {
    if |a| == 0 {
      assert a + [c] + b == [c] + b;
      assert ([c] + b)[1..] == b;
    } else {
      var s := a + [c] + b;
      assert s[0] == a[0];
      assert s[1..] == a[1..] + [c] + b;
      SplitAtSep(a[1..], c, b);
    }
  }

  lemma {:induction false} DropEmptyAppend(x: seq<string>, y: seq<string>)
    ensures DropEmpty(x + y) == DropEmpty(x) + DropEmpty(y)
    decreases |x|
  {
    if |x| == 0 {
      assert x + y == y;
    } else {
      assert (x + y)[0] == x[0];
      assert (x + y)[1..] == x[1..] + y;
      DropEmptyAppend(x[1..], y);
    }
  }

  /** A single component parses to itself. */
  lemma ParseComponent(n: string)
    requires IsComponent(n)
    ensures Parse(n) == [n]
  {
    SplitWithoutSep(n);
    assert DropEmpty([n]) == [n] by { assert [n][1..] == []; }
  }

  /** Joining valid components and parsing the result gives the components back. */
  lemma {:induction false} ParseJoin(sep: string, parts: seq<string>)
    requires IsSeparator(sep) && AllComponents(parts)
    ensures Parse(JoinWith(sep, parts)) == parts
    decreases |parts|
  {
    if |parts| == 1 {
      SplitWithoutSep(parts[0]);
    } else if |parts| > 1 {
      var rest := JoinWith(sep, parts[1..]);
      assert sep == [sep[0]];
      assert JoinWith(sep, parts) == parts[0] + [sep[0]] + rest;
      SplitAtSep(parts[0], sep[0], rest);
      SplitWithoutSep(parts[0]);
      DropEmptyAppend([parts[0]], Split(rest));
      ParseJoin(sep, parts[1..]);
      assert parts == [parts[0]] + parts[1..];
    }
  }

  // ---------------------------------------------------------------- properties of Path

  /** Re-parsing the string form of a valid path gives back the same path. */
  lemma StringRoundTrip(p: Path)
    requires p.Valid()
    ensures FromString(p.ToString(), p.sep) == p
  {
    ParseJoin(p.sep, p.parts);
  }

  lemma {:induction false} JoinWithNonEmpty(sep: string, parts: seq<string>)
    requires |parts| > 0 && parts[0] != ""
    ensures JoinWith(sep, parts) != ""
  {
    if |parts| > 1 {
      assert |JoinWith(sep, parts)| >= |parts[0]|;
    }
  }

  /** A valid path is truthy exactly when its string form is not empty (so the two root
      tests, `bool(path)` and `bool(str(path))`, agree). */
  lemma TruthyIffNonEmptyString(p: Path)
    requires p.Valid()
    ensures p.IsTruthy() <==> p.ToString() != ""
  {
    if p.IsTruthy() {
      JoinWithNonEmpty(p.sep, p.parts);
    }
  }

  /** The root and `p / Path("")` are neutral for `/`. */
  lemma DivRootIdentity(p: Path)
    requires p.Valid() && p.sep == Slash
    ensures p.Div(Root) == p
    ensures Root.Div(p) == p
  {
    assert p.parts + [] == p.parts;
    assert [] + p.parts == p.parts;
  }

  /** `(p / n).parent == p` for a single valid component `n`. */
  lemma ParentOfChild(p: Path, n: string)
    requires p.Valid() && p.sep == Slash && IsComponent(n)
    ensures p.DivStr(n).Parent() == p
  {
    SplitWithoutSep(n);
    assert DropEmpty([n]) == [n] by { assert [n][1..] == []; }
    var q := p.DivStr(n);
    assert q.parts == p.parts + [n];
    assert q.Valid();
    assert q.parts[..|q.parts| - 1] == p.parts;
  }

  /** The root has no parent but itself. */
  lemma ParentOfRoot()
    ensures Root.Parent() == Root
  {
  }

  /** A separator at either end adds no component. */
  lemma SepAtEnds(s: string, c: char)
    requires IsSep(c)
    ensures Parse(s + [c]) == Parse(s)
    ensures Parse([c] + s) == Parse(s)
  {
    assert DropEmpty([""]) == [] by { assert [""][1..] == []; }
    SplitAtSep(s, c, "");
    assert s + [c] + "" == s + [c];
    DropEmptyAppend(Split(s), [""]);
    assert DropEmpty(Split(s) + [""]) == DropEmpty(Split(s)) + [];
    SplitAtSep("", c, s);
    assert "" + [c] + s == [c] + s;
    DropEmptyAppend([""], Split(s));
    assert DropEmpty([""] + Split(s)) == [] + DropEmpty(Split(s));
  }

  /** The extra separators of `as_dir` are dropped again by the parser, so a directory
      string parses to the path's own components. */
  lemma AsDirRoundTrip(p: Path, startSep: bool, endSep: bool)
    requires p.Valid()
    ensures Parse(p.AsDir(startSep, endSep)) == p.parts
  {
    var c := p.sep[0];
    var body := p.ToString();
    assert p.sep == [c];
    ParseJoin(p.sep, p.parts);
    assert Parse(body) == p.parts;
    var withEnd := if endSep then body + [c] else body;
    assert Parse(withEnd) == p.parts by {
      if endSep { SepAtEnds(body, c); }
    }
    assert Parse(p.AsDir(startSep, endSep)) == Parse(withEnd) by {
      if startSep {
        assert p.AsDir(startSep, endSep) == [c] + withEnd;
        SepAtEnds(withEnd, c);
      } else {
        assert p.AsDir(startSep, endSep) == withEnd;
      }
    }
  }

  /** A trailing separator adds no component. */
  lemma ParseTrailingSep(s: string)
    ensures Parse(s + "/") == Parse(s)
  {
    SplitAtSep(s, '/', "");
    assert s + ['/'] + "" == s + "/";
    DropEmptyAppend(Split(s), Split(""));
    assert DropEmpty([""]) == [];
  }

  /** Whatever follows a directory string is parsed as further components. */
  lemma ParseAfterDir(p: Path, s: string)
    requires p.Valid()
    ensures Parse(p.AsDir(false, true) + s) == p.parts + Parse(s)
  {
    var c := p.sep[0];
    var body := p.ToString();
    assert p.sep == [c];
    assert p.AsDir(false, true) + s == body + [c] + s;
    SplitAtSep(body, c, s);
    DropEmptyAppend(Split(body), Split(s));
    ParseJoin(p.sep, p.parts);
  }

  /** `Path("").as_dir()` is the separator alone, and without separators it is empty. */
  lemma AsDirOfRoot()
    ensures Root.AsDir(false, true) == "/"
    ensures Root.AsDir(false, false) == ""
  {
  }
}

=== FILE: placement.dfy ===
/** Where things sit in the folder tree: the placement invariant that path propagation
    (`_self_path_changed` / `_parent_path_changed`) establishes for every materialized
    descendant, and what a second propagation does to the first. */
module Placement {
  import opened Paths
  import opened Folders
  import Files

  /** A subfolder sits at its parent's path followed by its own name, rendered as a directory. */
  predicate PlacedUnder(c: Folder, parentPath: Path)
  {
    && c.path.Valid()
    && c.path.parts == parentPath.parts + [c.name]
    && c.pathStr == c.path.AsDir(false, true)
  }

  /** Every materialized subfolder is placed under its parent, recursively, and every file is
      owned by its folder's path with an up-to-date full path. */
  predicate Coherent(f: Folder)
    decreases f
  {
    && (forall i :: 0 <= i < |f.slots| && f.slots[i].Materialized? ==>
          PlacedUnder(f.slots[i].folder, f.path) && Coherent(f.slots[i].folder))
    && (forall j :: 0 <= j < |f.files| ==> f.files[j].owner == f.path && Files.PathCurrent(f.files[j]))
  }

  /** Every materialized subfolder, recursively, is named by a single component. */
  predicate NamesValid(f: Folder)
    decreases f
  {
    forall i :: 0 <= i < |f.slots| && f.slots[i].Materialized? ==>
      IsComponent(f.slots[i].folder.name) && NamesValid(f.slots[i].folder)
  }

  /** A subfolder moved under a valid path keeps its name and lands at `path / name`. */
  lemma ChildPath(path: Path, name: string)
    requires path.Valid() && IsComponent(name)
    ensures path.DivStr(name).parts == path.parts + [name]
    ensures path.DivStr(name).Valid()
    ensures LastOrEmpty(path.DivStr(name).parts) == name
  {
    ParseComponent(name);
  }

  /** Propagating a valid path places every materialized descendant correctly and refreshes
      every file's full path, whatever state the subtree was in before. */
  lemma {:induction false} RelocateCoherent(f: Folder, path: Path, notRoot: bool)
    requires path.Valid() && NamesValid(f)
    ensures Coherent(Relocate(f, path, notRoot)) && NamesValid(Relocate(f, path, notRoot))
    ensures forall i :: 0 <= i < |f.slots| && f.slots[i].Materialized? ==>
              Relocate(f, path, notRoot).slots[i].folder.name == f.slots[i].folder.name
    decreases f, 1
  {
    var r := Relocate(f, path, notRoot);
    forall i | 0 <= i < |f.slots| && f.slots[i].Materialized?
      ensures PlacedUnder(r.slots[i].folder, path) && Coherent(r.slots[i].folder)
      ensures NamesValid(r.slots[i].folder) && IsComponent(r.slots[i].folder.name)
      ensures r.slots[i].folder.name == f.slots[i].folder.name
    {
      RelocatedChild(f, path, notRoot, i);
    }
    forall j | 0 <= j < |r.files| ensures r.files[j].owner == r.path && Files.PathCurrent(r.files[j]) {
      assert r.files[j] == Files.ParentPathChanged(f.files[j], path);
    }
  }

  /** One materialized child of a relocated folder: it is relocated under `path / name`, and
      (by `RelocateCoherent` on the smaller subtree) placed and coherent there. */
  lemma {:induction false} RelocatedChild(f: Folder, path: Path, notRoot: bool, i: nat)
    requires path.Valid() && NamesValid(f)
    requires i < |f.slots| && f.slots[i].Materialized?
    ensures var c := Relocate(f, path, notRoot).slots[i].folder;
            && PlacedUnder(c, path) && Coherent(c) && NamesValid(c) && IsComponent(c.name)
            && c.name == f.slots[i].folder.name
    decreases f, 0
  {
    var c := f.slots[i].folder;
    var q := path.DivStr(c.name);
    assert IsComponent(c.name) && NamesValid(c);
    ChildPath(path, c.name);
    assert Relocate(f, path, notRoot).slots[i] == RelocateSlot(f.slots[i], path);
    assert RelocateSlot(f.slots[i], path) == Materialized(ParentPathChanged(c, path));
    assert ParentPathChanged(c, path) == Relocate(c, q, true);
    RelocateCoherent(c, q, true);
  }

  /** `_parent_path_changed` puts a subfolder with a valid name directly under the new path. */
  lemma ParentPathChangedPlaces(c: Folder, parentPath: Path)
    requires parentPath.Valid() && IsComponent(c.name) && NamesValid(c)
    ensures PlacedUnder(ParentPathChanged(c, parentPath), parentPath)
    ensures Coherent(ParentPathChanged(c, parentPath)) && NamesValid(ParentPathChanged(c, parentPath))
    ensures ParentPathChanged(c, parentPath).name == c.name
  {
    ChildPath(parentPath, c.name);
    RelocateCoherent(c, parentPath.DivStr(c.name), true);
  }

  /** A later propagation overrides an earlier one completely: only the last path pushed
      down matters. */
  lemma {:induction false} RelocateOverrides(f: Folder, p1: Path, b1: bool, p2: Path, b2: bool)
    requires p1.Valid() && NamesValid(f)
    ensures Relocate(Relocate(f, p1, b1), p2, b2) == Relocate(f, p2, b2)
    decreases f
  {
    var g := Relocate(f, p1, b1);
    var lhs := Relocate(g, p2, b2);
    var rhs := Relocate(f, p2, b2);
    forall i | 0 <= i < |f.slots|
      ensures lhs.slots[i] == rhs.slots[i]
    {
      if f.slots[i].Materialized? {
        var c := f.slots[i].folder;
        var q := p1.DivStr(c.name);
        ChildPath(p1, c.name);
        assert g.slots[i] == RelocateSlot(f.slots[i], p1);
        assert g.slots[i] == Materialized(Relocate(c, q, true));
        assert Relocate(c, q, true).name == c.name;
        assert lhs.slots[i] == RelocateSlot(g.slots[i], p2);
        assert rhs.slots[i] == RelocateSlot(f.slots[i], p2);
        RelocateOverrides(c, q, true, p2.DivStr(c.name), true);
      }
    }
    assert lhs.slots == rhs.slots;
    assert lhs.files == rhs.files;
  }

  /** A folder fresh from the constructor is coherent: it has no materialized subfolders and
      its files were built for its own path. */
  lemma OpenedCoherent(rev: Protocol.Revision, path: Path, lister: Protocol.Lister)
    requires Open(rev, path, lister).result.Ok?
    ensures Coherent(Open(rev, path, lister).result.value) && NamesValid(Open(rev, path, lister).result.value)
  {
  }
}

=== FILE: protocol.dfy ===
/** The boundary to the storage service: the listing records of the response types, the
    requests the library issues (one constructor per dashboard endpoint, carrying the query or
    form parameters the library fills in; the session token is left out), and the constants
    the library compares replies against. */
module Protocol {
  import opened Results

  /** Which revision of the library an operation follows: `blomp_api/` or the older `src/`. */
  datatype Revision = Current | Legacy

  /** `FileData`: a file entry of a folder listing. Sizes are byte counts, so `nat`. */
  datatype FileData = FileData(hash: string, lastModified: string, bytes: nat, name: string, contentType: string)

  /** One element of a listing's `data`: a `Subdir` dict (it has a `subdir` key) or a `FileData`. */
  datatype Entry = Subdir(subdir: string) | FileEntry(data: FileData)

  /** `ShareLinkResponse`: the `info` record of the share-link endpoint. */
  datatype ShareLinkResponse = ShareLinkResponse(
    id: int, container: string, path: string, link: string, added: Option<string>,
    createdAt: string, permission: int, status: int, size: int)

  datatype Kind = FileKind | FolderKind

  datatype Action = MoveAction | CopyAction

  datatype Request =
      /** `folder?prefix`: list one folder. */
    | ListFolder(prefix: string)
      /** `storage/create_folder`. */
    | CreateFolder(pseudoFolder: string, folderName: string)
      /** `storage/delete_object`. */
    | DeleteObject(path: string)
      /** `storage/delete_folder`. */
    | DeleteFolder(folder: string)
      /** `file/move`. */
    | MoveEntry(originalPath: string, action: Action, targetPath: string, fileName: string, kind: Kind)
      /** `file/rename`. */
    | RenameEntry(originalName: string, kind: Kind, name: string, path: string)
      /** `file/share/link`. */
    | ShareLink(path: string, size: int)
      /** `file/share/send`. */
    | ShareSend(email: string, link: string, permission: int)
      /** `file/share/switch`. */
    | ShareSwitch(status: int, id: int)

  /** The reply text that the rename, move and share-switch endpoints send on success. */
  const SuccessReply: string := "success"

  /** The content type of the directory markers that listings contain. */
  const DirectoryType: string := "application/directory"

  /** Files at least this large shadow a same-named subfolder entry (100 MiB). */
  const LargeFileSize: nat := 104857600

  /** The prefix put in front of the slug the share-link endpoint returns. */
  const ShareLinkBase: string := "https://sharedby.blomp.com/"

  /** The service's folder listings, by prefix string: what `folder?prefix` answers. */
  type Lister = string -> seq<Entry>
}

=== FILE: results.dfy ===
/** Outcomes of the library's operations: an optional value, and either a value or
    the Python exception the operation raises. */
module Results {

  datatype Option<+T> = None | Some(value: T)

  /** The exception classes the modelled code raises or lets escape. */
  datatype Error =
    | ValueError
    | TypeError
    | IndexError
    | AttributeError
    | PermissionError
    | FileExistsError
    | FileNotFoundError
    | ZeroDivisionError
      /** A bare `Exception` raised with the given message. */
    | Failed(message: string)

  datatype Result<+T> = Ok(value: T) | Err(error: Error)
}

=== FILE: text.dfy ===
/** Decimal rendering of integers, as Python's `str(int)` produces it, with its inverse. */
module Text {
  import opened Results

  predicate IsDigit(c: char) { '0' <= c <= '9' }

  function DigitChar(d: nat): (c: char)
    requires d < 10
    ensures IsDigit(c)
  {
    "0123456789"[d]
  }

  function DigitValue(c: char): (d: nat)
    requires IsDigit(c)
    ensures d < 10
  {
    (c as int - '0' as int) as nat
  }

  lemma DigitRoundTrip(d: nat)
    requires d < 10
    ensures DigitValue(DigitChar(d)) == d
  {
  }

  /** The decimal digits of `n`, most significant first, without leading zeros. */
  function Digits(n: nat): (s: string)
    ensures |s| >= 1
    ensures forall i :: 0 <= i < |s| ==> IsDigit(s[i])
    decreases n
  {
    if n < 10 then [DigitChar(n)] else Digits(n / 10) + [DigitChar(n % 10)]
  }

  /** `str(n)` for a Python `int`. */
  function Decimal(n: int): string
  {
    if n < 0 then "-" + Digits(-n) else Digits(n)
  }

  /** The value of a non-empty string of decimal digits. */
  function DigitsValue(s: string): nat
    requires forall i :: 0 <= i < |s| ==> IsDigit(s[i])
    decreases |s|
  {
    if |s| == 0 then 0 else DigitsValue(s[..|s| - 1]) * 10 + DigitValue(s[|s| - 1])
  }

  predicate AllDigits(s: string) { |s| > 0 && forall i :: 0 <= i < |s| ==> IsDigit(s[i]) }

  /** Reads back what `Decimal` writes: an optional minus sign and at least one digit. */
  function ParseDecimal(s: string): Option<int>
  {
    if |s| > 0 && s[0] == '-' && AllDigits(s[1..]) then Some(0 - DigitsValue(s[1..]) as int)
    else if AllDigits(s) then Some(DigitsValue(s) as int)
    else None
  }

  lemma {:induction false} DigitsValueOfDigits(n: nat)
    ensures DigitsValue(Digits(n)) == n
    decreases n
  {
    if n < 10 {
      DigitRoundTrip(n);
    } else {
      var s := Digits(n);
      assert s[..|s| - 1] == Digits(n / 10);
      DigitsValueOfDigits(n / 10);
      DigitRoundTrip(n % 10);
    }
  }

  /** Parsing the decimal rendering of any integer gives the integer back. */
  lemma DecimalRoundTrip(n: int)
    ensures ParseDecimal(Decimal(n)) == Some(n)
  {
    if n < 0 {
      NegativeRoundTrip(n);
    } else {
      var d := Digits(n);
      assert Decimal(n) == d;
      assert d[0] != '-' by { assert IsDigit(d[0]); }
      assert AllDigits(d);
      DigitsValueOfDigits(n);
    }
  }

  lemma NegativeRoundTrip(n: int)
    requires n < 0
    ensures ParseDecimal(Decimal(n)) == Some(n)
  {
    var m: nat := -n;
    var d := Digits(m);
    assert Decimal(n) == "-" + d;
    DigitsValueOfDigits(m);
    assert DigitsValue(d) == m;
    ParseSigned(d);
  }

  lemma ParseSigned(d: string)
    requires AllDigits(d)
    ensures ParseDecimal("-" + d) == Some(0 - DigitsValue(d) as int)
  {
    var s := "-" + d;
    assert s[0] == '-' && s[1..] == d;
  }

  /** Distinct integers render differently. */
  lemma DecimalInjective(a: int, b: int)
    requires Decimal(a) == Decimal(b)
    ensures a == b
  {
    DecimalRoundTrip(a);
    DecimalRoundTrip(b);
  }

  /** A rendered integer never contains a comma, a space or a parenthesis. */
  lemma DecimalAlphabet(n: int)
    ensures forall i :: 0 <= i < |Decimal(n)| ==> Decimal(n)[i] == '-' || IsDigit(Decimal(n)[i])
  {
  }
}

=== FILE: upload.dfy ===
/** The argument checks and the multipart form of `Folder.upload` in the current revision.
    The transfer itself (a thread streaming the form) is not part of this model; what is
    modelled is whether the upload starts, and with which form fields and monitor. */
module Uploads {
  import opened Results
  import opened Folders
  import Text
  import Monitors

  /** What `upload` learns from the stream it is given.
      `hasName`: whether the stream has a `name` attribute.
      `lastPart`: the last component of `pathlib.Path(stream.name)`, `None` when it has none.
      `lengthHint`: what `total_len` reports, `None` when it cannot tell.
      `seekable`: `stream.seekable()`.
      `endPosition`: what seeking to the end returns. */
  datatype Stream = Stream(hasName: bool, lastPart: Option<string>, lengthHint: Option<nat>, seekable: bool, endPosition: nat)

  /** A started upload: the form fields, the file part's name and content type, and
      the monitor handed back to the caller. */
  datatype Started = Started(form: Form, fileName: string, contentType: string, monitor: Monitors.Monitor)

  const DefaultContentType: string := "application/octet-stream"

  /** The name the file gets: a non-empty `file_name` argument, otherwise the last component
      of the stream's name; a stream without a name raises `ValueError`. */
  function ResolveName(fileName: Option<string>, s: Stream): (r: Result<string>)
    ensures fileName.Some? && fileName.value != "" ==> r == Ok(fileName.value)
    ensures (fileName.None? || fileName.value == "") && !s.hasName ==> r == Err(ValueError)
    ensures (fileName.None? || fileName.value == "") && s.hasName ==>
              (s.lastPart.None? ==> r == Err(IndexError)) && (s.lastPart.Some? ==> r == Ok(s.lastPart.value))
  {
    if fileName.Some? && fileName.value != "" then Ok(fileName.value)
    else if !s.hasName then Err(ValueError)
    else if s.lastPart.None? then Err(IndexError)
    else Ok(s.lastPart.value)
  }

  /** The size as written: only a missing or zero length hint on a seekable stream gets past
      the check, and then the end position is the size. */
  function ResolveSize(s: Stream): (r: Result<nat>)
    ensures r.Ok? <==> (s.lengthHint.None? || s.lengthHint == Some(0)) && s.seekable
    ensures r.Ok? ==> r.value == s.endPosition
    ensures r.Err? ==> r.error == ValueError
  {
    if (s.lengthHint.None? || s.lengthHint == Some(0)) && s.seekable then Ok(s.endPosition) else Err(ValueError)
  }

  /** The size as evidently intended: a non-zero length hint is the size; otherwise the stream
      is measured by seeking, which needs it to be seekable. */
  function ResolveSizeIntended(s: Stream): (r: Result<nat>)
    ensures s.lengthHint.Some? && s.lengthHint.value != 0 ==> r == Ok(s.lengthHint.value)
    ensures (s.lengthHint.None? || s.lengthHint == Some(0)) ==> r == ResolveSize(s)
  {
    if s.lengthHint.Some? && s.lengthHint.value != 0 then Ok(s.lengthHint.value) else ResolveSize(s)
  }

  /** `__guess_mime`: the guessed type, or the generic binary type when there is no guess. */
  function ContentType(guess: Option<string>): (r: string)
    ensures guess.Some? && guess.value != "" ==> r == guess.value
    ensures r != ""
  {
    if guess.Some? && guess.value != "" then guess.value else DefaultContentType
  }

  /** The multipart form fields, one per key: `dzUuid`, `dzChunkIndex`, `dzTotalFileSize`,
      `dzCurrentChunkSize`, `dzTotalChunkCount`, `dzChunkByteOffset`, `dzChunkSize`,
      `dzFilename`, `folder`, `sub_folder`, `_token`, `client-id` and `pseudo-folder`. */
  datatype Form = Form(
    uuid: string, chunkIndex: string, totalFileSize: string, currentChunkSize: string,
    totalChunkCount: string, chunkByteOffset: string, chunkSize: string, fileName: string,
    folder: string, subFolder: string, token: string, clientId: string, pseudoFolder: string)

  /** The form for a file of `size` bytes called `fileName` going into the directory `pathStr`. */
  function MakeForm(boundary: string, size: nat, fileName: string, pathStr: string, token: string, clientId: string)
    : (r: Form)
    ensures r.uuid == boundary && r.fileName == fileName && r.token == token && r.clientId == clientId
    ensures r.subFolder == ""
  {
    Form(boundary, "0", Text.Decimal(size), Text.Decimal(size), "1", "0", Text.Decimal(size + 1), fileName,
         pathStr, "", token, clientId, pathStr)
  }

  /** The checks and form of `upload`, given how the size is resolved. */
  function Prepare(f: Folder, s: Stream, fileName: Option<string>, replaceIfExists: bool, size: Result<nat>,
                   boundary: string, token: string, clientId: string, guess: Option<string>): (r: Result<Started>)
  {
    match ResolveName(fileName, s)
    case Err(e) => Err(e)
    case Ok(name) =>
      if size.Err? then Err(size.error)
      else if !replaceIfExists && GetFileByName(f, name).Some? then Err(FileExistsError)
      else Ok(Started(MakeForm(boundary, size.value, name, f.pathStr, token, clientId), name, ContentType(guess),
                      Monitors.New(size.value)))
  }

  /** `upload(stream, file_name, replace_if_exists)` as written: the name is checked first,
      then the size, then whether a cached file already has the name. Any stream whose
      length is known and non-zero is refused. */
  function Upload(f: Folder, s: Stream, fileName: Option<string>, replaceIfExists: bool,
                  boundary: string, token: string, clientId: string, guess: Option<string>): (r: Result<Started>)
    ensures ResolveName(fileName, s).Err? ==> r == Err(ResolveName(fileName, s).error)
    ensures ResolveName(fileName, s).Ok? && ResolveSize(s).Err? ==> r == Err(ValueError)
    ensures s.lengthHint.Some? && s.lengthHint.value != 0 ==> r.Err?
    ensures r.Ok? <==> && ResolveName(fileName, s).Ok? && ResolveSize(s).Ok?
                       && (replaceIfExists || forall j :: 0 <= j < |f.files| ==> f.files[j].name != ResolveName(fileName, s).value)
    ensures ResolveName(fileName, s).Ok? && ResolveSize(s).Ok? && !replaceIfExists
            && (exists j :: 0 <= j < |f.files| && f.files[j].name == ResolveName(fileName, s).value)
            ==> r == Err(FileExistsError)
    ensures r.Ok? ==> r.value.fileName == ResolveName(fileName, s).value
                      && r.value.monitor == Monitors.New(s.endPosition)
                      && r.value.contentType == ContentType(guess)
                      && r.value.form == MakeForm(boundary, s.endPosition, r.value.fileName, f.pathStr, token, clientId)
  {
    Prepare(f, s, fileName, replaceIfExists, ResolveSize(s), boundary, token, clientId, guess)
  }

  /** `upload` with the size check evidently intended. */
  function UploadIntended(f: Folder, s: Stream, fileName: Option<string>, replaceIfExists: bool,
                          boundary: string, token: string, clientId: string, guess: Option<string>): (r: Result<Started>)
    ensures ResolveName(fileName, s).Err? ==> r == Err(ResolveName(fileName, s).error)
    ensures r.Ok? <==> && ResolveName(fileName, s).Ok? && ResolveSizeIntended(s).Ok?
                       && (replaceIfExists || forall j :: 0 <= j < |f.files| ==> f.files[j].name != ResolveName(fileName, s).value)
    ensures r.Ok? ==> r.value.fileName == ResolveName(fileName, s).value
                      && r.value.monitor == Monitors.New(ResolveSizeIntended(s).value)
                      && r.value.contentType == ContentType(guess)
                      && r.value.form == MakeForm(boundary, ResolveSizeIntended(s).value, r.value.fileName, f.pathStr,
                                                  token, clientId)
  {
    Prepare(f, s, fileName, replaceIfExists, ResolveSizeIntended(s), boundary, token, clientId, guess)
  }

  /** As written, a named stream of known non-zero length is refused with `ValueError`, where
      the intended check starts the upload with that length as its size. */
  lemma KnownLengthRefused(f: Folder, s: Stream, name: string, boundary: string, token: string, clientId: string,
                           guess: Option<string>)
    requires name != "" && s.lengthHint.Some? && s.lengthHint.value != 0
    requires forall j :: 0 <= j < |f.files| ==> f.files[j].name != name
    ensures Upload(f, s, Some(name), false, boundary, token, clientId, guess) == Err(ValueError)
    ensures var r := UploadIntended(f, s, Some(name), false, boundary, token, clientId, guess);
            r.Ok? && r.value.monitor.total == s.lengthHint.value
  {
  }

  /** Where the size check is passed, the intended check agrees with the written one. */
  lemma IntendedAgreesWhenMeasured(f: Folder, s: Stream, fileName: Option<string>, replace: bool,
                                   boundary: string, token: string, clientId: string, guess: Option<string>)
    requires s.lengthHint.None? || s.lengthHint == Some(0)
    ensures UploadIntended(f, s, fileName, replace, boundary, token, clientId, guess)
            == Upload(f, s, fileName, replace, boundary, token, clientId, guess)
  {
  }

  /** A started upload sends the whole file as one chunk into this folder, and its monitor
      counts against the size the form declares. */
  lemma StartedUploadIsOneChunk(f: Folder, s: Stream, fileName: Option<string>, replace: bool,
                                boundary: string, token: string, clientId: string, guess: Option<string>)
    requires Upload(f, s, fileName, replace, boundary, token, clientId, guess).Ok?
    ensures var st := Upload(f, s, fileName, replace, boundary, token, clientId, guess).value;
            && Text.ParseDecimal(st.form.totalFileSize) == Some(st.monitor.total)
            && Text.ParseDecimal(st.form.chunkIndex) == Some(0)
            && Text.ParseDecimal(st.form.totalChunkCount) == Some(1)
            && st.form.fileName == st.fileName
            && st.form.folder == f.pathStr && st.form.pseudoFolder == f.pathStr
  {
    var st := Upload(f, s, fileName, replace, boundary, token, clientId, guess).value;
    FormIsOneChunk(boundary, s.endPosition, st.fileName, f.pathStr, token, clientId);
  }

  /** The form describes one chunk holding the whole file: index and offset 0, one chunk, the
      total and current sizes both reading back as the size, a chunk size one larger, and the
      folder's directory string as both `folder` and `pseudo-folder`. */
  lemma FormIsOneChunk(boundary: string, size: nat, fileName: string, pathStr: string, token: string, clientId: string)
    ensures var form := MakeForm(boundary, size, fileName, pathStr, token, clientId);
            && Text.ParseDecimal(form.chunkIndex) == Some(0)
            && Text.ParseDecimal(form.chunkByteOffset) == Some(0)
            && Text.ParseDecimal(form.totalChunkCount) == Some(1)
            && Text.ParseDecimal(form.totalFileSize) == Some(size as int)
            && form.currentChunkSize == form.totalFileSize
            && Text.ParseDecimal(form.chunkSize) == Some(size as int + 1)
            && form.folder == pathStr && form.pseudoFolder == pathStr
  {
    Text.DecimalRoundTrip(0);
    Text.DecimalRoundTrip(1);
    Text.DecimalRoundTrip(size);
    Text.DecimalRoundTrip(size + 1);
  }
}
